=== FILE: README.md ===
# Tiny-C parser engine, modelled in Dafny

This project models the parser of the Tiny-C front end and proves properties of that model. It covers:

- the lexer that cuts source text into tokens;
- the `TokenSet` bitset;
- the event-buffer parser with its markers;
- the recursive-descent grammar rules;
- the replay pass `Event::sink`, which turns the flat buffer into tree-sink calls;
- the `parse` and `parse_from_tokens` entry points.

Modules, one per part of the crate:

| module | file | models |
|---|---|---|
| `Kinds` | kinds.dfy | `TokenKind`, `SyntaxKind`, kind ordinals, the `From<TokenKind>` embedding, keyword lookup |
| `TokenSets` | token_set.dfy | `TokenSet` over a `bv128` word: `EMPTY`, `new`, `&`, `\|`, `\|= kind`, `& kind`, `from_iter` |
| `Lexer` | lexer.dfy | `lex`, `tokenize`, the character classes, UTF-8 lengths |
| `Events` | events.dfy | `Event`, the sink calls (`Call`), counting, forward links and reachability, `Replay` (the meaning of the replay as a function) |
| `Parsing` | parser.dfy | `VecTokenSource`, `EmptyTokenSource`, the `Parser` class, `Marker`, `CompletedMarker` |
| `Fragments` | fragments.dfy | what a rule leaves in the buffer: balanced fragments, nodes, forward-parent chains |
| `Grammar` | grammar.dfy | `Program`, `Statement`, `Expression`, `Term` and their sub-rules |
| `EventSink` | sink.dfy | `Event::sink` on an array, proved against `Replay` |
| `EventSinkAsWritten` | sink_as_written.dfy | `Event::sink` as the repository writes it: its agreement with `Replay` on buffers without forward parents, and its failure on the documented `a<b` buffer (see Findings) |
| `TinyC` | lib.dfy | `parse`, `parse_from_tokens`, the test harness that lexes, drops whitespace and parses |

How the model represents the system:

- The parser is a class. It holds an event buffer (`seq<Event>`) and a token source, which is itself a class with a cursor.
- Each grammar rule is a method on the parser. Each states what it leaves in the buffer: a balanced fragment whose leaves are exactly the tokens it consumed. A node rule's fragment is one node of that rule's kind.
- Each rule's facts about the buffer are put together by a lemma on plain sequences placed next to it.
- A tree sink is modelled by the trace of calls it receives (`seq<Call>`).
- A panic of the original is reported as an `Outcome` failure. These are `unwrap` on a missing token, a failed `bump` assertion, and the endless `Program` loop.

## Model

| member | source | states |
|---|---|---|
| Kinds.Ordinal | templates/token_kinds.rs:96-100 | `kind as u16` is below 128 for every kind, so `1u128 << kind` never overflows the word |
| Kinds.OrdinalInjective | templates/token_kinds.rs:96-100 | distinct kinds have distinct ordinals |
| Kinds.Embed | templates/syntax_kinds.rs:73-82 | the token `ERROR` becomes the syntax `ERROR`, and exactly it does; every other token kind becomes the terminal syntax kind of the same kind |
| Kinds.EmbedInjective | templates/syntax_kinds.rs:73-82 | two token kinds convert to the same syntax kind exactly when they are equal |
| Kinds.FromKeyword | templates/token_kinds.rs:42-49 | `Some(k)` exactly when `ident` is the spelling of keyword `k`; `None` when no keyword is spelled so |
| Kinds.FromIdentifier | templates/token_kinds.rs:51-53 | the keyword `ident` spells if any, `Identifier` exactly when it spells none |
| TokenSets.TokenSet.Intersect | crates/parser/src/token_set.rs:20-26 | a kind is in `a & b` iff it is in both |
| TokenSets.TokenSet.Union | crates/parser/src/token_set.rs:34-40 | a kind is in `a \| b` iff it is in either |
| TokenSets.TokenSet.With | crates/parser/src/token_set.rs:56-68 | `set \| kind` holds `kind` and every member of `set`, and nothing else |
| TokenSets.AndWordBit | crates/parser/src/token_set.rs:20-26 | bit `n` of `x & y` is set iff it is set in both words |
| TokenSets.OrWordBit | crates/parser/src/token_set.rs:34-40 | bit `n` of `x \| y` is set iff it is set in either word |
| TokenSets.ShiftInjective | crates/parser/src/token_set.rs:15-17 | distinct kinds shift to distinct bits |
| TokenSets.EmptyContainsNothing | crates/parser/src/token_set.rs:13 | `EMPTY` contains no kind |
| TokenSets.Singleton | crates/parser/src/token_set.rs:15-17 | `TokenSet::new(kind)` contains exactly `kind` |
| TokenSets.ContainsIsSingletonTest | crates/parser/src/token_set.rs:48-54 | membership equals the source's test `set & TokenSet::new(kind) != EMPTY` |
| TokenSets.FromIter | crates/parser/src/token_set.rs:70-78 | the loop builds a set containing exactly the kinds iterated |
| Lexer.Utf8Len | crates/lexer/src/lib.rs:63 | a character takes 1 to 4 bytes, and 1 exactly when it is ASCII |
| Lexer.ByteLenAppend | crates/lexer/src/lib.rs:23 | the byte length of a concatenation is the sum of the byte lengths |
| Lexer.ByteLenAtLeastCount | crates/lexer/src/lib.rs:63 | a string has at least as many bytes as characters |
| Lexer.IsWhitespace | crates/lexer/src/lib.rs:68-70 | `char::is_whitespace` holds for space, tab, newline and carriage return, and for no digit or identifier character |
| Lexer.IsDigit | crates/lexer/src/lib.rs:76-78 | an ASCII digit is one byte long; `0` and `9` are digits |
| Lexer.IsIdent | crates/lexer/src/lib.rs:84-86 | an identifier character is one byte long and never a digit; `a` and `z` are identifier characters |
| Lexer.RunLength | crates/lexer/src/lib.rs:33-43 | `find(is_not_X).unwrap_or(len)` is the length of the maximal leading run of class X |
| Lexer.MaximalRunUnique | crates/lexer/src/lib.rs:33-43 | any length that is a maximal run is that run length |
| Lexer.Punctuation | crates/lexer/src/lib.rs:51-62 | the kind is `Error` exactly for characters other than the nine punctuation characters |
| Lexer.Span | crates/lexer/src/lib.rs:28-65 | the first token of a non-empty source spans between 1 and all of its characters |
| Lexer.Lex | crates/lexer/src/lib.rs:28-66 | `len >= 1`, equal to the byte length of the span. A whitespace, digit or lowercase start gives the maximal run of that class as `Whitespace`, `Integer`, or the keyword/`Identifier` kind of the run. Any other start is a one-character token of its punctuation kind, `len` = its UTF-8 length |
| Lexer.DropBytesPrefix | crates/lexer/src/lib.rs:23 | slicing off the byte length of a prefix leaves exactly the rest |
| Lexer.DropFirstToken | crates/lexer/src/lib.rs:22-23 | `&source[token.len..]` is the source after the token's span |
| Lexer.TotalLenAppend | crates/lexer/src/lib.rs:17-26 | the lengths of two token runs add up when they are joined |
| Lexer.TokenizationCovers | crates/lexer/src/lib.rs:17-26 | every token has `len >= 1` and the lengths sum to the byte length of the source |
| Lexer.Tokenize | crates/lexer/src/lib.rs:17-26 | the loop yields the declarative token stream, whose lengths sum to the source length |
| Events.EventCountsStep | crates/parser/src/event.rs:68-69 | one more slot of the buffer adds its own `Start`, `Finish` and plain call to the counts |
| Events.CallCountsAppend | crates/parser/src/event.rs:87-92 | one more call adds its own `start` or `finish` to the counts |
| Events.AppendKeepsPrefixes | crates/parser/src/event.rs:87-92 | a call after which the nesting is still non-negative keeps every prefix non-negative |
| Events.StartCountAbandon | crates/parser/src/event.rs:69 | draining a slot to `Abandoned` removes one `Start` exactly when it held one |
| Events.RemainingStarts | crates/parser/src/event.rs:69-85 | a buffer drained up to `i` holds no more `Start`s than the original has from `i` on |
| Events.AllAbandonedNoStarts | crates/parser/src/event.rs:62 | an all-`Abandoned` buffer has no `Start` |
| Events.DistinctAt | crates/parser/src/event.rs:46-48 | in an injective buffer two link slots name different parents |
| Events.ReachGrows | crates/parser/src/event.rs:76-84 | a slot reached by the walks begun before `i` is reached by those begun before `i + 1` |
| Events.ReachFromIsReach | crates/parser/src/event.rs:76-84 | a slot the walk from `s` reaches is reached from before `s + 1` |
| Events.ReachSplit | crates/parser/src/event.rs:76-84 | reaching from before `i + 1` is reaching from before `i` or from slot `i` |
| Events.ReachThrough | crates/parser/src/event.rs:76-84 | what a reached slot's walk reaches is reached |
| Events.NoLinkReachesNothing | crates/parser/src/event.rs:78 | a slot without forward offset starts no walk |
| Events.ReachFromBeyondFirst | crates/parser/src/event.rs:79 | every slot a walk reaches is at or beyond the first forward parent, so offsets only move forward |
| Events.ReachPassesThrough | crates/parser/src/event.rs:78-85 | a slot reachable beyond the walk's position is reachable from that position |
| Events.OpenReversed | crates/parser/src/event.rs:86-88 | one `start` per collected kind, the last collected opening first |
| Parsing.VecTokenSource.constructor | crates/parser/src/lib.rs:85-91 | a source over the given tokens with the cursor at 0 |
| Parsing.VecTokenSource.Empty | crates/parser/src/lib.rs:45-58 | `EmptyTokenSource`: no tokens, every lookahead `None`, and marked as the empty source, whose `bump` changes nothing |
| Parsing.VecTokenSource.La | crates/parser/src/lib.rs:73-75 | `tokens[here + n]` when it exists, `None` past the end |
| Parsing.VecTokenSource.Bump | crates/parser/src/lib.rs:57-79 | the vector source's cursor moves one on, whether or not a token is left; the empty source's `bump` leaves it where it is |
| Parsing.AppendKeepsLinks | crates/parser/src/parser.rs:30-32 | pushing an event without offset keeps every offset valid and injective |
| Parsing.ReplaceKeepsLinks | crates/parser/src/parser.rs:175-181 | rewriting a slot to an unlinked `Start` or `Abandoned` keeps the links sound |
| Parsing.PopKeepsLinks | crates/parser/src/parser.rs:196-201 | popping a last slot that no offset names keeps the links sound |
| Parsing.FinishUntargeted | crates/parser/src/parser.rs:250-254 | a `Finish` slot is never a forward target |
| Parsing.LastUntargeted | crates/parser/src/parser.rs:196-201 | the slot just pushed is not a forward target |
| Parsing.PrecedeKeepsLinks | crates/parser/src/parser.rs:224-234 | linking a completed `Start` to a freshly reserved slot keeps the links sound |
| Parsing.PrecedeThenAbandonDangles | crates/parser/src/parser.rs:191-202 | abandoning the marker `precede` returns pops a slot that is still named, leaving an offset past the end |
| Parsing.Expected | crates/parser/src/parser.rs:128 | the `expect` message is "expected " followed by the kind's `Debug` name |
| Parsing.ExpectedNamesKind | crates/parser/src/parser.rs:128 | two `expect` messages are equal exactly when they name the same kind |
| Parsing.RecoverySet | crates/parser/src/parser.rs:140-142 | the recovery set is the given kinds plus both curly braces |
| Parsing.Marker.Complete | crates/parser/src/parser.rs:172-187 | the `Abandoned` slot becomes `Start(kind, None)`, one `Finish` is pushed, and the completed marker spans old slot to old length |
| Parsing.Marker.Abandon | crates/parser/src/parser.rs:191-202 | the slot is popped when it is last; otherwise the buffer is unchanged |
| Parsing.CompletedMarker.Precede | crates/parser/src/parser.rs:224-234 | one `Abandoned` slot is pushed, and the node's forward offset is set to the strictly positive distance to it; no other slot changes |
| Parsing.CompletedMarker.Undo | crates/parser/src/parser.rs:238-262 | the unlinked `Start` becomes `Abandoned`. The `Finish` is popped when it is last and becomes `Abandoned` otherwise. The marker is at the same slot |
| Parsing.Parser.constructor | crates/parser/src/parser.rs:36-42 | an empty buffer over the source |
| Parsing.Parser.Current | crates/parser/src/parser.rs:49-51 | the token under the cursor, `None` at the end |
| Parsing.Parser.La | crates/parser/src/parser.rs:54-58 | the `n`th token ahead for `n <= 3`, `None` past the end |
| Parsing.Parser.At | crates/parser/src/parser.rs:61-63 | true iff the current token is `kind` |
| Parsing.Parser.LaAt | crates/parser/src/parser.rs:66-68 | true iff the `n`th token ahead is `kind` |
| Parsing.Parser.AtAny | crates/parser/src/parser.rs:71-73 | true iff there is a current token and it is in the set |
| Parsing.Parser.BumpAs | crates/parser/src/parser.rs:110-113 | one token consumed and one `Leaf(kind)` pushed |
| Parsing.Parser.Eat | crates/parser/src/parser.rs:76-83 | consumes and pushes the leaf iff the current token is `kind`; otherwise nothing changes |
| Parsing.Parser.Start | crates/parser/src/parser.rs:89-93 | pushes one `Abandoned`; the marker is at the old length |
| Parsing.Parser.Bump | crates/parser/src/parser.rs:96-98 | as `Eat` when the token matches; otherwise it aborts with `Mismatch(kind)`, changing nothing |
| Parsing.Parser.BumpAny | crates/parser/src/parser.rs:101-105 | the current token, if any, is consumed as a leaf of its own kind |
| Parsing.Parser.Error | crates/parser/src/parser.rs:117-120 | pushes one `Error` event |
| Parsing.Parser.Expect | crates/parser/src/parser.rs:124-131 | the leaf on a match; on a miss one `Error` "expected kind", nothing consumed, false |
| Parsing.Parser.ErrRecover | crates/parser/src/parser.rs:139-152 | on a recovery token or curly brace: `Abandoned` then `Error`, nothing consumed. Otherwise: `Start(ERROR)`, `Error`, the current token's leaf (when there is one), `Finish` |
| Parsing.Parser.ErrBump | crates/parser/src/parser.rs:134-136 | `err_recover` with only the curly braces as recovery |
| Parsing.PopOptimizations | crates/parser/src/parser.rs:277-286 | the buffer length is 0 before, after `start().abandon()`, and after `start().complete().undo().abandon()` |
| Fragments.Terminals | crates/parser/src/parser.rs:78 | the `kind.into()` conversion of a run of tokens, position by position (`ERROR` to the syntax `ERROR`) |
| Fragments.CountsAppend | crates/parser/src/parser.rs:30-32 | counts and leaves of a joined buffer are those of its parts |
| Fragments.CountsReplace | crates/parser/src/parser.rs:175-181 | rewriting a slot with one of the same shape keeps counts and leaves |
| Fragments.DyckEmpty | crates/parser/src/parse/mod.rs:50-56 | the empty fragment is balanced |
| Fragments.DyckConcat | crates/parser/src/parse/mod.rs:52-54 | two balanced fragments in a row are balanced |
| Fragments.DyckSingle | crates/parser/src/parser.rs:117-120 | a lone leaf, error or `Abandoned` is balanced |
| Fragments.DyckReplace | crates/parser/src/parser.rs:175-181 | rewriting a slot with one of the same shape keeps a fragment balanced |
| Fragments.Wrap | crates/parser/src/parser.rs:172-187 | a `Start`/`Finish` pair around a balanced body is one node with the body's leaves |
| Fragments.OpenerCounts | crates/parser/src/parser.rs:177-180 | a lone `Start` opens one node and holds no leaf |
| Fragments.WrapPrefix | crates/parser/src/parser.rs:172-187 | every proper prefix of a wrapped body stays inside the node |
| Fragments.GrownRefl | crates/parser/src/parse/Statement.rs:49 | a rule that adds nothing consumes nothing |
| Fragments.GrownJoin | crates/parser/src/parse/Statement.rs:35-37 | two growths in a row are one growth over the joined tokens |
| Fragments.TerminalsSplit | crates/parser/src/parser.rs:78 | the embedding of a run splits where the run does |
| Fragments.GrownLeaf | crates/parser/src/parser.rs:110-113 | a leaf of the current token consumes exactly that token |
| Fragments.GrownOther | crates/parser/src/parser.rs:117-120 | an error event consumes nothing |
| Fragments.NodeGrown | crates/parser/src/parser.rs:172-187 | completing the reserved slot over a grown body makes the addition one node |
| Fragments.GrownReplace | crates/parser/src/parser.rs:224-234 | rewriting a slot of the addition with one of the same shape keeps the growth |
| Fragments.ChainAtKinds | crates/parser/src/event.rs:75-85 | the kinds the replay collects from a chain's first slot are the chain's kinds |
| Fragments.ChainGrows | crates/parser/src/parser.rs:224-234 | preceding the chain's last node with a new node extends the chain by it |
| Grammar.TokenAt | crates/parser/src/lib.rs:73-75 | the token at a position, `None` past the end |
| Grammar.ConsumedLeaf | crates/parser/src/parser.rs:110-113 | pushing the current token's leaf consumes it |
| Grammar.ConsumedJoin | crates/parser/src/parse/Statement.rs:35-37 | consecutive consumptions join |
| Grammar.Completed | crates/parser/src/parser.rs:172-187 | completing the reserved slot around a balanced body makes one node |
| Grammar.NodeAssembled | crates/parser/src/parse/mod.rs:51-55 | `start`, a balanced body, then `complete` leave one node over what the body consumed |
| Grammar.ErrorNodeGrown | crates/parser/src/parser.rs:139-152 | each of the three fragments `err_recover` can leave is balanced and consumes 0 or 1 tokens |
| Grammar.TokenNode | crates/parser/src/parse/Term.rs:6-10 | succeeds iff the current token is the given one, and leaves exactly `Start(kind)`, its leaf, `Finish` |
| Grammar.TokenAssembled | crates/parser/src/parse/Term.rs:6-10 | a one-token node is one node holding that leaf |
| Grammar.ParseIdentifier | crates/parser/src/parse/Term.rs:6-10 | `TermIdentifier` holding exactly the `Identifier` leaf; aborts unless an identifier is current |
| Grammar.ParseInteger | crates/parser/src/parse/Term.rs:15-19 | `TermInteger` holding exactly the `Integer` leaf; aborts unless an integer is current |
| Grammar.TermExpressionAssembled | crates/parser/src/parse/Term.rs:24-28 | the term wraps the parenthesized expression as one `TermExpression` node |
| Grammar.ParseTermExpression | crates/parser/src/parse/Term.rs:24-28 | one `TermExpression` node whose first child is `ExpressionParenthesized`; aborts unless `(` is current |
| Grammar.ParseTerm | crates/parser/src/parse/mod.rs:133-143 | the identifier, integer or parenthesized term by the current token. Otherwise `err_bump` with the fixed message: nothing consumed at a curly brace, the token consumed into an `ERROR` node otherwise |
| Grammar.ParenthesizedAssembled | crates/parser/src/parse/Expression.rs:6-12 | `(`, a balanced inner expression, then `)` or an "expected" error, form one node |
| Grammar.ParseParenthesized | crates/parser/src/parse/Expression.rs:6-12 | one `ExpressionParenthesized` node: the `(` leaf first, then the `)` leaf or an error when it is missing; aborts only when `(` is not current; returns the node's completed marker |
| Grammar.AssignmentAssembled | crates/parser/src/parse/Expression.rs:18-24 | identifier, `=` and the value expression form one node, whose fourth slot is the value's first node |
| Grammar.ParseAssignment | crates/parser/src/parse/Expression.rs:18-24 | one `ExpressionAssignment` node starting with the identifier and `=` leaves; aborts unless both are ahead. The value is a whole `Expression`: its first node has the operand kind the tokens after `=` select (another assignment for `b = ..`), and it takes every following `<`, `+`, `-`, so no operator is current afterwards and assignment nests to the right (`a = b < c` is `a = (b < c)`) |
| Grammar.ParseExpressionTerm | crates/parser/src/parse/Expression.rs:29-33 | one `ExpressionTerm` node around exactly one term: the exact events for an identifier, an integer, a brace, the end of input and any other token, and one `TermExpression` node inside it at `(` |
| Grammar.TermWrapped | crates/parser/src/parse/Expression.rs:29-33 | completing the reserved slot leaves the term's events, and only them, between the `ExpressionTerm` start and finish |
| Grammar.ParseOperand | crates/parser/src/parse/mod.rs:91-99 | `(` first, then identifier followed by `=`, else a term; the node has the kind that lookahead selects, and after an assignment no operator is current |
| Grammar.ParseExpression | crates/parser/src/parse/mod.rs:90-121 | a forward-parent chain from the first operand, one node per operator in input order, so operators group to the left. Its first slot is a `Start` of the first operand's kind, and an expression that starts with an assignment has no operator node of its own. It never aborts, and stops exactly when no `<`, `+` or `-` is current |
| Grammar.ChainHead | crates/parser/src/parse/mod.rs:90-121 | the first slot of a forward-parent chain is a `Start` of the chain's first kind |
| Grammar.ParseBinary | crates/parser/src/parse/mod.rs:102-106 | precedes the expression so far with a node of the operator's kind holding the operator leaf and the next operand, and extends the chain by it |
| Grammar.PrecedeStep | crates/parser/src/parse/mod.rs:102-106 | one operator step keeps the growth balanced and extends the chain and its operators |
| Grammar.PrecedeConsumed | crates/parser/src/parse/mod.rs:102-106 | the operator step consumes the operator and the operand's tokens |
| Grammar.PrecedeFrame | crates/parser/src/parser.rs:224-234 | after the step, only the preceded slot changed among the old slots |
| Grammar.PrecedeOperators | crates/parser/src/parse/mod.rs:102-116 | the new node holds the operator's leaf and has the operator's kind |
| Grammar.ExpressionStatementAssembled | crates/parser/src/parse/Statement.rs:47-54 | expression then `;` or an "expected" error form one node |
| Grammar.ParseExpressionStatement | crates/parser/src/parse/Statement.rs:47-54 | one `StatementExpression` node. A lone `;` gives exactly its leaf; otherwise an expression followed by the `;` leaf or an "expected" error. It never aborts |
| Grammar.BlockAssembled | crates/parser/src/parse/Statement.rs:32-40 | `{`, statements, `}` form one node |
| Grammar.ParseBlock | crates/parser/src/parse/Statement.rs:32-40 | one `StatementBlock` node from the `{` leaf to the `}` leaf; aborts without change unless `{` is current |
| Grammar.ParseBlockStatements | crates/parser/src/parse/Statement.rs:35-37 | statements until `}` is current; it aborts only when the input ends first |
| Grammar.ParseGuarded | crates/parser/src/parse/Statement.rs:8-10 | the keyword leaf, a parenthesized condition, and a statement, in that order |
| Grammar.GuardedAssembled | crates/parser/src/parse/Statement.rs:8-10 | the guarded part is balanced and starts with the keyword and the condition |
| Grammar.GuardedNode | crates/parser/src/parse/Statement.rs:22-26 | the guarded part wrapped by `complete` is one node |
| Grammar.ParseWhile | crates/parser/src/parse/Statement.rs:20-27 | one `StatementWhile` node holding the keyword and the condition first; aborts without change unless `while` is current |
| Grammar.IfAssembled | crates/parser/src/parse/Statement.rs:6-15 | one `StatementIf` node. When `else` follows, its leaf is a direct child of the node |
| Grammar.ElsePart | crates/parser/src/parse/Statement.rs:11-13 | the `else` leaf followed by a statement is balanced |
| Grammar.ChildDepth | crates/parser/src/parse/Statement.rs:10-11 | after the node's first children the buffer is at depth 1 inside the node |
| Grammar.ParseIf | crates/parser/src/parse/Statement.rs:6-15 | one `StatementIf` node: `if`, a condition, a statement, and an `else` part iff `else` comes next, as a direct child |
| Grammar.ParseElse | crates/parser/src/parse/Statement.rs:11-13 | eats `else` and a statement iff `else` is current; otherwise changes nothing |
| Grammar.ParseStatement | crates/parser/src/parse/mod.rs:68-75 | aborts with no current token. Otherwise it makes one node of the kind the token selects, and consumes something unless the token is `}` |
| Grammar.ParseProgram | crates/parser/src/parse/mod.rs:50-56 | one `Program` node over all the tokens; stops (`Stuck`) only at a `}` that no statement consumes |
| EventSink.NothingReachedYet | crates/parser/src/event.rs:67 | before the first slot no walk has drained anything |
| EventSink.DrainedInitially | crates/parser/src/event.rs:67-68 | the untouched buffer is the state before slot 0 |
| EventSink.TargetedIsReachedSelf | crates/parser/src/event.rs:69-70 | a slot some earlier `Start` names is exactly a slot an earlier walk drained |
| EventSink.ReachNext | crates/parser/src/event.rs:76-84 | the walks begun before `i + 1` reach what those before `i` did plus what slot `i`'s walk does |
| EventSink.DrainedPastTargeted | crates/parser/src/event.rs:69-70 | a slot already drained by a walk is skipped |
| EventSink.DrainedPastUnlinked | crates/parser/src/event.rs:69 | draining a slot without offset moves the loop on |
| EventSink.WalkBegin | crates/parser/src/event.rs:69-77 | the walk starts at the drained slot itself |
| EventSink.SkippedByWalk | crates/parser/src/event.rs:79 | a walk jumps over the slots between a slot and its parent |
| EventSink.WalkedOneFurther | crates/parser/src/event.rs:79 | after a jump, every slot passed links at or before the new position |
| EventSink.DrainedOneFurther | crates/parser/src/event.rs:79-80 | draining the target of a jump adds exactly it to the drained slots |
| EventSink.WalkStep | crates/parser/src/event.rs:79-80 | the target of a jump lies strictly ahead inside the buffer, and draining it keeps the walk's state |
| EventSink.WalkEnd | crates/parser/src/event.rs:78-85 | a walk ending at no offset leaves the state for the next slot |
| EventSink.WalkInjective | crates/parser/src/event.rs:79-82 | with injective offsets a walk only lands on undrained slots |
| EventSink.ChainStep | crates/parser/src/event.rs:80-81 | a chain is its first kind followed by the rest of the chain |
| EventSink.AppendOpens | crates/parser/src/event.rs:86-88 | opening the collected kinds adds that many `start` calls and keeps every prefix non-negative |
| EventSink.ReplayingInitially | crates/parser/src/event.rs:67-68 | the replay starts with no call |
| EventSink.ReplayingDone | crates/parser/src/event.rs:66-95 | at the end every slot is drained. The calls other than `start` are the plain calls of the buffer, in order, and there are as many `start`s as `Start` events. Balanced buffers give well-nested calls, and injective buffers give exactly the declarative replay |
| EventSink.ReplayingPastAbandoned | crates/parser/src/event.rs:70 | an `Abandoned` slot adds no call |
| EventSink.PlainCounts | crates/parser/src/event.rs:90-92 | a `Finish`, `Leaf` or `Error` slot adds its one call |
| EventSink.PlainNesting | crates/parser/src/event.rs:90-92 | a plain call keeps the nesting non-negative on a balanced buffer |
| EventSink.PlainReplay | crates/parser/src/event.rs:90-92 | the plain call is what the declarative replay adds for the slot |
| EventSink.ReplayingPastPlain | crates/parser/src/event.rs:90-92 | the replay state moves past a plain slot |
| EventSink.StartReplay | crates/parser/src/event.rs:75-88 | the chain's `start`s, reversed, are what the declarative replay adds for an undrained `Start` |
| EventSink.ReplayingPastStart | crates/parser/src/event.rs:71-89 | the replay state moves past a `Start` and its walk |
| EventSink.ChainAdvance | crates/parser/src/event.rs:79-81 | the kinds collected plus the rest of the chain stay the whole chain |
| EventSink.WalkAdvanceInjective | crates/parser/src/event.rs:79-82 | with injective offsets a jump lands on an undrained slot and keeps the collected kinds a prefix of the chain |
| EventSink.WalkLandsUndrained | crates/parser/src/event.rs:79-80 | the target of a jump still holds its original event |
| EventSink.WalkAdvance | crates/parser/src/event.rs:79-84 | the target of a jump is inside the buffer and is a `Start` or `Abandoned`, never the `unreachable!` case |
| EventSink.WalkStart | crates/parser/src/event.rs:75-77 | a `Start` the loop meets was not drained by an earlier walk, and begins a walk with its own kind collected |
| EventSink.WalkFinish | crates/parser/src/event.rs:78-85 | a finished walk leaves the state for the next slot and, with injective offsets, has collected the whole chain |
| EventSink.WalkAdvanced | crates/parser/src/event.rs:79-84 | one jump and drain keeps the walk's state |
| EventSink.WalkAdvancedPlain | crates/parser/src/event.rs:79-84 | one jump keeps the drained slots, the `Start` count and the first collected kind |
| EventSink.ForwardWalk | crates/parser/src/event.rs:75-85 | drains the whole forward chain, collecting one kind per drained `Start`; with injective offsets these are the chain's kinds |
| EventSink.StartAll | crates/parser/src/event.rs:86-88 | one `start` per collected kind, in reverse |
| EventSink.Sink | crates/parser/src/event.rs:66-95 | every slot ends `Abandoned`. Plain events map one to one, in order; each `Start` yields one `start`. A balanced buffer gives well-nested calls, and an injective one gives exactly the declarative replay |
| EventSinkAsWritten.EmitAsWritten | crates/parser/src/event.rs:69-90 | the original loop makes at most one call per slot, and the only `start` it makes is of the slot's own kind |
| EventSinkAsWritten.ReplayAsWrittenUpTo | crates/parser/src/event.rs:68-93 | the calls for the first `n` slots are at most `n` |
| EventSinkAsWritten.ReplayAsWritten | crates/parser/src/event.rs:66-95 | the original `Event::sink` makes at most one call per slot, so a preceded node's chain is never opened |
| EventSinkAsWritten.EmitAsWrittenPlain | crates/parser/src/event.rs:86-90 | without its `start`, a slot's calls are its plain `finish`, `leaf` or `error` call |
| EventSinkAsWritten.ReplayAsWrittenPlain | crates/parser/src/event.rs:66-95 | the calls other than `start` are the buffer's plain calls, in buffer order |
| EventSinkAsWritten.EmitUnlinked | crates/parser/src/event.rs:71-85 | a slot without a forward offset gets the same calls from the original loop as from the declarative replay |
| EventSinkAsWritten.ReplayAsWrittenUnlinked | crates/parser/src/event.rs:66-95 | on a buffer without forward offsets the original makes exactly the calls of the declarative replay, so the two differ only where a node was preceded |
| EventSinkAsWritten.ComparisonBuffer | crates/parser/src/event.rs:15-25 | the nine events the documentation gives for `a<b` |
| EventSinkAsWritten.ComparisonTargets | crates/parser/src/event.rs:16-19 | slot 3 is the only forward parent in that buffer |
| EventSinkAsWritten.ComparisonBufferWellFormed | crates/parser/src/event.rs:15-25 | that buffer has valid, injective offsets and is balanced |
| EventSinkAsWritten.PrefixDepth | crates/parser/src/event.rs:15-25 | a table of per-slot depths is the depth of each prefix |
| EventSinkAsWritten.ComparisonChains | crates/parser/src/event.rs:16-21 | the chain from slot 0 is `TermIdentifier` then `ExpressionComparison` |
| EventSinkAsWritten.ComparisonReplayCalls | crates/parser/src/event.rs:27-36 | the declarative replay of the buffer is the documented tree |
| EventSinkAsWritten.ComparisonTree | crates/parser/src/event.rs:27-36 | the documented tree, as tree-sink calls, is well nested |
| EventSinkAsWritten.NestingTable | crates/parser/src/event.rs:27-36 | a table of nestings checked call by call gives the nesting of every prefix |
| EventSinkAsWritten.PrefixNesting | crates/parser/src/event.rs:27-36 | a table of per-call nestings is the nesting of each prefix |
| EventSinkAsWritten.ComparisonReplay | crates/parser/src/event.rs:27-36 | the buffer replays to the documented comparison tree, which is well nested |
| EventSinkAsWritten.ComparisonReplayAsWrittenCalls | crates/parser/src/event.rs:66-95 | the original loop's calls for the buffer |
| EventSinkAsWritten.ComparisonNestingAsWritten | crates/parser/src/event.rs:75-81 | those calls close one node more than they open |
| EventSinkAsWritten.ComparisonReplayAsWritten | crates/parser/src/event.rs:75-81 | the original never opens the comparison: nesting -1, not well nested, not the documented tree |
| EventSinkAsWritten.SinkComparisonBuffer | crates/parser/src/event.rs:10-36 | the corrected sink on that buffer makes exactly the documented calls, well nested |
| TinyC.LeafKindsAppend | crates/parser/src/lib.rs:26 | the leaves of joined traces are joined |
| TinyC.UnstartedLeaves | crates/parser/src/event.rs:86-91 | the `start` calls carry no leaf |
| TinyC.PlainLeaves | crates/parser/src/event.rs:91 | the `leaf` calls of the plain calls are the buffer's `Leaf` events |
| TinyC.ParseFromTokens | crates/parser/src/lib.rs:37-41 | fresh parser, `Program`, the buffer. Its forward links are sound. On success it is one `Program` node whose leaves are all the tokens, in order; it gets stuck only if a `}` is among the tokens |
| TinyC.Parse | crates/parser/src/lib.rs:32-35 | with the corrected sink of the Findings row, the sink receives exactly the replay of the buffer. On success the calls are well nested and their leaves are the tokens; nothing is sunk after an abort |
| TinyC.Significant | crates/parser/src/lib.rs:86-89 | the kinds left after dropping whitespace: no more than the tokens, none whitespace |
| TinyC.SignificantKinds | crates/parser/src/lib.rs:86-89 | a kind is kept iff it is not whitespace and some token has it |
| TinyC.ParseText | crates/parser/src/lib.rs:84-93 | lexing, dropping whitespace and `parse_from_tokens` with `Program` give a buffer with sound links. On success it is one `Program` node whose leaves are the non-whitespace tokens of the text, in order; it gets stuck only at a `}` among them |

## Left out

- Integer widths: buffer positions are `u32` and lengths `u32` casts in the original; the model uses unbounded naturals (no buffer or token longer than 2^32 is considered).
- `DebugDropBomb` and the `steps` counter are debug-only guards. The linearity of markers is not enforced. Instead each rule's contract states that its marker was completed (one node per rule).
- `TokenSource` and `TreeSink` are traits. Only `VecTokenSource` (and `EmptyTokenSource`) are modelled as sources. A tree sink is modelled by the trace of calls it receives.
- The kind tables are generated from a configuration that is not part of this model. The kinds are written out by hand, with `if`, `else` and `while` as the only keywords, in a declaration order chosen here.
- Lexer.IsWhitespace: `char::is_whitespace` is written out as the Unicode `White_Space` code points. Strings are sequences of Unicode scalar values, and lengths are counted as UTF-8 bytes.
- In the lexer, tokens carry token kinds; the original uses syntax kinds with the same terminal names.
- Diagnostic messages are opaque strings. `expect`'s "expected {:?}" uses a `Name` table for `Debug`.
- Panics are outcomes, not crashes. `Statement`'s `unwrap` is `Fail(UnexpectedEnd)`. A failed `bump` assertion is `Fail(Mismatch)`, and the `Fail` propagates to the caller. After a failure the contracts only promise that the parser is still valid.
- Grammar.ParseProgram: a `}` that no statement consumes makes the original `Program` loop forever. A debug build stops it with the step guard instead. The model returns `Fail(Stuck)` as soon as a statement makes no progress. The design intends every parse to terminate having consumed the whole input; the code does not for this input, and the model follows the code.
- Grammar.ParseWhile, Grammar.ParseIf, Grammar.ParseBlock, Grammar.ParseParenthesized, Grammar.ParseAssignment: the `assert_eq!` on the current token (`While` only) and the `bump` of the leading tokens are one check in the model, made before `start`. On a mismatch the model leaves the buffer unchanged, where the original aborts after pushing the marker slot (and, in `ParseAssignment`, the identifier's leaf).
- Grammar.ParseExpression: the three operator branches of the loop are merged into one test on `<`, `+`, `-`, with the node kind taken from the operator.
- EventSink.Sink: the equality with `Replay` is stated only for buffers whose forward offsets are injective. The parser always builds such buffers (`Parser.Valid`), but the replay does not demand it.
- EventSink.Sink: the corrected replay is the one modelled (see Findings); the original is modelled only as a function on buffers (`EventSinkAsWritten.ReplayAsWritten`).
- TinyC.Parse: it replays through the corrected `EventSink.Sink`, so on every buffer with a forward parent its trace differs from the calls the original `parse` makes, which never open the forward parents.
- Parsing.Marker.Abandon: the contract keeps the links sound only when the abandoned slot is not a forward target. `Parsing.PrecedeThenAbandonDangles` shows the one misuse that breaks this.
- The test fixtures, the serde output and the conformance harness are not part of this model.

## Findings

| source | as written | input that shows it | evidently intended | confidence | as-written member | corrected member |
|---|---|---|---|---|---|---|
| crates/parser/src/event.rs:75-81 | only the kind of the `Start` the main loop meets is pushed; the walk drains each forward parent but keeps only its `forward_parent`, dropping its kind | the nine-event `a<b` buffer the documentation of `Event` gives (event.rs:15-25): the replay never opens `ExpressionComparison` but replays its `Finish`, so the calls close one node more than they open | push each forward parent's kind as the walk drains it, so the outer node opens before the node it wraps (the tree of event.rs:27-36) | not executed | EventSinkAsWritten.ComparisonReplayAsWritten | EventSink.Sink |

=== FILE: events.dfy ===
/**
 * The parser's output: a flat buffer of `Event`s, and the calls a tree sink
 * receives when the buffer is replayed. This module holds the vocabulary,
 * the counting and linking predicates over buffers, and `Replay`, the
 * declarative meaning of the replay pass.
 */
module Events {
  import opened Kinds

  /** `ParseError`: a diagnostic message. */
  datatype ParseError = ParseError(message: string)

  /** `NonZeroU32`: a strictly positive forward offset. */
  type Offset = n: nat | n > 0 witness 1

  /**
   * `Event`. A `Start` may carry a forward offset to the slot of a parent
   * node created later by `precede`.
   */
  datatype Event =
    | Start(kind: SyntaxKind, forwardParent: Option<Offset>)
    | Finish
    | Leaf(kind: SyntaxKind)
    | Error(error: ParseError)
    | Abandoned

  /** One call on a `TreeSink`, as the sink records it. */
  datatype Call =
    | StartCall(kind: SyntaxKind)
    | FinishCall
    | LeafCall(kind: SyntaxKind)
    | ErrorCall(error: ParseError)

  // ---------------------------------------------------------------------
  // Counting and nesting

  function StartCount(evs: seq<Event>): nat
  {
    if |evs| == 0 then 0
    else StartCount(evs[..|evs| - 1]) + (if evs[|evs| - 1].Start? then 1 else 0)
  }

  function FinishCount(evs: seq<Event>): nat
  {
    if |evs| == 0 then 0
    else FinishCount(evs[..|evs| - 1]) + (if evs[|evs| - 1].Finish? then 1 else 0)
  }

  /** Open `Start`s minus `Finish`es: the naive nesting depth at the end of `evs`. */
  function Depth(evs: seq<Event>): int
  {
    StartCount(evs) - FinishCount(evs)
  }

  /** Every `Start` has a later `Finish`, and no `Finish` closes nothing. */
  predicate Dyck(evs: seq<Event>)
  {
    Depth(evs) == 0 && forall k | 0 <= k <= |evs| :: DepthAt(evs, k) >= 0
  }

  /** The depth after the first `k` events. */
  function DepthAt(evs: seq<Event>, k: nat): int
    requires k <= |evs|
  {
    Depth(evs[..k])
  }

  function Opens(calls: seq<Call>): nat
  {
    if |calls| == 0 then 0
    else Opens(calls[..|calls| - 1]) + (if calls[|calls| - 1].StartCall? then 1 else 0)
  }

  function Closes(calls: seq<Call>): nat
  {
    if |calls| == 0 then 0
    else Closes(calls[..|calls| - 1]) + (if calls[|calls| - 1].FinishCall? then 1 else 0)
  }

  function Nesting(calls: seq<Call>): int
  {
    Opens(calls) - Closes(calls)
  }

  /** No prefix closes more nodes than it opened. */
  predicate NonNegativePrefixes(calls: seq<Call>)
  {
    forall k | 0 <= k <= |calls| :: Nesting(calls[..k]) >= 0
  }

  /** Every `start` is matched by a later `finish`: the calls describe a forest. */
  predicate WellNested(calls: seq<Call>)
  {
    Nesting(calls) == 0 && NonNegativePrefixes(calls)
  }

  /** The calls other than `start`, in order. */
  function Unstarted(calls: seq<Call>): seq<Call>
  {
    if |calls| == 0 then []
    else
      var last := calls[|calls| - 1];
      Unstarted(calls[..|calls| - 1]) + (if last.StartCall? then [] else [last])
  }

  /** The call a `Finish`, `Leaf` or `Error` event maps to; none for the others. */
  function PlainCall(e: Event): seq<Call>
  {
    match e
    case Finish => [FinishCall]
    case Leaf(kind) => [LeafCall(kind)]
    case Error(error) => [ErrorCall(error)]
    case _ => []
  }

  /** The `finish`, `leaf` and `error` calls of a buffer, one per event, in buffer order. */
  function Plain(evs: seq<Event>): seq<Call>
  {
    if |evs| == 0 then [] else Plain(evs[..|evs| - 1]) + PlainCall(evs[|evs| - 1])
  }

  lemma EventCountsStep(evs: seq<Event>, i: nat)
    requires i < |evs|
    ensures StartCount(evs[..i + 1]) == StartCount(evs[..i]) + (if evs[i].Start? then 1 else 0)
    ensures FinishCount(evs[..i + 1]) == FinishCount(evs[..i]) + (if evs[i].Finish? then 1 else 0)
    ensures Plain(evs[..i + 1]) == Plain(evs[..i]) + PlainCall(evs[i])
  {
    assert evs[..i + 1][..i] == evs[..i];
  }

  lemma CallCountsAppend(calls: seq<Call>, c: Call)
    ensures Opens(calls + [c]) == Opens(calls) + (if c.StartCall? then 1 else 0)
    ensures Closes(calls + [c]) == Closes(calls) + (if c.FinishCall? then 1 else 0)
    ensures Unstarted(calls + [c]) == Unstarted(calls) + (if c.StartCall? then [] else [c])
  {
    assert (calls + [c])[..|calls|] == calls;
  }

  /** Appending a call that leaves the nesting non-negative keeps every prefix non-negative. */
  lemma AppendKeepsPrefixes(calls: seq<Call>, c: Call)
    requires NonNegativePrefixes(calls)
    requires Nesting(calls + [c]) >= 0
    ensures NonNegativePrefixes(calls + [c])
  {
    forall k | 0 <= k <= |calls| + 1
      ensures Nesting((calls + [c])[..k]) >= 0
    {
      if k <= |calls| {
        assert (calls + [c])[..k] == calls[..k];
      } else {
        assert (calls + [c])[..k] == calls + [c];
      }
    }
  }

  /** Abandoning one slot removes it from the `Start` count if it was a `Start`. */
  lemma {:induction false} StartCountAbandon(s: seq<Event>, j: nat)
    requires j < |s|
    ensures StartCount(s[j := Abandoned]) == StartCount(s) - (if s[j].Start? then 1 else 0)
    decreases |s|
  {
    var t := s[j := Abandoned];
    var n := |s| - 1;
    assert t[..n] == (if j < n then s[..n][j := Abandoned] else s[..n]);
    if j < n {
      StartCountAbandon(s[..n], j);
    }
  }

  /**
   * A buffer whose first `i` slots are abandoned and whose other slots are
   * unchanged or abandoned holds at most the `Start`s `orig` has from `i` on.
   */
  lemma {:induction false} RemainingStarts(orig: seq<Event>, s: seq<Event>, i: nat, n: nat)
    requires |s| == |orig| && i <= n <= |s|
    requires forall j | 0 <= j < i :: s[j] == Abandoned
    requires forall j | i <= j < |s| :: s[j] == orig[j] || s[j] == Abandoned
    ensures StartCount(s[..n]) + StartCount(orig[..i]) <= StartCount(orig[..n])
    decreases n
  {
    if n == i {
      AllAbandonedNoStarts(s[..i]);
    } else {
      RemainingStarts(orig, s, i, n - 1);
      EventCountsStep(s, n - 1);
      EventCountsStep(orig, n - 1);
    }
  }

  lemma {:induction false} AllAbandonedNoStarts(s: seq<Event>)
    requires forall j | 0 <= j < |s| :: s[j] == Abandoned
    ensures StartCount(s) == 0
  {
    if |s| > 0 {
      AllAbandonedNoStarts(s[..|s| - 1]);
    }
  }

  // ---------------------------------------------------------------------
  // Forward links

  /** The forward offset an event carries, if any. */
  function LinkOf(e: Event): Option<Offset>
  {
    if e.Start? then e.forwardParent else None
  }

  /** Slot `h` holds a `Start` whose forward offset leads to slot `j`. */
  predicate LinksTo(evs: seq<Event>, h: int, j: int)
  {
    0 <= h < |evs| && LinkOf(evs[h]).Some? && j == h + LinkOf(evs[h]).value
  }

  /**
   * The forward offset at slot `h`, if any, stays inside the buffer and lands
   * on a `Start` or an `Abandoned` slot; the replay reaches `unreachable!()`
   * otherwise.
   */
  predicate LinkValidAt(evs: seq<Event>, h: int)
    requires 0 <= h < |evs|
  {
    LinkOf(evs[h]).Some? ==>
      h + LinkOf(evs[h]).value < |evs|
      && (evs[h + LinkOf(evs[h]).value].Start? || evs[h + LinkOf(evs[h]).value].Abandoned?)
  }

  predicate LinksValid(evs: seq<Event>)
  {
    forall h | 0 <= h < |evs| :: LinkValidAt(evs, h)
  }

  /** Slots `h1` and `h2` do not name the same forward parent. */
  predicate DistinctParents(evs: seq<Event>, h1: int, h2: int)
    requires 0 <= h1 < |evs| && 0 <= h2 < |evs|
  {
    LinkOf(evs[h1]).Some? && LinkOf(evs[h2]).Some? ==>
      h1 + LinkOf(evs[h1]).value != h2 + LinkOf(evs[h2]).value
  }

  /** No two `Start`s name the same parent slot. */
  predicate LinksInjective(evs: seq<Event>)
  {
    forall h1, h2 | 0 <= h1 < h2 < |evs| :: DistinctParents(evs, h1, h2)
  }

  /** Two link slots of an injective buffer name different parents. */
  lemma DistinctAt(evs: seq<Event>, h1: int, h2: int)
    requires LinksInjective(evs) && 0 <= h1 < h2 < |evs|
    ensures DistinctParents(evs, h1, h2)
  {
  }

  /** Some earlier `Start` names slot `j` as its forward parent. */
  ghost predicate Targeted(evs: seq<Event>, j: int)
  {
    exists h | 0 <= h < j :: LinksTo(evs, h, j)
  }

  /** Slot `j` is reachable by following one or more forward links from a slot before `i`. */
  ghost predicate Reach(evs: seq<Event>, i: int, j: int)
    decreases j
  {
    exists h | 0 <= h < j :: LinksTo(evs, h, j) && (h < i || Reach(evs, i, h))
  }

  /** Slot `j` is reachable by following one or more forward links from slot `s`. */
  ghost predicate ReachFrom(evs: seq<Event>, s: int, j: int)
    decreases j
  {
    exists h | s <= h < j :: LinksTo(evs, h, j) && (h == s || ReachFrom(evs, s, h))
  }

  /** A slot reached from before `i` is reached from before `i + 1` as well. */
  lemma {:induction false} ReachGrows(evs: seq<Event>, i: int, j: int)
    requires Reach(evs, i, j)
    ensures Reach(evs, i + 1, j)
    decreases j
  {
    var h :| 0 <= h < j && LinksTo(evs, h, j) && (h < i || Reach(evs, i, h));
    if h >= i {
      ReachGrows(evs, i, h);
    }
  }

  /** What is reachable from slot `s` is reachable from before `s + 1`. */
  lemma {:induction false} ReachFromIsReach(evs: seq<Event>, s: int, j: int)
    requires ReachFrom(evs, s, j)
    ensures Reach(evs, s + 1, j)
    decreases j
  {
    var h :| s <= h < j && LinksTo(evs, h, j) && (h == s || ReachFrom(evs, s, h));
    if h != s {
      ReachFromIsReach(evs, s, h);
    }
  }

  /** Reaching from before `i + 1` is reaching from before `i`, or from slot `i`. */
  lemma {:induction false} ReachSplit(evs: seq<Event>, i: int, j: int)
    requires 0 <= i
    requires Reach(evs, i + 1, j)
    ensures Reach(evs, i, j) || ReachFrom(evs, i, j)
    decreases j
  {
    var h :| 0 <= h < j && LinksTo(evs, h, j) && (h < i + 1 || Reach(evs, i + 1, h));
    if h < i {
    } else if h == i {
    } else {
      ReachSplit(evs, i, h);
      if Reach(evs, i, h) {
      } else {
        assert ReachFrom(evs, i, h);
      }
    }
  }

  /** Whatever is reachable from a reached slot is reached. */
  lemma {:induction false} ReachThrough(evs: seq<Event>, i: int, s: int, j: int)
    requires Reach(evs, i, s)
    requires ReachFrom(evs, s, j)
    ensures Reach(evs, i, j)
    decreases j
  {
    var h :| s <= h < j && LinksTo(evs, h, j) && (h == s || ReachFrom(evs, s, h));
    if h != s {
      ReachThrough(evs, i, s, h);
    }
  }

  /** Nothing is reachable from a slot without a forward link. */
  lemma {:induction false} NoLinkReachesNothing(evs: seq<Event>, s: int, j: int)
    requires 0 <= s < |evs| && LinkOf(evs[s]).None?
    ensures !ReachFrom(evs, s, j)
    decreases j
  {
    if ReachFrom(evs, s, j) {
      var h :| s <= h < j && LinksTo(evs, h, j) && (h == s || ReachFrom(evs, s, h));
      NoLinkReachesNothing(evs, s, h);
    }
  }

  /** Every slot reachable from `s` lies at or beyond `s`'s own forward parent. */
  lemma {:induction false} ReachFromBeyondFirst(evs: seq<Event>, s: int, j: int)
    requires 0 <= s < |evs| && ReachFrom(evs, s, j)
    ensures LinkOf(evs[s]).Some? && j >= s + LinkOf(evs[s]).value
    decreases j
  {
    var h :| s <= h < j && LinksTo(evs, h, j) && (h == s || ReachFrom(evs, s, h));
    if h != s {
      ReachFromBeyondFirst(evs, s, h);
    }
  }

  /** The slots passed so far on the walk from `i` up to `idx` all link at or before `idx`. */
  ghost predicate WalkedUpTo(evs: seq<Event>, i: int, idx: int)
  {
    forall h | 0 <= h < |evs| && i <= h < idx && (h == i || ReachFrom(evs, i, h)) ::
      LinkOf(evs[h]).Some? && h + LinkOf(evs[h]).value <= idx
  }

  /** A slot reachable from `i` beyond the walk's position `idx` is reachable from `idx`. */
  lemma {:induction false} ReachPassesThrough(evs: seq<Event>, i: int, idx: int, j: int)
    requires 0 <= i <= idx < |evs|
    requires WalkedUpTo(evs, i, idx)
    requires ReachFrom(evs, i, j) && j > idx
    ensures ReachFrom(evs, idx, j)
    decreases j
  {
    var h :| i <= h < j && LinksTo(evs, h, j) && (h == i || ReachFrom(evs, i, h));
    if h < idx {
    } else if h == idx {
    } else {
      ReachPassesThrough(evs, i, idx, h);
    }
  }

  // ---------------------------------------------------------------------
  // The declarative replay

  /**
   * The kinds on the forward-parent chain that starts at slot `i`, innermost
   * first: the node at `i`, then its forward parent, and so on until a slot
   * without a forward offset or an `Abandoned` slot.
   */
  function ChainKinds(evs: seq<Event>, i: nat): seq<SyntaxKind>
    requires LinksValid(evs) && i < |evs|
    decreases |evs| - i
  {
    assert LinkValidAt(evs, i);
    match evs[i]
    case Start(kind, fp) => [kind] + (if fp.Some? then ChainKinds(evs, i + fp.value) else [])
    case _ => []
  }

  /** The chain beyond slot `i`. */
  function ChainRest(evs: seq<Event>, i: nat): seq<SyntaxKind>
    requires LinksValid(evs) && i < |evs|
  {
    assert LinkValidAt(evs, i);
    if LinkOf(evs[i]).Some? then ChainKinds(evs, i + LinkOf(evs[i]).value) else []
  }

  /**
   * The `start` calls for chain `kinds`, in reverse: the outermost node, the
   * one preceded last, opens first.
   */
  function OpenReversed(kinds: seq<SyntaxKind>): (calls: seq<Call>)
    ensures |calls| == |kinds|
    ensures forall k | 0 <= k < |calls| :: calls[k] == StartCall(kinds[|kinds| - 1 - k])
  {
    if |kinds| == 0 then [] else OpenReversed(kinds[1..]) + [StartCall(kinds[0])]
  }

  /**
   * The calls slot `i` contributes: a `Start` that is not some other node's
   * forward parent opens its whole chain; a `Start` that is a forward parent
   * was opened with its child's chain; `Finish`, `Leaf` and `Error` map one to
   * one; `Abandoned` contributes nothing.
   */
  ghost function Emit(evs: seq<Event>, i: nat): seq<Call>
    requires LinksValid(evs) && i < |evs|
  {
    match evs[i]
    case Start(_, _) => if Targeted(evs, i) then [] else OpenReversed(ChainKinds(evs, i))
    case _ => PlainCall(evs[i])
  }

  ghost function ReplayUpTo(evs: seq<Event>, n: nat): seq<Call>
    requires LinksValid(evs) && n <= |evs|
  {
    if n == 0 then [] else ReplayUpTo(evs, n - 1) + Emit(evs, n - 1)
  }

  /** The tree-sink calls a buffer stands for. */
  ghost function Replay(evs: seq<Event>): seq<Call>
    requires LinksValid(evs)
  {
    ReplayUpTo(evs, |evs|)
  }
}

=== FILE: fragments.dfy ===
/**
 * What a grammar rule leaves behind in the event buffer. A rule only appends
 * to the buffer, or rewrites slots it appended itself; the events it adds
 * form a balanced fragment whose leaves are exactly the tokens it consumed.
 * A node rule's fragment is one `Start`/`Finish` pair enclosing the rest; the
 * expression rule leaves a forward-parent chain, one node per operator.
 */
module Fragments {
  import opened Kinds
  import opened Events

  /** The kinds of the `Leaf` events of a buffer, in order. */
  function Leaves(evs: seq<Event>): seq<SyntaxKind>
  {
    if |evs| == 0 then []
    else Leaves(evs[..|evs| - 1]) + (if evs[|evs| - 1].Leaf? then [evs[|evs| - 1].kind] else [])
  }

  /** The `From<TokenKind>` embedding of a run of tokens. */
  function Terminals(ts: seq<TokenKind>): (r: seq<SyntaxKind>)
    ensures |r| == |ts|
    ensures forall i | 0 <= i < |ts| :: r[i] == Embed(ts[i])
  {
    if |ts| == 0 then [] else Terminals(ts[..|ts| - 1]) + [Embed(ts[|ts| - 1])]
  }

  lemma {:induction false} CountsAppend(a: seq<Event>, b: seq<Event>)
    ensures StartCount(a + b) == StartCount(a) + StartCount(b)
    ensures FinishCount(a + b) == FinishCount(a) + FinishCount(b)
    ensures Leaves(a + b) == Leaves(a) + Leaves(b)
    decreases |b|
  {
    if |b| == 0 {
      assert a + b == a;
    } else {
      var n := |b| - 1;
      assert (a + b)[..|a + b| - 1] == a + b[..n];
      CountsAppend(a, b[..n]);
    }
  }

  /** Two events play the same part in the counts: both open, both close, or neither. */
  predicate SameShape(e: Event, e': Event)
  {
    e.Start? == e'.Start? && e.Finish? == e'.Finish? && !e.Leaf? && !e'.Leaf?
  }

  lemma {:induction false} CountsReplace(s: seq<Event>, j: nat, e: Event)
    requires j < |s| && SameShape(s[j], e)
    ensures StartCount(s[j := e]) == StartCount(s)
    ensures FinishCount(s[j := e]) == FinishCount(s)
    ensures Leaves(s[j := e]) == Leaves(s)
    decreases |s|
  {
    var n := |s| - 1;
    if j < n {
      assert s[j := e][..n] == s[..n][j := e];
      CountsReplace(s[..n], j, e);
    } else {
      assert s[j := e][..n] == s[..n];
    }
  }

  lemma DyckEmpty()
    ensures Dyck([])
  {
    var none: seq<Event> := [];
    assert none[..0] == none;
  }

  lemma DyckConcat(a: seq<Event>, b: seq<Event>)
    requires Dyck(a) && Dyck(b)
    ensures Dyck(a + b)
  {
    CountsAppend(a, b);
    forall k | 0 <= k <= |a + b|
      ensures DepthAt(a + b, k) >= 0
    {
      if k <= |a| {
        assert (a + b)[..k] == a[..k];
        assert DepthAt(a, k) >= 0;
      } else {
        assert (a + b)[..k] == a + b[..k - |a|];
        CountsAppend(a, b[..k - |a|]);
        assert DepthAt(b, k - |a|) >= 0;
      }
    }
  }

  /** A one-event fragment that neither opens nor closes is balanced. */
  lemma DyckSingle(e: Event)
    requires !e.Start? && !e.Finish?
    ensures Dyck([e])
  {
    var one := [e];
    assert one[..0] == [] && one[..1] == one;
    assert StartCount(one) == 0 && FinishCount(one) == 0;
    forall k | 0 <= k <= 1
      ensures DepthAt(one, k) >= 0
    {
    }
  }

  lemma DyckReplace(s: seq<Event>, j: nat, e: Event)
    requires Dyck(s) && j < |s| && SameShape(s[j], e)
    ensures Dyck(s[j := e])
  {
    CountsReplace(s, j, e);
    var t := s[j := e];
    forall k | 0 <= k <= |t|
      ensures DepthAt(t, k) >= 0
    {
      assert DepthAt(s, k) >= 0;
      if j < k {
        assert t[..k] == s[..k][j := e];
        CountsReplace(s[..k], j, e);
      } else {
        assert t[..k] == s[..k];
      }
    }
  }

  /**
   * `frag` is one node of kind `kind`: its first event opens the node, its
   * last closes it, and everything between is nested inside.
   */
  ghost predicate Node(frag: seq<Event>, kind: SyntaxKind)
  {
    |frag| >= 2 && frag[0] == Start(kind, None) && frag[|frag| - 1] == Finish
    && Dyck(frag)
    && forall k | 0 < k < |frag| :: DepthAt(frag, k) > 0
  }

  /** Wrapping a balanced body in a `Start`/`Finish` pair makes one node. */
  lemma Wrap(body: seq<Event>, kind: SyntaxKind)
    requires Dyck(body)
    ensures Node([Start(kind, None)] + body + [Finish], kind)
    ensures Leaves([Start(kind, None)] + body + [Finish]) == Leaves(body)
  {
    var frag := [Start(kind, None)] + body + [Finish];
    OpenerCounts(kind);
    CountsAppend([Start(kind, None)], body);
    CountsAppend([Start(kind, None)] + body, [Finish]);
    assert [Finish][..0] == [];
    forall k | 0 < k < |frag|
      ensures DepthAt(frag, k) > 0
    {
      WrapPrefix(body, kind, k);
    }
    forall k | 0 <= k <= |frag|
      ensures DepthAt(frag, k) >= 0
    {
      if k == 0 {
        assert frag[..k] == [];
      } else if k == |frag| {
        assert frag[..k] == frag;
      } else {
        WrapPrefix(body, kind, k);
      }
    }
  }

  /** A lone `Start` opens one node and holds no leaf. */
  lemma OpenerCounts(kind: SyntaxKind)
    ensures StartCount([Start(kind, None)]) == 1 && FinishCount([Start(kind, None)]) == 0
    ensures Leaves([Start(kind, None)]) == []
  {
    assert [Start(kind, None)][..0] == [];
  }

  /** Inside a wrapped body, every proper prefix is still inside the node. */
  lemma WrapPrefix(body: seq<Event>, kind: SyntaxKind, k: nat)
    requires Dyck(body) && 0 < k <= |body| + 1
    ensures Depth(([Start(kind, None)] + body + [Finish])[..k]) > 0
  {
    var frag := [Start(kind, None)] + body + [Finish];
    assert frag[..k] == [Start(kind, None)] + body[..k - 1];
    OpenerCounts(kind);
    CountsAppend([Start(kind, None)], body[..k - 1]);
    assert DepthAt(body, k - 1) >= 0;
  }

  // ---------------------------------------------------------------------
  // Growth of the buffer

  /**
   * From `before` to `after` the buffer only grew, by a balanced fragment
   * whose leaves are the tokens `consumed`, in order.
   */
  ghost predicate Grown(before: seq<Event>, after: seq<Event>, consumed: seq<TokenKind>)
  {
    before <= after && Dyck(after[|before|..]) && Leaves(after[|before|..]) == Terminals(consumed)
  }

  lemma GrownRefl(a: seq<Event>, ts: seq<TokenKind>, i: nat)
    requires i <= |ts|
    ensures Grown(a, a, ts[i..i])
  {
    assert a[|a|..] == [];
    DyckEmpty();
  }

  lemma GrownJoin(a: seq<Event>, b: seq<Event>, c: seq<Event>, ts: seq<TokenKind>, i: nat, j: nat, k: nat)
    requires i <= j <= k <= |ts|
    requires Grown(a, b, ts[i..j]) && Grown(b, c, ts[j..k])
    ensures Grown(a, c, ts[i..k])
  {
    assert c[|a|..] == b[|a|..] + c[|b|..];
    DyckConcat(b[|a|..], c[|b|..]);
    CountsAppend(b[|a|..], c[|b|..]);
    TerminalsSplit(ts, i, j, k);
  }

  /** The embedding of a run of tokens splits where the run does. */
  lemma TerminalsSplit(ts: seq<TokenKind>, i: nat, j: nat, k: nat)
    requires i <= j <= k <= |ts|
    ensures Terminals(ts[i..k]) == Terminals(ts[i..j]) + Terminals(ts[j..k])
  {
    var whole, left, right := Terminals(ts[i..k]), Terminals(ts[i..j]), Terminals(ts[j..k]);
    forall n | 0 <= n < |whole|
      ensures whole[n] == (left + right)[n]
    {
      if n < j - i {
        assert ts[i..k][n] == ts[i..j][n];
      } else {
        assert ts[i..k][n] == ts[j..k][n - (j - i)];
      }
    }
  }

  /** Appending the leaf of token `ts[i]` consumes exactly that token. */
  lemma GrownLeaf(a: seq<Event>, ts: seq<TokenKind>, i: nat)
    requires i < |ts|
    ensures Grown(a, a + [Leaf(Embed(ts[i]))], ts[i..i + 1])
  {
    assert (a + [Leaf(Embed(ts[i]))])[|a|..] == [Leaf(Embed(ts[i]))];
    DyckSingle(Leaf(Embed(ts[i])));
    assert [Leaf(Embed(ts[i]))][..0] == [];
  }

  /** Appending an event that is neither a leaf nor opens or closes consumes nothing. */
  lemma GrownOther(a: seq<Event>, e: Event, ts: seq<TokenKind>, i: nat)
    requires !e.Start? && !e.Finish? && !e.Leaf? && i <= |ts|
    ensures Grown(a, a + [e], ts[i..i])
  {
    assert (a + [e])[|a|..] == [e];
    DyckSingle(e);
    assert [e][..0] == [];
  }

  /**
   * Completing the slot reserved at `|a|` over a grown body turns the whole
   * addition into one node.
   */
  lemma NodeGrown(a: seq<Event>, b: seq<Event>, kind: SyntaxKind, ts: seq<TokenKind>)
    requires Grown(a + [Abandoned], b, ts)
    ensures Grown(a, b[|a| := Start(kind, None)] + [Finish], ts)
    ensures Node((b[|a| := Start(kind, None)] + [Finish])[|a|..], kind)
  {
    var body := b[|a| + 1..];
    var c := b[|a| := Start(kind, None)] + [Finish];
    assert c[|a|..] == [Start(kind, None)] + body + [Finish];
    Wrap(body, kind);
    assert a <= c by {
      assert forall i | 0 <= i < |a| :: c[i] == b[i];
    }
  }

  /** Rewriting a slot of the addition with one of the same shape keeps the growth. */
  lemma GrownReplace(a: seq<Event>, b: seq<Event>, j: nat, e: Event, ts: seq<TokenKind>)
    requires Grown(a, b, ts) && |a| <= j < |b| && SameShape(b[j], e)
    ensures Grown(a, b[j := e], ts)
  {
    assert b[j := e][|a|..] == b[|a|..][j - |a| := e];
    DyckReplace(b[|a|..], j - |a|, e);
    CountsReplace(b[|a|..], j - |a|, e);
    assert a <= b[j := e] by {
      assert forall i | 0 <= i < |a| :: b[j := e][i] == b[i];
    }
  }

  // ---------------------------------------------------------------------
  // Forward-parent chains

  /**
   * Slot `slots[j]` holds a `Start` of kind `kinds[j]` linked forward to the
   * next slot of the chain.
   */
  ghost predicate LinkedSlot(evs: seq<Event>, slots: seq<nat>, kinds: seq<SyntaxKind>, j: int)
  {
    0 <= j < |slots| - 1 && j < |kinds| && slots[j] < slots[j + 1] && slots[j] < |evs|
    && evs[slots[j]] == Start(kinds[j], Some(slots[j + 1] - slots[j]))
  }

  /**
   * The slots `slots` hold, in order, the `Start`s of kinds `kinds`, each
   * linked forward to the next, the last one unlinked.
   */
  ghost predicate ChainAt(evs: seq<Event>, slots: seq<nat>, kinds: seq<SyntaxKind>)
  {
    |slots| == |kinds| > 0
    && (forall j | 0 <= j < |slots| - 1 :: LinkedSlot(evs, slots, kinds, j))
    && slots[0] < |evs| && slots[|slots| - 1] < |evs|
    && evs[slots[|slots| - 1]] == Start(kinds[|kinds| - 1], None)
  }

  /** A chain laid out at `slots` is what the replay collects from its first slot. */
  lemma {:induction false} ChainAtKinds(evs: seq<Event>, slots: seq<nat>, kinds: seq<SyntaxKind>)
    requires LinksValid(evs) && ChainAt(evs, slots, kinds)
    ensures ChainKinds(evs, slots[0]) == kinds
    decreases |slots|
  {
    if |slots| > 1 {
      assert LinkedSlot(evs, slots, kinds, 0);
      if |slots| > 2 {
        assert LinkedSlot(evs, slots, kinds, 1);
      }
      assert ChainAt(evs, slots[1..], kinds[1..]) by {
        forall j | 0 <= j < |slots| - 2
          ensures LinkedSlot(evs, slots[1..], kinds[1..], j)
        {
          assert LinkedSlot(evs, slots, kinds, j + 1);
        }
      }
      ChainAtKinds(evs, slots[1..], kinds[1..]);
      assert kinds == [kinds[0]] + kinds[1..];
    } else {
      assert kinds == [kinds[0]];
    }
  }

  /**
   * Preceding the last node of a chain with a node of kind `op` at the
   * first fresh slot extends the chain by that node.
   */
  lemma ChainGrows(before: seq<Event>, after: seq<Event>, slots: seq<nat>, kinds: seq<SyntaxKind>, op: SyntaxKind)
    requires ChainAt(before, slots, kinds)
    requires |before| < |after| && after[|before|] == Start(op, None)
    requires after[slots[|slots| - 1]] == Start(kinds[|kinds| - 1], Some(|before| - slots[|slots| - 1]))
    requires forall i | 0 <= i < |before| && i != slots[|slots| - 1] :: after[i] == before[i]
    ensures ChainAt(after, slots + [|before|], kinds + [op])
  {
    var slots', kinds' := slots + [|before|], kinds + [op];
    forall j | 0 <= j < |slots'| - 1
      ensures LinkedSlot(after, slots', kinds', j)
    {
      if j < |slots| - 1 {
        assert LinkedSlot(before, slots, kinds, j);
        assert after[slots[j]] == before[slots[j]];
      }
    }
  }
}

=== FILE: grammar.dfy ===
/**
 * The recursive-descent rules of Tiny-C. Every rule appends to the parser's
 * buffer a balanced fragment whose leaves are the tokens it consumed; node
 * rules leave exactly one node of their kind. Expressions never abort (a
 * bad operand becomes an error node); statements abort on `unwrap` of a
 * missing token and on a failed `bump` assertion, reported as `Fail`.
 *
 * Each rule method only drives the parser; the facts about the fragment it
 * leaves are put together by a lemma on plain sequences next to it.
 */
module Grammar {
  import opened Kinds
  import opened Events
  import opened Parsing
  import opened Fragments

  /** The tokens left to the right of the cursor: what bounds the recursion. */
  function Remaining(p: Parser): nat
    reads p.source
  {
    if p.source.here <= |p.source.tokens| then |p.source.tokens| - p.source.here else 0
  }

  /**
   * Going from buffer `events0` at cursor `here0` to `events` at `here`
   * appended a balanced fragment whose leaves are the tokens consumed.
   */
  ghost predicate Consumed(events0: seq<Event>, here0: nat, events: seq<Event>, here: nat, ts: seq<TokenKind>)
  {
    here0 <= here <= |ts| && Grown(events0, events, ts[here0..here])
  }

  /** The token at position `i`, if any: what `current` reads when the cursor is at `i`. */
  function TokenAt(ts: seq<TokenKind>, i: nat): (t: Option<TokenKind>)
    ensures t.Some? <==> i < |ts|
  {
    if i < |ts| then Some(ts[i]) else None
  }

  /** A token that error recovery consumes: anything but a curly brace. */
  predicate Consumable(current: Option<TokenKind>)
  {
    current.Some? && current.value != LeftCurlyBracket && current.value != RightCurlyBracket
  }

  /** The statement node that a statement starting with `kind` produces. */
  function StatementKind(kind: TokenKind): SyntaxKind
  {
    match kind
    case If => StatementIf
    case While => StatementWhile
    case LeftCurlyBracket => StatementBlock
    case _ => StatementExpression
  }

  /** The operand node `Expression_` produces for the two tokens ahead. */
  function OperandKind(current: Option<TokenKind>, next: Option<TokenKind>): SyntaxKind
  {
    if current == Some(LeftParenthesis) then ExpressionParenthesized
    else if current == Some(Identifier) && next == Some(EqualsSign) then ExpressionAssignment
    else ExpressionTerm
  }

  /** The binary operators, all in one tier. */
  predicate IsOperator(kind: TokenKind)
  {
    kind == LessThanSign || kind == PlusSign || kind == HyphenMinus
  }

  function BinaryKind(op: TokenKind): SyntaxKind
    requires IsOperator(op)
  {
    match op
    case LessThanSign => ExpressionComparison
    case PlusSign => ExpressionAddition
    case HyphenMinus => ExpressionSubtraction
  }

  /** The message `Term` records for a token that starts no term. */
  const TERM_ERROR: string := "expected `Integer`, `Identifier`, or `LeftParenthesis`"

  // ---------------------------------------------------------------------
  // Assembling fragments

  lemma ConsumedJoin(a: seq<Event>, i: nat, b: seq<Event>, j: nat, c: seq<Event>, k: nat, ts: seq<TokenKind>)
    requires Consumed(a, i, b, j, ts) && Consumed(b, j, c, k, ts)
    ensures Consumed(a, i, c, k, ts)
  {
    GrownJoin(a, b, c, ts, i, j, k);
  }

  /** Appending the leaf of the current token consumes it. */
  lemma ConsumedLeaf(a: seq<Event>, i: nat, ts: seq<TokenKind>)
    requires i < |ts|
    ensures Consumed(a, i, a + [Leaf(Embed(ts[i]))], i + 1, ts)
  {
    GrownLeaf(a, ts, i);
  }

  /** Completing the marker reserved at `|a|` around a balanced body makes one node. */
  lemma Completed(a: seq<Event>, i: nat, body: seq<Event>, j: nat, fin: seq<Event>, kind: SyntaxKind, ts: seq<TokenKind>)
    requires Consumed(a + [Abandoned], i, body, j, ts)
    requires fin == body[|a| := Start(kind, None)] + [Finish]
    ensures Consumed(a, i, fin, j, ts) && Node(fin[|a|..], kind)
  {
    NodeGrown(a, body, kind, ts[i..j]);
  }

  /** Completing the marker that `start` reserved, with the body grown after it. */
  lemma NodeAssembled(e0: seq<Event>, e1: seq<Event>, body: seq<Event>, fin: seq<Event>, kind: SyntaxKind,
                      ts: seq<TokenKind>, h0: nat, h1: nat, h: nat)
    requires e1 == e0 + [Abandoned] && h1 == h0
    requires Consumed(e1, h1, body, h, ts)
    requires fin == body[|e0| := Start(kind, None)] + [Finish]
    ensures Consumed(e0, h0, fin, h, ts) && Node(fin[|e0|..], kind)
  {
    Completed(e0, h0, body, h, fin, kind, ts);
  }

  /** The three fragments `err_bump` can leave, each balanced over what it consumed. */
  lemma ErrorNodeGrown(a: seq<Event>, message: string, ts: seq<TokenKind>, i: nat)
    requires i <= |ts|
    ensures Consumed(a, i, a + [Abandoned, Event.Error(ParseError(message))], i, ts)
    ensures Consumed(a, i, a + [Start(SyntaxKind.ERROR, None), Event.Error(ParseError(message)), Finish], i, ts)
    ensures i < |ts| ==>
      Consumed(a, i, a + [Start(SyntaxKind.ERROR, None), Event.Error(ParseError(message)), Leaf(Embed(ts[i])), Finish],
               i + 1, ts)
  {
    var err := Event.Error(ParseError(message));
    GrownOther(a, Abandoned, ts, i);
    GrownOther(a + [Abandoned], err, ts, i);
    GrownJoin(a, a + [Abandoned], a + [Abandoned] + [err], ts, i, i, i);
    assert a + [Abandoned] + [err] == a + [Abandoned, err];
    NodeGrown(a, a + [Abandoned, err], SyntaxKind.ERROR, ts[i..i]);
    assert (a + [Abandoned, err])[|a| := Start(SyntaxKind.ERROR, None)] + [Finish]
      == a + [Start(SyntaxKind.ERROR, None), err, Finish];
    if i < |ts| {
      GrownRefl(a + [Abandoned], ts, i);
      GrownOther(a + [Abandoned], err, ts, i);
      GrownLeaf(a + [Abandoned, err], ts, i);
      GrownJoin(a + [Abandoned], a + [Abandoned, err], a + [Abandoned, err] + [Leaf(Embed(ts[i]))], ts, i, i, i + 1);
      var b := a + [Abandoned, err] + [Leaf(Embed(ts[i]))];
      NodeGrown(a, b, SyntaxKind.ERROR, ts[i..i + 1]);
      assert b[|a| := Start(SyntaxKind.ERROR, None)] + [Finish]
        == a + [Start(SyntaxKind.ERROR, None), err, Leaf(Embed(ts[i])), Finish];
    }
  }

  // ---------------------------------------------------------------------
  // Term

  /** A node of kind `kind` holding exactly the leaf of one `token`. */
  method TokenNode(p: Parser, token: TokenKind, kind: SyntaxKind) returns (r: Outcome)
    requires p.Valid()
    modifies p, p.source
    ensures p.Valid()
    ensures r.Done? <==> TokenAt(p.source.tokens, old(p.source.here)) == Some(token)
    ensures r.Fail? ==> r.reason == Mismatch(token)
    ensures r.Done? ==> Consumed(old(p.events), old(p.source.here), p.events, p.source.here, p.source.tokens)
    ensures r.Done? ==> (p.source.here == old(p.source.here) + 1
      && p.events == old(p.events) + [Start(kind, None), Leaf(Embed(token)), Finish])
  {
    var m := p.Start();
    ghost var e1, h1 := p.events, p.source.here;
    r := p.Bump(token);
    if r.Fail? {
      return;
    }
    ghost var body := p.events;
    var cm := m.Complete(p, kind);
    TokenAssembled(old(p.events), e1, body, p.events, p.source.tokens, old(p.source.here), h1, p.source.here, token, kind);
  }

  /** A node completed around the leaf of the one token consumed after `start`. */
  lemma TokenAssembled(e0: seq<Event>, e1: seq<Event>, body: seq<Event>, fin: seq<Event>, ts: seq<TokenKind>,
                       h0: nat, h1: nat, h: nat, token: TokenKind, kind: SyntaxKind)
    requires e1 == e0 + [Abandoned] && h1 == h0
    requires h1 < |ts| && ts[h1] == token && body == e1 + [Leaf(Embed(token))] && h == h1 + 1
    requires fin == body[|e0| := Start(kind, None)] + [Finish]
    ensures Consumed(e0, h0, fin, h, ts) && Node(fin[|e0|..], kind)
    ensures fin == e0 + [Start(kind, None), Leaf(Embed(token)), Finish]
  {
    ConsumedLeaf(e1, h1, ts);
    Completed(e0, h0, body, h, fin, kind, ts);
  }

  /** `Term::Identifier`: a `TermIdentifier` node around one `Identifier` leaf. */
  method ParseIdentifier(p: Parser) returns (r: Outcome)
    requires p.Valid()
    modifies p, p.source
    ensures p.Valid()
    ensures r.Done? <==> TokenAt(p.source.tokens, old(p.source.here)) == Some(Identifier)
    ensures r.Fail? ==> r.reason == Mismatch(Identifier)
    ensures r.Done? ==> Consumed(old(p.events), old(p.source.here), p.events, p.source.here, p.source.tokens)
    ensures r.Done? ==> (p.source.here == old(p.source.here) + 1
      && p.events == old(p.events) + [Start(TermIdentifier, None), Leaf(Embed(Identifier)), Finish])
  {
    r := TokenNode(p, Identifier, TermIdentifier);
  }

  /** `Term::Integer`: a `TermInteger` node around one `Integer` leaf. */
  method ParseInteger(p: Parser) returns (r: Outcome)
    requires p.Valid()
    modifies p, p.source
    ensures p.Valid()
    ensures r.Done? <==> TokenAt(p.source.tokens, old(p.source.here)) == Some(Integer)
    ensures r.Fail? ==> r.reason == Mismatch(Integer)
    ensures r.Done? ==> Consumed(old(p.events), old(p.source.here), p.events, p.source.here, p.source.tokens)
    ensures r.Done? ==> (p.source.here == old(p.source.here) + 1
      && p.events == old(p.events) + [Start(TermInteger, None), Leaf(Embed(Integer)), Finish])
  {
    r := TokenNode(p, Integer, TermInteger);
  }

  lemma TermExpressionAssembled(e0: seq<Event>, e1: seq<Event>, body: seq<Event>, fin: seq<Event>,
                                ts: seq<TokenKind>, h0: nat, h1: nat, h: nat)
    requires e1 == e0 + [Abandoned] && h1 == h0
    requires Consumed(e1, h1, body, h, ts) && h > h1
    requires |e1| < |body| && body[|e1|] == Start(ExpressionParenthesized, None)
    requires fin == body[|e0| := Start(TermExpression, None)] + [Finish]
    ensures Consumed(e0, h0, fin, h, ts) && h > h0 && Node(fin[|e0|..], TermExpression)
    ensures |e0| + 1 < |fin| && fin[|e0| + 1] == Start(ExpressionParenthesized, None)
  {
    Completed(e0, h0, body, h, fin, TermExpression, ts);
  }

  /** `Term::Expression`: a `TermExpression` node around one parenthesized expression. */
  method ParseTermExpression(p: Parser) returns (r: Outcome)
    requires p.Valid()
    modifies p, p.source
    decreases Remaining(p), 3
    ensures p.Valid()
    ensures r.Done? <==> TokenAt(p.source.tokens, old(p.source.here)) == Some(LeftParenthesis)
    ensures r.Fail? ==> r.reason == Mismatch(LeftParenthesis)
    ensures r.Done? ==> (Consumed(old(p.events), old(p.source.here), p.events, p.source.here, p.source.tokens)
      && p.source.here > old(p.source.here))
    ensures r.Done? ==> (Node(p.events[old(|p.events|)..], TermExpression)
      && p.events[old(|p.events|) + 1] == Start(ExpressionParenthesized, None))
  {
    var m := p.Start();
    ghost var e1, h1 := p.events, p.source.here;
    var cm;
    r, cm := ParseParenthesized(p);
    if r.Fail? {
      return;
    }
    ghost var body := p.events;
    cm := m.Complete(p, TermExpression);
    TermExpressionAssembled(old(p.events), e1, body, p.events, p.source.tokens, old(p.source.here), h1, p.source.here);
  }

  /**
   * `Term`: dispatch on the current token; any other token is reported with
   * `err_bump`, which consumes it into an `ERROR` node unless it is a curly
   * brace or there is none.
   */
  method ParseTerm(p: Parser)
    requires p.Valid()
    modifies p, p.source
    decreases Remaining(p), 4
    ensures p.Valid() && Consumed(old(p.events), old(p.source.here), p.events, p.source.here, p.source.tokens)
    ensures Consumable(TokenAt(p.source.tokens, old(p.source.here))) ==> p.source.here > old(p.source.here)
    ensures TokenAt(p.source.tokens, old(p.source.here)) == Some(Identifier) ==>
      p.events == old(p.events) + [Start(TermIdentifier, None), Leaf(Embed(Identifier)), Finish]
    ensures TokenAt(p.source.tokens, old(p.source.here)) == Some(Integer) ==>
      p.events == old(p.events) + [Start(TermInteger, None), Leaf(Embed(Integer)), Finish]
    ensures TokenAt(p.source.tokens, old(p.source.here)) == Some(LeftParenthesis) ==> Node(p.events[old(|p.events|)..], TermExpression)
    ensures (TokenAt(p.source.tokens, old(p.source.here)) == Some(LeftCurlyBracket) || TokenAt(p.source.tokens, old(p.source.here)) == Some(RightCurlyBracket)) ==>
      p.events == old(p.events) + [Abandoned, Event.Error(ParseError(TERM_ERROR))]
      && p.source.here == old(p.source.here)
    ensures TokenAt(p.source.tokens, old(p.source.here)).None? ==>
      p.events == old(p.events) + [Start(SyntaxKind.ERROR, None), Event.Error(ParseError(TERM_ERROR)), Finish]
    ensures Consumable(TokenAt(p.source.tokens, old(p.source.here))) && TokenAt(p.source.tokens, old(p.source.here)).value !in {Identifier, Integer, LeftParenthesis} ==>
      p.events == old(p.events) + [Start(SyntaxKind.ERROR, None), Event.Error(ParseError(TERM_ERROR)),
                                   Leaf(Embed(TokenAt(p.source.tokens, old(p.source.here)).value)), Finish]
  {
    ghost var e0, h0 := p.events, p.source.here;
    if p.At(Identifier) {
      var r := ParseIdentifier(p);
    } else if p.At(Integer) {
      var r := ParseInteger(p);
    } else if p.At(LeftParenthesis) {
      var r := ParseTermExpression(p);
    } else {
      p.ErrBump(TERM_ERROR);
      ErrorNodeGrown(e0, TERM_ERROR, p.source.tokens, h0);
    }
  }

  // ---------------------------------------------------------------------
  // Expression

  lemma ParenthesizedAssembled(e0: seq<Event>, e1: seq<Event>, e2: seq<Event>, e3: seq<Event>, body: seq<Event>,
                               fin: seq<Event>, ts: seq<TokenKind>, h0: nat, h1: nat, h2: nat, h3: nat, h: nat, found: bool)
    requires e1 == e0 + [Abandoned] && h1 == h0
    requires h1 < |ts| && ts[h1] == LeftParenthesis && e2 == e1 + [Leaf(Embed(LeftParenthesis))] && h2 == h1 + 1
    requires Consumed(e2, h2, e3, h3, ts)
    requires found ==> (h3 < |ts| && ts[h3] == RightParenthesis && body == e3 + [Leaf(Embed(RightParenthesis))]
      && h == h3 + 1)
    requires !found ==> body == e3 + [Event.Error(Expected(RightParenthesis))] && h == h3
    requires fin == body[|e0| := Start(ExpressionParenthesized, None)] + [Finish]
    ensures Consumed(e0, h0, fin, h, ts) && h > h0 && Node(fin[|e0|..], ExpressionParenthesized)
    ensures |e0| + 2 < |fin| && fin[|e0|] == Start(ExpressionParenthesized, None)
    ensures fin[|e0| + 1] == Leaf(Embed(LeftParenthesis))
    ensures (fin[|fin| - 2] == Leaf(Embed(RightParenthesis)) || fin[|fin| - 2] == Event.Error(Expected(RightParenthesis)))
  {
    ConsumedLeaf(e1, h1, ts);
    ConsumedJoin(e1, h1, e2, h2, e3, h3, ts);
    if found {
      ConsumedLeaf(e3, h3, ts);
    } else {
      GrownOther(e3, Event.Error(Expected(RightParenthesis)), ts, h3);
    }
    ConsumedJoin(e1, h1, e3, h3, body, h, ts);
    Completed(e0, h0, body, h, fin, ExpressionParenthesized, ts);
    assert fin[|e0| + 1] == body[|e0| + 1] == e2[|e0| + 1];
  }

  /**
   * `Expression::Parenthesized`: `(`, an expression, then `)`; a missing `)`
   * is recorded as an error. The opening parenthesis is asserted.
   */
  method ParseParenthesized(p: Parser) returns (r: Outcome, cm: CompletedMarker)
    requires p.Valid()
    modifies p, p.source
    decreases Remaining(p), 2
    ensures p.Valid()
    ensures r.Done? <==> TokenAt(p.source.tokens, old(p.source.here)) == Some(LeftParenthesis)
    ensures r.Fail? ==> r.reason == Mismatch(LeftParenthesis)
    ensures r.Done? ==> (Consumed(old(p.events), old(p.source.here), p.events, p.source.here, p.source.tokens)
      && p.source.here > old(p.source.here))
    ensures r.Done? ==> (Node(p.events[old(|p.events|)..], ExpressionParenthesized)
      && cm == CompletedMarker(old(|p.events|), |p.events| - 1)
      && old(|p.events|) + 2 < |p.events| && p.events[old(|p.events|)] == Start(ExpressionParenthesized, None)
      && p.events[old(|p.events|) + 1] == Leaf(Embed(LeftParenthesis))
      && (p.events[|p.events| - 2] == Leaf(Embed(RightParenthesis)) || p.events[|p.events| - 2] == Event.Error(Expected(RightParenthesis))))
  {
    // `bump` aborts unless `(` is current; the test is made before the marker is started
    if !p.At(LeftParenthesis) {
      return Fail(Mismatch(LeftParenthesis)), CompletedMarker(|p.events|, |p.events|);
    }
    var m := p.Start();
    ghost var e1, h1 := p.events, p.source.here;
    r := p.Bump(LeftParenthesis);
    ghost var e2, h2 := p.events, p.source.here;
    ghost var slots, kinds, operators := ParseExpression(p);
    ghost var e3, h3 := p.events, p.source.here;
    var found := p.Expect(RightParenthesis);
    ghost var body := p.events;
    cm := m.Complete(p, ExpressionParenthesized);
    ParenthesizedAssembled(old(p.events), e1, e2, e3, body, p.events, p.source.tokens,
                           old(p.source.here), h1, h2, h3, p.source.here, found);
  }

  lemma AssignmentAssembled(e0: seq<Event>, e1: seq<Event>, e2: seq<Event>, e3: seq<Event>, body: seq<Event>,
                            fin: seq<Event>, ts: seq<TokenKind>, h0: nat, h1: nat, h2: nat, h3: nat, h: nat)
    requires e1 == e0 + [Abandoned] && h1 == h0
    requires h1 < |ts| && ts[h1] == Identifier && e2 == e1 + [Leaf(Embed(Identifier))] && h2 == h1 + 1
    requires h2 < |ts| && ts[h2] == EqualsSign && e3 == e2 + [Leaf(Embed(EqualsSign))] && h3 == h2 + 1
    requires Consumed(e3, h3, body, h, ts)
    requires |e3| < |body| && body[|e3|].Start?
    requires fin == body[|e0| := Start(ExpressionAssignment, None)] + [Finish]
    ensures Consumed(e0, h0, fin, h, ts) && h > h0 && Node(fin[|e0|..], ExpressionAssignment)
    ensures |e0| + 2 < |fin| && fin[|e0| + 1] == Leaf(Embed(Identifier)) && fin[|e0| + 2] == Leaf(Embed(EqualsSign))
    ensures |e0| + 3 < |fin| && fin[|e0| + 3] == body[|e3|]
  {
    ConsumedLeaf(e1, h1, ts);
    ConsumedLeaf(e2, h2, ts);
    ConsumedJoin(e1, h1, e2, h2, e3, h3, ts);
    ConsumedJoin(e1, h1, e3, h3, body, h, ts);
    Completed(e0, h0, body, h, fin, ExpressionAssignment, ts);
    assert fin[|e0| + 1] == body[|e0| + 1] == e3[|e0| + 1];
    assert fin[|e0| + 2] == body[|e0| + 2] == e3[|e0| + 2];
  }

  /**
   * `Expression::Assignment`: an identifier, `=`, then the value expression,
   * which may itself be an assignment. Both leading tokens are asserted.
   */
  method ParseAssignment(p: Parser) returns (r: Outcome, cm: CompletedMarker)
    requires p.Valid()
    modifies p, p.source
    decreases Remaining(p), 2
    ensures p.Valid()
    ensures r.Done? <==> TokenAt(p.source.tokens, old(p.source.here)) == Some(Identifier) && TokenAt(p.source.tokens, old(p.source.here) + 1) == Some(EqualsSign)
    ensures r.Fail? ==> r.reason == Mismatch(Identifier) || r.reason == Mismatch(EqualsSign)
    ensures r.Done? ==> (Consumed(old(p.events), old(p.source.here), p.events, p.source.here, p.source.tokens)
      && p.source.here > old(p.source.here))
    ensures r.Done? ==> (Node(p.events[old(|p.events|)..], ExpressionAssignment)
      && cm == CompletedMarker(old(|p.events|), |p.events| - 1)
      && p.events[old(|p.events|) + 1] == Leaf(Embed(Identifier))
      && p.events[old(|p.events|) + 2] == Leaf(Embed(EqualsSign)))
    ensures r.Done? ==> p.source.here == |p.source.tokens| || !IsOperator(p.source.tokens[p.source.here])
    ensures r.Done? ==> (old(|p.events|) + 3 < |p.events| && p.events[old(|p.events|) + 3].Start?
      && p.events[old(|p.events|) + 3].kind == OperandKind(TokenAt(p.source.tokens, old(p.source.here) + 2), TokenAt(p.source.tokens, old(p.source.here) + 3)))
  {
    // each `bump` aborts unless its token is there; the tests are made before the marker is started
    cm := CompletedMarker(|p.events|, |p.events|);
    if !p.At(Identifier) {
      return Fail(Mismatch(Identifier)), cm;
    } else if !p.LaAt(1, EqualsSign) {
      return Fail(Mismatch(EqualsSign)), cm;
    }
    var m := p.Start();
    ghost var e1, h1 := p.events, p.source.here;
    r := p.Bump(Identifier);
    ghost var e2, h2 := p.events, p.source.here;
    r := p.Bump(EqualsSign);
    ghost var e3, h3 := p.events, p.source.here;
    ghost var slots, kinds, operators := ParseExpression(p);
    ghost var body := p.events;
    cm := m.Complete(p, ExpressionAssignment);
    AssignmentAssembled(old(p.events), e1, e2, e3, body, p.events, p.source.tokens,
                        old(p.source.here), h1, h2, h3, p.source.here);
  }

  /** `Expression::Term`: an `ExpressionTerm` node around exactly one term. */
  method ParseExpressionTerm(p: Parser) returns (cm: CompletedMarker)
    requires p.Valid()
    modifies p, p.source
    decreases Remaining(p), 5
    ensures p.Valid() && Consumed(old(p.events), old(p.source.here), p.events, p.source.here, p.source.tokens)
    ensures Consumable(TokenAt(p.source.tokens, old(p.source.here))) ==> p.source.here > old(p.source.here)
    ensures Node(p.events[old(|p.events|)..], ExpressionTerm)
      && cm == CompletedMarker(old(|p.events|), |p.events| - 1)
    ensures TokenAt(p.source.tokens, old(p.source.here)) == Some(Identifier) ==>
      p.events == old(p.events) + [Start(ExpressionTerm, None), Start(TermIdentifier, None), Leaf(Embed(Identifier)), Finish, Finish]
    ensures TokenAt(p.source.tokens, old(p.source.here)) == Some(Integer) ==>
      p.events == old(p.events) + [Start(ExpressionTerm, None), Start(TermInteger, None), Leaf(Embed(Integer)), Finish, Finish]
    ensures TokenAt(p.source.tokens, old(p.source.here)) == Some(LeftParenthesis) ==>
      Node(p.events[old(|p.events|) + 1..|p.events| - 1], TermExpression)
    ensures (TokenAt(p.source.tokens, old(p.source.here)) == Some(LeftCurlyBracket) || TokenAt(p.source.tokens, old(p.source.here)) == Some(RightCurlyBracket)) ==>
      p.events == old(p.events) + [Start(ExpressionTerm, None), Abandoned, Event.Error(ParseError(TERM_ERROR)), Finish]
    ensures TokenAt(p.source.tokens, old(p.source.here)).None? ==>
      p.events == old(p.events) + [Start(ExpressionTerm, None), Start(SyntaxKind.ERROR, None), Event.Error(ParseError(TERM_ERROR)), Finish, Finish]
    ensures Consumable(TokenAt(p.source.tokens, old(p.source.here))) && TokenAt(p.source.tokens, old(p.source.here)).value !in {Identifier, Integer, LeftParenthesis} ==>
      p.events == old(p.events) + [Start(ExpressionTerm, None), Start(SyntaxKind.ERROR, None), Event.Error(ParseError(TERM_ERROR)),
                                   Leaf(Embed(TokenAt(p.source.tokens, old(p.source.here)).value)), Finish, Finish]
  {
    var m := p.Start();
    ghost var e1, h1 := p.events, p.source.here;
    ParseTerm(p);
    ghost var body := p.events;
    cm := m.Complete(p, ExpressionTerm);
    NodeAssembled(old(p.events), e1, body, p.events, ExpressionTerm, p.source.tokens, old(p.source.here), h1, p.source.here);
    TermWrapped(old(p.events), body, p.events);
  }

  /** Completing the reserved slot around a term leaves the term's events between the new `Start` and `Finish`. */
  lemma TermWrapped(e0: seq<Event>, body: seq<Event>, fin: seq<Event>)
    requires |e0| < |body| && body[..|e0| + 1] == e0 + [Abandoned]
    requires fin == body[|e0| := Start(ExpressionTerm, None)] + [Finish]
    ensures fin == e0 + [Start(ExpressionTerm, None)] + body[|e0| + 1..] + [Finish]
    ensures fin[|e0| + 1..|fin| - 1] == body[|e0| + 1..]
  {
    assert body == body[..|e0| + 1] + body[|e0| + 1..];
  }

  /**
   * `Expression_`: a parenthesized expression at `(`, an assignment at an
   * identifier followed by `=`, a term otherwise. It always succeeds.
   */
  method ParseOperand(p: Parser) returns (cm: CompletedMarker)
    requires p.Valid()
    modifies p, p.source
    decreases Remaining(p), 6
    ensures p.Valid() && Consumed(old(p.events), old(p.source.here), p.events, p.source.here, p.source.tokens)
    ensures Consumable(TokenAt(p.source.tokens, old(p.source.here))) ==> p.source.here > old(p.source.here)
    ensures Node(p.events[old(|p.events|)..], OperandKind(TokenAt(p.source.tokens, old(p.source.here)), TokenAt(p.source.tokens, old(p.source.here) + 1)))
      && cm == CompletedMarker(old(|p.events|), |p.events| - 1)
    ensures OperandKind(TokenAt(p.source.tokens, old(p.source.here)), TokenAt(p.source.tokens, old(p.source.here) + 1)) == ExpressionAssignment ==>
      p.source.here == |p.source.tokens| || !IsOperator(p.source.tokens[p.source.here])
  {
    if p.At(LeftParenthesis) {
      var r;
      r, cm := ParseParenthesized(p);
    } else if p.At(Identifier) && p.LaAt(1, EqualsSign) {
      var r;
      r, cm := ParseAssignment(p);
    } else {
      cm := ParseExpressionTerm(p);
    }
  }

  /**
   * The `j`th operator of an expression: its token sits at `operators[j]`
   * in the input, before the next operator's, and its node, whose first
   * child is the operator's leaf, is the chain's slot `slots[j + 1]`.
   */
  ghost predicate OperatorAt(evs: seq<Event>, ts: seq<TokenKind>, slots: seq<nat>, kinds: seq<SyntaxKind>,
                             operators: seq<nat>, from: nat, to: nat, j: int)
  {
    0 <= j < |operators| && j + 1 < |slots| && j + 1 < |kinds|
    && from <= operators[j] < to && operators[j] < |ts| && IsOperator(ts[operators[j]])
    && kinds[j + 1] == BinaryKind(ts[operators[j]])
    && slots[j + 1] + 1 < |evs| && evs[slots[j + 1] + 1] == Leaf(Embed(ts[operators[j]]))
    && (j + 1 < |operators| ==> operators[j] < operators[j + 1])
  }

  /** Every operator of the chain at `slots`, consumed between `from` and `to`. */
  ghost predicate OperatorNodes(evs: seq<Event>, ts: seq<TokenKind>, slots: seq<nat>, kinds: seq<SyntaxKind>,
                                operators: seq<nat>, from: nat, to: nat)
  {
    |slots| == |kinds| == |operators| + 1
    && forall j | 0 <= j < |operators| :: OperatorAt(evs, ts, slots, kinds, operators, from, to, j)
  }

  /**
   * The expression whose first operand's node starts at `start`: the chain of
   * forward parents from it lists `kinds`, at `slots`, and every operator
   * node of the chain holds its operator, consumed between `from` and `to`.
   */
  ghost predicate ExpressionChain(evs: seq<Event>, ts: seq<TokenKind>, start: nat, from: nat, to: nat,
                                  slots: seq<nat>, kinds: seq<SyntaxKind>, operators: seq<nat>)
  {
    LinksValid(evs) && ChainAt(evs, slots, kinds) && slots[0] == start
    && ChainKinds(evs, start) == kinds
    && OperatorNodes(evs, ts, slots, kinds, operators, from, to)
  }

  /**
   * `Expression`: an operand, then as long as `<`, `+` or `-` is current, a
   * new node that precedes the expression so far, holding the operator and
   * the next operand. The chain of forward parents from the first operand's
   * node lists the operator nodes in input order, innermost first, so
   * `a<b<c` groups as `(a<b)<c`. It always succeeds, and stops exactly when
   * the current token is not an operator.
   */
  method ParseExpression(p: Parser) returns (ghost slots: seq<nat>, ghost kinds: seq<SyntaxKind>, ghost operators: seq<nat>)
    requires p.Valid()
    modifies p, p.source
    decreases Remaining(p), 7
    ensures p.Valid() && Consumed(old(p.events), old(p.source.here), p.events, p.source.here, p.source.tokens)
    ensures Consumable(TokenAt(p.source.tokens, old(p.source.here))) ==> p.source.here > old(p.source.here)
    ensures p.source.here == |p.source.tokens| || !IsOperator(p.source.tokens[p.source.here])
    ensures ExpressionChain(p.events, p.source.tokens, old(|p.events|), old(p.source.here), p.source.here,
                            slots, kinds, operators)
    ensures kinds[0] == OperandKind(TokenAt(p.source.tokens, old(p.source.here)), TokenAt(p.source.tokens, old(p.source.here) + 1))
    ensures old(|p.events|) < |p.events| && p.events[old(|p.events|)].Start? && p.events[old(|p.events|)].kind == kinds[0]
    ensures kinds[0] == ExpressionAssignment ==> operators == []
  {
    ghost var e0, h0 := p.events, p.source.here;
    ghost var c0 := p.Current();
    ghost var k0 := OperandKind(p.La(0), p.La(1));
    var expr := ParseOperand(p);
    slots, kinds, operators := [|e0|], [k0], [];
    while true
      invariant p.Valid() && Consumed(e0, h0, p.events, p.source.here, p.source.tokens)
      invariant Consumable(c0) ==> p.source.here > h0
      invariant ChainAt(p.events, slots, kinds) && slots[0] == |e0| && kinds[0] == k0
      invariant expr.startPos == slots[|slots| - 1] && |e0| <= expr.startPos
      invariant OperatorNodes(p.events, p.source.tokens, slots, kinds, operators, h0, p.source.here)
      invariant k0 == ExpressionAssignment ==>
        operators == [] && (p.source.here == |p.source.tokens| || !IsOperator(p.source.tokens[p.source.here]))
      decreases Remaining(p)
    {
      var current := p.Current();
      if current.None? || !IsOperator(current.value) {
        break;
      }
      var op := current.value;
      ghost var h := p.source.here;
      expr := ParseBinary(p, expr, op, e0, h0, slots, kinds, operators);
      slots, kinds, operators := slots + [expr.startPos], kinds + [BinaryKind(op)], operators + [h];
    }
    ChainAtKinds(p.events, slots, kinds);
    ChainHead(p.events, slots, kinds);
  }

  /** The first slot of a chain holds a `Start` of the chain's first kind. */
  lemma ChainHead(evs: seq<Event>, slots: seq<nat>, kinds: seq<SyntaxKind>)
    requires ChainAt(evs, slots, kinds)
    ensures evs[slots[0]].Start? && evs[slots[0]].kind == kinds[0]
  {
    if |slots| > 1 {
      assert LinkedSlot(evs, slots, kinds, 0);
    }
  }

  /**
   * One round of the operator loop, the same in each of its three branches:
   * a node that precedes the expression so far, holding the operator `op`
   * and the next operand. The new node joins the chain of forward parents.
   */
  method ParseBinary(p: Parser, lhs: CompletedMarker, op: TokenKind, ghost e0: seq<Event>, ghost h0: nat,
                     ghost slots: seq<nat>, ghost kinds: seq<SyntaxKind>, ghost operators: seq<nat>)
    returns (cm: CompletedMarker)
    requires p.Valid() && IsOperator(op) && p.At(op)
    requires Consumed(e0, h0, p.events, p.source.here, p.source.tokens)
    requires ChainAt(p.events, slots, kinds) && lhs.startPos == slots[|slots| - 1] && |e0| <= lhs.startPos
    requires OperatorNodes(p.events, p.source.tokens, slots, kinds, operators, h0, p.source.here)
    modifies p, p.source
    decreases Remaining(p), 6
    ensures p.Valid() && p.source.here > old(p.source.here)
    ensures Consumed(e0, h0, p.events, p.source.here, p.source.tokens)
    ensures cm.startPos == old(|p.events|)
    ensures ChainAt(p.events, slots + [cm.startPos], kinds + [BinaryKind(op)])
    ensures OperatorNodes(p.events, p.source.tokens, slots + [cm.startPos], kinds + [BinaryKind(op)],
                          operators + [old(p.source.here)], h0, p.source.here)
  {
    var m := lhs.Precede(p);
    ghost var e1, h1 := p.events, p.source.here;
    var r := p.Bump(op);
    ghost var e2, h2 := p.events, p.source.here;
    var rhs := ParseOperand(p);
    ghost var e3 := p.events;
    cm := m.Complete(p, BinaryKind(op));
    PrecedeStep(e0, old(p.events), e1, e2, e3, p.events, p.source.tokens, h0, old(p.source.here), h1, h2, p.source.here,
                lhs.startPos, slots, kinds, operators, op);
  }

  /** One round of the operator loop keeps the loop's invariant. */
  lemma PrecedeStep(e0: seq<Event>, e: seq<Event>, e1: seq<Event>, e2: seq<Event>, e3: seq<Event>, e4: seq<Event>,
                    ts: seq<TokenKind>, h0: nat, h: nat, h1: nat, h2: nat, h3: nat, c: nat,
                    slots: seq<nat>, kinds: seq<SyntaxKind>, operators: seq<nat>, op: TokenKind)
    requires IsOperator(op) && h < |ts| && ts[h] == op
    requires Consumed(e0, h0, e, h, ts)
    requires ChainAt(e, slots, kinds) && c == slots[|slots| - 1] && |e0| <= c < |e|
    requires OperatorNodes(e, ts, slots, kinds, operators, h0, h)
    requires e1 == (e + [Abandoned])[c := Start(e[c].kind, Some(|e| - c))] && h1 == h
    requires e2 == e1 + [Leaf(Embed(op))] && h2 == h1 + 1
    requires Consumed(e2, h2, e3, h3, ts)
    requires e4 == e3[|e| := Start(BinaryKind(op), None)] + [Finish]
    ensures Consumed(e0, h0, e4, h3, ts) && h3 > h
    ensures ChainAt(e4, slots + [|e|], kinds + [BinaryKind(op)])
    ensures OperatorNodes(e4, ts, slots + [|e|], kinds + [BinaryKind(op)], operators + [h], h0, h3)
  {
    PrecedeConsumed(e0, e, e1, e2, e3, e4, ts, h0, h, h3, c, op);
    PrecedeFrame(e, e1, e2, e3, e4, c, op);
    PrecedeOperators(e, e4, ts, h0, h, h3, slots, kinds, operators, op);
  }

  /** The fragment of one round is balanced over the operator and the operand it consumed. */
  lemma PrecedeConsumed(e0: seq<Event>, e: seq<Event>, e1: seq<Event>, e2: seq<Event>, e3: seq<Event>, e4: seq<Event>,
                        ts: seq<TokenKind>, h0: nat, h: nat, h3: nat, c: nat, op: TokenKind)
    requires IsOperator(op) && h < |ts| && ts[h] == op
    requires Consumed(e0, h0, e, h, ts) && |e0| <= c < |e| && e[c].Start?
    requires e1 == (e + [Abandoned])[c := Start(e[c].kind, Some(|e| - c))]
    requires e2 == e1 + [Leaf(Embed(op))]
    requires Consumed(e2, h + 1, e3, h3, ts)
    requires e4 == e3[|e| := Start(BinaryKind(op), None)] + [Finish]
    ensures Consumed(e0, h0, e4, h3, ts)
  {
    var linked := Start(e[c].kind, Some(|e| - c));
    var ec := e[c := linked];
    assert e1 == ec + [Abandoned];
    GrownReplace(e0, e, c, linked, ts[h0..h]);
    ConsumedLeaf(ec + [Abandoned], h, ts);
    ConsumedJoin(ec + [Abandoned], h, e2, h + 1, e3, h3, ts);
    Completed(ec, h, e3, h3, e4, BinaryKind(op), ts);
    ConsumedJoin(e0, h0, ec, h, e4, h3, ts);
  }

  /** One round changes the buffer before it only at the preceded node. */
  lemma PrecedeFrame(e: seq<Event>, e1: seq<Event>, e2: seq<Event>, e3: seq<Event>, e4: seq<Event>, c: nat, op: TokenKind)
    requires IsOperator(op) && c < |e| && e[c].Start?
    requires e1 == (e + [Abandoned])[c := Start(e[c].kind, Some(|e| - c))]
    requires e2 == e1 + [Leaf(Embed(op))] && e2 <= e3
    requires e4 == e3[|e| := Start(BinaryKind(op), None)] + [Finish]
    ensures |e| + 1 < |e4| && e4[|e|] == Start(BinaryKind(op), None) && e4[|e| + 1] == Leaf(Embed(op))
    ensures e4[c] == Start(e[c].kind, Some(|e| - c))
    ensures forall i | 0 <= i < |e| && i != c :: e4[i] == e[i]
  {
    assert e4[|e| + 1] == e3[|e| + 1] == e2[|e| + 1];
    assert e4[c] == e2[c];
    forall i | 0 <= i < |e| && i != c
      ensures e4[i] == e[i]
    {
      assert e4[i] == e3[i] == e2[i];
    }
  }

  /** The preceding node joins the chain, and its operator joins the operators. */
  lemma PrecedeOperators(e: seq<Event>, e4: seq<Event>, ts: seq<TokenKind>, h0: nat, h: nat, h3: nat,
                         slots: seq<nat>, kinds: seq<SyntaxKind>, operators: seq<nat>, op: TokenKind)
    requires IsOperator(op) && h0 <= h < h3 && h < |ts| && ts[h] == op
    requires ChainAt(e, slots, kinds) && OperatorNodes(e, ts, slots, kinds, operators, h0, h)
    requires |e| + 1 < |e4| && e4[|e|] == Start(BinaryKind(op), None) && e4[|e| + 1] == Leaf(Embed(op))
    requires e4[slots[|slots| - 1]] == Start(kinds[|kinds| - 1], Some(|e| - slots[|slots| - 1]))
    requires forall i | 0 <= i < |e| && i != slots[|slots| - 1] :: e4[i] == e[i]
    ensures ChainAt(e4, slots + [|e|], kinds + [BinaryKind(op)])
    ensures OperatorNodes(e4, ts, slots + [|e|], kinds + [BinaryKind(op)], operators + [h], h0, h3)
  {
    ChainGrows(e, e4, slots, kinds, BinaryKind(op));
    var slots', kinds', operators' := slots + [|e|], kinds + [BinaryKind(op)], operators + [h];
    forall j | 0 <= j < |operators'|
      ensures OperatorAt(e4, ts, slots', kinds', operators', h0, h3, j)
    {
      if j < |operators| {
        assert OperatorAt(e, ts, slots, kinds, operators, h0, h, j);
        assert LinkedSlot(e, slots, kinds, j);
        assert e4[slots[j + 1] + 1] == e[slots[j + 1] + 1];
      }
    }
  }

  // ---------------------------------------------------------------------
  // Statements

  lemma ExpressionStatementAssembled(e0: seq<Event>, e1: seq<Event>, e2: seq<Event>, e3: seq<Event>, body: seq<Event>,
                                     fin: seq<Event>, ts: seq<TokenKind>, h0: nat, h1: nat, h2: nat, h3: nat, h: nat,
                                     found: bool)
    requires e1 == e0 + [Abandoned] && h1 == h0 && e2 == e1 && h2 == h1
    requires Consumed(e2, h2, e3, h3, ts)
    requires found ==> (h3 < |ts| && ts[h3] == Semicolon && body == e3 + [Leaf(Embed(Semicolon))] && h == h3 + 1)
    requires !found ==> body == e3 + [Event.Error(Expected(Semicolon))] && h == h3
    requires fin == body[|e0| := Start(StatementExpression, None)] + [Finish]
    ensures Consumed(e0, h0, fin, h, ts) && Node(fin[|e0|..], StatementExpression)
    ensures (fin[|fin| - 2] == Leaf(Embed(Semicolon)) || fin[|fin| - 2] == Event.Error(Expected(Semicolon)))
  {
    if found {
      ConsumedLeaf(e3, h3, ts);
    } else {
      GrownOther(e3, Event.Error(Expected(Semicolon)), ts, h3);
    }
    ConsumedJoin(e1, h1, e3, h3, body, h, ts);
    Completed(e0, h0, body, h, fin, StatementExpression, ts);
  }

  /**
   * `Statement::Expression`: a lone `;`, or an expression followed by an
   * expected `;`. It always succeeds.
   */
  method ParseExpressionStatement(p: Parser)
    requires p.Valid()
    modifies p, p.source
    decreases Remaining(p), 8
    ensures p.Valid() && Consumed(old(p.events), old(p.source.here), p.events, p.source.here, p.source.tokens)
    ensures Consumable(TokenAt(p.source.tokens, old(p.source.here))) ==> p.source.here > old(p.source.here)
    ensures Node(p.events[old(|p.events|)..], StatementExpression)
    ensures TokenAt(p.source.tokens, old(p.source.here)) == Some(Semicolon) ==>
      p.events == old(p.events) + [Start(StatementExpression, None), Leaf(Embed(Semicolon)), Finish]
    ensures TokenAt(p.source.tokens, old(p.source.here)) != Some(Semicolon) ==>
      (p.events[|p.events| - 2] == Leaf(Embed(Semicolon)) || p.events[|p.events| - 2] == Event.Error(Expected(Semicolon)))
  {
    var m := p.Start();
    ghost var e1, h1 := p.events, p.source.here;
    var eaten := p.Eat(Semicolon);
    if eaten {
      ghost var body := p.events;
      var cm := m.Complete(p, StatementExpression);
      TokenAssembled(old(p.events), e1, body, p.events, p.source.tokens, old(p.source.here), h1, p.source.here,
                     Semicolon, StatementExpression);
    } else {
      ghost var e2, h2 := p.events, p.source.here;
      ghost var slots, kinds, operators := ParseExpression(p);
      ghost var e3, h3 := p.events, p.source.here;
      var found := p.Expect(Semicolon);
      ghost var body := p.events;
      var cm := m.Complete(p, StatementExpression);
      ExpressionStatementAssembled(old(p.events), e1, e2, e3, body, p.events, p.source.tokens,
                                   old(p.source.here), h1, h2, h3, p.source.here, found);
    }
  }

  lemma BlockAssembled(e0: seq<Event>, e1: seq<Event>, e2: seq<Event>, e3: seq<Event>, body: seq<Event>,
                       fin: seq<Event>, ts: seq<TokenKind>, h0: nat, h1: nat, h2: nat, h3: nat, h: nat, found: bool)
    requires e1 == e0 + [Abandoned] && h1 == h0
    requires h1 < |ts| && ts[h1] == LeftCurlyBracket && e2 == e1 + [Leaf(Embed(LeftCurlyBracket))] && h2 == h1 + 1
    requires Consumed(e2, h2, e3, h3, ts) && TokenAt(ts, h3) == Some(RightCurlyBracket)
    requires found <==> h3 < |ts| && ts[h3] == RightCurlyBracket
    requires found ==> body == e3 + [Leaf(Embed(RightCurlyBracket))] && h == h3 + 1
    requires fin == body[|e0| := Start(StatementBlock, None)] + [Finish]
    ensures Consumed(e0, h0, fin, h, ts) && Node(fin[|e0|..], StatementBlock) && h0 < h
    ensures |e0| + 2 < |fin| && fin[|e0| + 1] == Leaf(Embed(LeftCurlyBracket))
    ensures fin[|fin| - 2] == Leaf(Embed(RightCurlyBracket))
  {
    ConsumedLeaf(e1, h1, ts);
    ConsumedJoin(e1, h1, e2, h2, e3, h3, ts);
    ConsumedLeaf(e3, h3, ts);
    ConsumedJoin(e1, h1, e3, h3, body, h, ts);
    Completed(e0, h0, body, h, fin, StatementBlock, ts);
    assert fin[|e0| + 1] == e2[|e0| + 1];
  }

  /**
   * `Statement::Block`: `{`, statements until `}` is current, then the `}`.
   * The loop only ends at a `}`, so the closing brace is always consumed;
   * running out of tokens inside the block aborts in `Statement`.
   */
  method ParseBlock(p: Parser) returns (r: Outcome)
    requires p.Valid()
    modifies p, p.source
    decreases Remaining(p), 8
    ensures p.Valid()
    ensures r.Fail? ==> r.reason != Stuck
    ensures TokenAt(p.source.tokens, old(p.source.here)) != Some(LeftCurlyBracket) ==>
      r == Fail(Mismatch(LeftCurlyBracket)) && p.events == old(p.events) && p.source.here == old(p.source.here)
    ensures r.Done? ==> (Consumed(old(p.events), old(p.source.here), p.events, p.source.here, p.source.tokens)
      && p.source.here > old(p.source.here))
    ensures r.Done? ==> (Node(p.events[old(|p.events|)..], StatementBlock)
      && p.events[old(|p.events|) + 1] == Leaf(Embed(LeftCurlyBracket))
      && p.events[|p.events| - 2] == Leaf(Embed(RightCurlyBracket)))
  {
    // `bump` aborts unless `{` is current; the test is made before the marker is started
    if !p.At(LeftCurlyBracket) {
      return Fail(Mismatch(LeftCurlyBracket));
    }
    var m := p.Start();
    ghost var e1, h1 := p.events, p.source.here;
    r := p.Bump(LeftCurlyBracket);
    ghost var e2, h2 := p.events, p.source.here;
    r := ParseBlockStatements(p);
    if r.Fail? {
      return;
    }
    ghost var e3, h3 := p.events, p.source.here;
    var found := p.Expect(RightCurlyBracket);
    ghost var body := p.events;
    var cm := m.Complete(p, StatementBlock);
    BlockAssembled(old(p.events), e1, e2, e3, body, p.events, p.source.tokens,
                   old(p.source.here), h1, h2, h3, p.source.here, found);
  }

  /** The loop of `Statement::Block`: statements, one after another, until `}` is current. */
  method ParseBlockStatements(p: Parser) returns (r: Outcome)
    requires p.Valid()
    modifies p, p.source
    decreases Remaining(p), 10
    ensures p.Valid()
    ensures r.Fail? ==> r.reason != Stuck
    ensures r.Done? ==> (Consumed(old(p.events), old(p.source.here), p.events, p.source.here, p.source.tokens)
      && TokenAt(p.source.tokens, p.source.here) == Some(RightCurlyBracket))
  {
    ghost var e0, h0 := p.events, p.source.here;
    GrownRefl(e0, p.source.tokens, h0);
    r := Done;
    while !p.At(RightCurlyBracket)
      invariant p.Valid() && Consumed(e0, h0, p.events, p.source.here, p.source.tokens) && r == Done
      decreases Remaining(p)
    {
      ghost var e, h := p.events, p.source.here;
      r := ParseStatement(p);
      if r.Fail? {
        return;
      }
      ConsumedJoin(e0, h0, e, h, p.events, p.source.here, p.source.tokens);
    }
  }

  /**
   * What `Statement::If` and `Statement::While` share: the keyword, which the
   * caller has checked is current, a parenthesized condition and a statement.
   */
  method ParseGuarded(p: Parser, keyword: TokenKind) returns (r: Outcome)
    requires p.Valid() && p.At(keyword)
    modifies p, p.source
    decreases Remaining(p), 7
    ensures p.Valid()
    ensures r.Fail? ==> r.reason != Stuck
    ensures r.Done? ==> (Consumed(old(p.events), old(p.source.here), p.events, p.source.here, p.source.tokens)
      && p.source.here > old(p.source.here))
    ensures r.Done? ==> (|old(p.events)| + 1 < |p.events| && p.events[|old(p.events)|] == Leaf(Embed(keyword))
      && p.events[|old(p.events)| + 1] == Start(ExpressionParenthesized, None))
  {
    r := p.Bump(keyword);
    ghost var e1, h1 := p.events, p.source.here;
    var cond;
    r, cond := ParseParenthesized(p);
    if r.Fail? {
      return;
    }
    ghost var e2, h2 := p.events, p.source.here;
    r := ParseStatement(p);
    if r.Fail? {
      return;
    }
    GuardedAssembled(old(p.events), e1, e2, p.events, p.source.tokens, old(p.source.here), h1, h2, p.source.here, keyword);
  }

  lemma GuardedAssembled(e0: seq<Event>, e1: seq<Event>, e2: seq<Event>, e3: seq<Event>, ts: seq<TokenKind>,
                         h0: nat, h1: nat, h2: nat, h3: nat, keyword: TokenKind)
    requires h0 < |ts| && ts[h0] == keyword && e1 == e0 + [Leaf(Embed(keyword))] && h1 == h0 + 1
    requires Consumed(e1, h1, e2, h2, ts) && |e1| < |e2| && e2[|e1|] == Start(ExpressionParenthesized, None)
    requires Consumed(e2, h2, e3, h3, ts)
    ensures Consumed(e0, h0, e3, h3, ts) && h3 > h0
    ensures |e0| + 1 < |e3| && e3[|e0|] == Leaf(Embed(keyword)) && e3[|e0| + 1] == Start(ExpressionParenthesized, None)
  {
    ConsumedLeaf(e0, h0, ts);
    ConsumedJoin(e0, h0, e1, h1, e2, h2, ts);
    ConsumedJoin(e0, h0, e2, h2, e3, h3, ts);
    assert e3[|e0|] == e1[|e0|];
    assert e3[|e0| + 1] == e2[|e1|];
  }

  /** Completing the node of an `if` or a `while` around its keyword, condition and statements. */
  lemma GuardedNode(e0: seq<Event>, e1: seq<Event>, body: seq<Event>, fin: seq<Event>, kind: SyntaxKind,
                    keyword: TokenKind, ts: seq<TokenKind>, h0: nat, h1: nat, h: nat)
    requires e1 == e0 + [Abandoned] && h1 == h0
    requires Consumed(e1, h1, body, h, ts) && h > h1
    requires |e1| + 1 < |body| && body[|e1|] == Leaf(Embed(keyword))
    requires body[|e1| + 1] == Start(ExpressionParenthesized, None)
    requires fin == body[|e0| := Start(kind, None)] + [Finish]
    ensures Consumed(e0, h0, fin, h, ts) && h > h0 && Node(fin[|e0|..], kind)
    ensures |e0| + 2 < |fin| && fin[|e0| + 1] == Leaf(Embed(keyword))
    ensures fin[|e0| + 2] == Start(ExpressionParenthesized, None)
  {
    Completed(e0, h0, body, h, fin, kind, ts);
    assert fin[|e0| + 1] == body[|e0| + 1];
    assert fin[|e0| + 2] == body[|e0| + 2];
  }

  /**
   * `Statement::While`: asserts that `while` is current, then `while`, a
   * parenthesized condition and the body statement.
   */
  method ParseWhile(p: Parser) returns (r: Outcome)
    requires p.Valid()
    modifies p, p.source
    decreases Remaining(p), 8
    ensures p.Valid()
    ensures r.Fail? ==> r.reason != Stuck
    ensures TokenAt(p.source.tokens, old(p.source.here)) != Some(While) ==>
      r == Fail(Mismatch(While)) && p.events == old(p.events) && p.source.here == old(p.source.here)
    ensures r.Done? ==> (Consumed(old(p.events), old(p.source.here), p.events, p.source.here, p.source.tokens)
      && p.source.here > old(p.source.here))
    ensures r.Done? ==> (Node(p.events[old(|p.events|)..], StatementWhile)
      && p.events[old(|p.events|) + 1] == Leaf(Embed(While))
      && p.events[old(|p.events|) + 2] == Start(ExpressionParenthesized, None))
  {
    if !p.At(While) {
      return Fail(Mismatch(While));
    }
    var m := p.Start();
    ghost var e1, h1 := p.events, p.source.here;
    r := ParseGuarded(p, While);
    if r.Fail? {
      return;
    }
    ghost var body := p.events;
    var cm := m.Complete(p, StatementWhile);
    GuardedNode(old(p.events), e1, body, p.events, StatementWhile, While, p.source.tokens,
                old(p.source.here), h1, p.source.here);
  }

  lemma IfAssembled(e0: seq<Event>, e1: seq<Event>, e3: seq<Event>, body: seq<Event>, fin: seq<Event>,
                    ts: seq<TokenKind>, h0: nat, h1: nat, h3: nat, h: nat, hasElse: bool)
    requires e1 == e0 + [Abandoned] && h1 == h0
    requires Consumed(e1, h1, e3, h3, ts) && h3 > h1
    requires |e1| + 1 < |e3| && e3[|e1|] == Leaf(Embed(If)) && e3[|e1| + 1] == Start(ExpressionParenthesized, None)
    requires Consumed(e3, h3, body, h, ts)
    requires hasElse ==> |e3| < |body| && body[|e3|] == Leaf(Embed(Else))
    requires fin == body[|e0| := Start(StatementIf, None)] + [Finish]
    ensures Consumed(e0, h0, fin, h, ts) && h > h0 && Node(fin[|e0|..], StatementIf)
    ensures |e0| + 2 < |fin| && fin[|e0| + 1] == Leaf(Embed(If)) && fin[|e0| + 2] == Start(ExpressionParenthesized, None)
    ensures hasElse ==> (|e0| < |e3| < |fin| && fin[|e3|] == Leaf(Embed(Else)) && Depth(fin[|e0|..|e3|]) == 1)
  {
    ConsumedJoin(e1, h1, e3, h3, body, h, ts);
    assert body[|e0| + 1] == e3[|e0| + 1] && body[|e0| + 2] == e3[|e0| + 2];
    GuardedNode(e0, e1, body, fin, StatementIf, If, ts, h0, h1, h);
    if hasElse {
      ChildDepth(e0, e3, body, StatementIf, ts[h0..h3]);
    }
  }

  /** `else` and the statement after it, as one consumed run. */
  lemma ElsePart(e0: seq<Event>, e1: seq<Event>, fin: seq<Event>, ts: seq<TokenKind>, h0: nat, h1: nat, h: nat)
    requires h0 < |ts| && ts[h0] == Else && e1 == e0 + [Leaf(Embed(Else))] && h1 == h0 + 1
    requires Consumed(e1, h1, fin, h, ts)
    ensures Consumed(e0, h0, fin, h, ts) && |e0| < |fin| && fin[|e0|] == Leaf(Embed(Else))
  {
    ConsumedLeaf(e0, h0, ts);
    ConsumedJoin(e0, h0, e1, h1, fin, h, ts);
    assert fin[|e0|] == e1[|e0|];
  }

  /** After a node's `Start`, a balanced run of children leaves the depth at one. */
  lemma ChildDepth(a: seq<Event>, mid: seq<Event>, b: seq<Event>, kind: SyntaxKind, ts: seq<TokenKind>)
    requires Grown(a + [Abandoned], mid, ts) && mid <= b
    ensures Depth((b[|a| := Start(kind, None)] + [Finish])[|a|..|mid|]) == 1
  {
    var c := b[|a| := Start(kind, None)] + [Finish];
    assert c[|a|..|mid|] == [Start(kind, None)] + mid[|a| + 1..];
    CountsAppend([Start(kind, None)], mid[|a| + 1..]);
    assert [Start(kind, None)][..0] == [];
  }

  /**
   * `Statement::If`: `if`, a parenthesized condition and the then-statement;
   * then, exactly when `else` comes next, `else` and the else-statement, as
   * children of the same node (a dangling `else` binds to the innermost `if`).
   */
  method ParseIf(p: Parser) returns (r: Outcome, ghost elseAt: Option<nat>)
    requires p.Valid()
    modifies p, p.source
    decreases Remaining(p), 8
    ensures p.Valid()
    ensures r.Fail? ==> r.reason != Stuck
    ensures TokenAt(p.source.tokens, old(p.source.here)) != Some(If) ==>
      r == Fail(Mismatch(If)) && p.events == old(p.events) && p.source.here == old(p.source.here)
    ensures r.Done? ==> (Consumed(old(p.events), old(p.source.here), p.events, p.source.here, p.source.tokens)
      && p.source.here > old(p.source.here))
    ensures r.Done? ==> (Node(p.events[old(|p.events|)..], StatementIf)
      && p.events[old(|p.events|) + 1] == Leaf(Embed(If))
      && p.events[old(|p.events|) + 2] == Start(ExpressionParenthesized, None))
    ensures r.Done? && elseAt.None? ==> TokenAt(p.source.tokens, p.source.here) != Some(Else)
    ensures r.Done? && elseAt.Some? ==>
      (old(|p.events|) < elseAt.value < |p.events| && p.events[elseAt.value] == Leaf(Embed(Else))
      && Depth(p.events[old(|p.events|)..elseAt.value]) == 1)
  {
    elseAt := None;
    // `bump` aborts unless `if` is current; the test is made before the marker is started
    if !p.At(If) {
      return Fail(Mismatch(If)), None;
    }
    var m := p.Start();
    ghost var e1, h1 := p.events, p.source.here;
    r := ParseGuarded(p, If);
    if r.Fail? {
      return;
    }
    ghost var e3, h3 := p.events, p.source.here;
    var hasElse;
    r, hasElse := ParseElse(p);
    if r.Fail? {
      return;
    }
    if hasElse {
      elseAt := Some(|e3|);
    }
    ghost var body := p.events;
    var cm := m.Complete(p, StatementIf);
    IfAssembled(old(p.events), e1, e3, body, p.events, p.source.tokens, old(p.source.here), h1, h3, p.source.here, hasElse);
  }

  /**
   * The optional tail of `Statement::If`: when `else` is current, `else` and
   * the statement after it; otherwise nothing.
   */
  method ParseElse(p: Parser) returns (r: Outcome, hasElse: bool)
    requires p.Valid()
    modifies p, p.source
    decreases Remaining(p), 7
    ensures p.Valid()
    ensures r.Fail? ==> r.reason != Stuck
    ensures hasElse <==> TokenAt(p.source.tokens, old(p.source.here)) == Some(Else)
    ensures !hasElse ==> r == Done && p.events == old(p.events) && p.source.here == old(p.source.here)
    ensures r.Done? ==> Consumed(old(p.events), old(p.source.here), p.events, p.source.here, p.source.tokens)
    ensures r.Done? && hasElse ==> |old(p.events)| < |p.events| && p.events[|old(p.events)|] == Leaf(Embed(Else))
  {
    hasElse := p.Eat(Else);
    r := Done;
    if hasElse {
      ghost var e1, h1 := p.events, p.source.here;
      r := ParseStatement(p);
      if r.Done? {
        ElsePart(old(p.events), e1, p.events, p.source.tokens, old(p.source.here), h1, p.source.here);
      }
    } else {
      GrownRefl(old(p.events), p.source.tokens, old(p.source.here));
    }
  }

  /**
   * `Statement`: unwraps the current token (aborting if there is none) and
   * dispatches on it. Every statement consumes at least one token, except an
   * expression statement at a `}`, which `Term` does not consume.
   */
  method ParseStatement(p: Parser) returns (r: Outcome)
    requires p.Valid()
    modifies p, p.source
    decreases Remaining(p), 9
    ensures p.Valid()
    ensures r.Fail? ==> r.reason != Stuck
    ensures TokenAt(p.source.tokens, old(p.source.here)).None? ==>
      r == Fail(UnexpectedEnd) && p.events == old(p.events) && p.source.here == old(p.source.here)
    ensures r.Done? ==> (Consumed(old(p.events), old(p.source.here), p.events, p.source.here, p.source.tokens)
      && TokenAt(p.source.tokens, old(p.source.here)).Some?
      && Node(p.events[old(|p.events|)..], StatementKind(TokenAt(p.source.tokens, old(p.source.here)).value)))
    ensures r.Done? && TokenAt(p.source.tokens, old(p.source.here)) != Some(RightCurlyBracket) ==> p.source.here > old(p.source.here)
  {
    match p.Current()
    case None =>
      r := Fail(UnexpectedEnd);
    case Some(kind) =>
      if kind == If {
        ghost var elseAt;
        r, elseAt := ParseIf(p);
      } else if kind == While {
        r := ParseWhile(p);
      } else if kind == LeftCurlyBracket {
        r := ParseBlock(p);
      } else {
        ParseExpressionStatement(p);
        r := Done;
      }
  }

  /**
   * `Program`: one `Program` node holding statements until no token is left.
   * Where the original loops forever (a `}` that no statement consumes), the
   * model stops with `Fail(Stuck)`.
   */
  method ParseProgram(p: Parser) returns (r: Outcome)
    requires p.Valid()
    modifies p, p.source
    ensures p.Valid()
    ensures r.Done? ==> (Consumed(old(p.events), old(p.source.here), p.events, p.source.here, p.source.tokens)
      && Node(p.events[old(|p.events|)..], SyntaxKind.Program)
      && p.source.here == |p.source.tokens|)
    ensures r == Fail(Stuck) ==> TokenAt(p.source.tokens, p.source.here) == Some(RightCurlyBracket)
  {
    ghost var e0, h0 := p.events, p.source.here;
    var m := p.Start();
    ghost var e1, h1 := p.events, p.source.here;
    GrownRefl(e1, p.source.tokens, h1);
    while p.Current().Some?
      invariant p.Valid() && Consumed(e1, h1, p.events, p.source.here, p.source.tokens)
      decreases Remaining(p)
    {
      ghost var e := p.events;
      var h := p.source.here;
      r := ParseStatement(p);
      if r.Fail? {
        return;
      }
      if p.source.here == h {
        return Fail(Stuck);
      }
      ConsumedJoin(e1, h1, e, h, p.events, p.source.here, p.source.tokens);
    }
    ghost var body := p.events;
    var cm := m.Complete(p, SyntaxKind.Program);
    NodeAssembled(old(p.events), e1, body, p.events, SyntaxKind.Program, p.source.tokens, old(p.source.here), h1, p.source.here);
    r := Done;
  }
}

=== FILE: kinds.dfy ===
/**
 * The kind tables the parser and the lexer share: terminal kinds (`TokenKind`),
 * terminal-plus-nonterminal kinds (`SyntaxKind`), the dense ordinal each terminal
 * has, and keyword lookup. In the repository these are generated at build time
 * from a declarative configuration; here they are written out by hand with the
 * members the grammar rules and the lexer use, plus the `ERROR` sentinel.
 */
module Kinds {

  datatype Option<+T> = None | Some(value: T)

  /** Terminal kinds: keywords, literals, punctuation, the extra tokens, and the sentinel. */
  datatype TokenKind =
    | If | Else | While
    | Integer | Identifier
    | LeftCurlyBracket | RightCurlyBracket | LeftParenthesis | RightParenthesis
    | PlusSign | HyphenMinus | LessThanSign | Semicolon | EqualsSign
    | Whitespace | Error
    | ERROR

  /** Terminals embedded as `Terminal`, then the nonterminals the grammar builds, then `ERROR`. */
  datatype SyntaxKind =
    | Terminal(token: TokenKind)
    | Program
    | StatementIf | StatementWhile | StatementBlock | StatementExpression
    | ExpressionParenthesized | ExpressionAssignment
    | ExpressionComparison | ExpressionAddition | ExpressionSubtraction | ExpressionTerm
    | TermIdentifier | TermInteger | TermExpression
    | ERROR

  /** `kind as u16`: the dense ordinal, in declaration order. */
  function Ordinal(kind: TokenKind): (n: bv16)
    ensures n < 128
  {
    match kind
    case If => 0
    case Else => 1
    case While => 2
    case Integer => 3
    case Identifier => 4
    case LeftCurlyBracket => 5
    case RightCurlyBracket => 6
    case LeftParenthesis => 7
    case RightParenthesis => 8
    case PlusSign => 9
    case HyphenMinus => 10
    case LessThanSign => 11
    case Semicolon => 12
    case EqualsSign => 13
    case Whitespace => 14
    case Error => 15
    case ERROR => 16
  }

  /** Distinct kinds have distinct ordinals, so a bit per ordinal identifies a kind. */
  lemma OrdinalInjective(a: TokenKind, b: TokenKind)
    ensures Ordinal(a) == Ordinal(b) ==> a == b
  {
  }

  /**
   * The `From<TokenKind>` conversion into syntax kinds: the `ERROR` sentinel
   * becomes the syntax `ERROR`, and every other token kind the terminal of
   * the same kind.
   */
  function Embed(kind: TokenKind): (s: SyntaxKind)
    ensures s == SyntaxKind.ERROR <==> kind == TokenKind.ERROR
    ensures kind != TokenKind.ERROR ==> s.Terminal? && s.token == kind
  {
    if kind == TokenKind.ERROR then SyntaxKind.ERROR else Terminal(kind)
  }

  /** Distinct token kinds convert to distinct syntax kinds. */
  lemma EmbedInjective(a: TokenKind, b: TokenKind)
    ensures Embed(a) == Embed(b) <==> a == b
  {
  }

  /** The stable name of a kind, as its `Debug` formatting prints it. */
  function Name(kind: TokenKind): string
  {
    match kind
    case If => "If"
    case Else => "Else"
    case While => "While"
    case Integer => "Integer"
    case Identifier => "Identifier"
    case LeftCurlyBracket => "LeftCurlyBracket"
    case RightCurlyBracket => "RightCurlyBracket"
    case LeftParenthesis => "LeftParenthesis"
    case RightParenthesis => "RightParenthesis"
    case PlusSign => "PlusSign"
    case HyphenMinus => "HyphenMinus"
    case LessThanSign => "LessThanSign"
    case Semicolon => "Semicolon"
    case EqualsSign => "EqualsSign"
    case Whitespace => "Whitespace"
    case Error => "Error"
    case ERROR => "ERROR"
  }

  predicate IsKeyword(kind: TokenKind)
  {
    kind == If || kind == Else || kind == While
  }

  /** The spelling of a keyword. */
  function KeywordText(kind: TokenKind): string
    requires IsKeyword(kind)
  {
    match kind
    case If => "if"
    case Else => "else"
    case While => "while"
  }

  /** `from_keyword`: the keyword kind spelled `ident`, if any. */
  function FromKeyword(ident: string): (r: Option<TokenKind>)
    ensures r.Some? ==> IsKeyword(r.value) && KeywordText(r.value) == ident
    ensures r.None? ==> forall k :: IsKeyword(k) ==> KeywordText(k) != ident
  {
    if ident == "if" then Some(If)
    else if ident == "else" then Some(Else)
    else if ident == "while" then Some(While)
    else None
  }

  /** `from_identifier`: a keyword kind if `ident` spells one, `Identifier` otherwise. */
  function FromIdentifier(ident: string): (r: TokenKind)
    ensures r == Identifier || (IsKeyword(r) && KeywordText(r) == ident)
    ensures r == Identifier <==> forall k :: IsKeyword(k) ==> KeywordText(k) != ident
  {
    match FromKeyword(ident)
    case Some(k) => k
    case None => Identifier
  }
}

=== FILE: lexer.dfy ===
/**
 * The Tiny-C lexer: `lex` cuts the first token off a non-empty source, and
 * `tokenize` repeats it until the source is used up. A source is a string of
 * Unicode scalar values; token lengths are counted in UTF-8 bytes, as the
 * byte-indexed `&str` slicing of the original does.
 */
module Lexer {
  import opened Kinds

  /** A token: its kind and its length in UTF-8 bytes. */
  datatype Token = Token(kind: TokenKind, len: nat)

  /** `char::len_utf8`. */
  function Utf8Len(c: char): (n: nat)
    ensures 1 <= n <= 4
    ensures c as int < 0x80 <==> n == 1
  {
    if c as int < 0x80 then 1
    else if c as int < 0x800 then 2
    else if c as int < 0x1_0000 then 3
    else 4
  }

  /** `str::len`: the UTF-8 length of a string. */
  function ByteLen(s: seq<char>): nat
  {
    if |s| == 0 then 0 else Utf8Len(s[0]) + ByteLen(s[1..])
  }

  lemma {:induction false} ByteLenAppend(a: seq<char>, b: seq<char>)
    ensures ByteLen(a + b) == ByteLen(a) + ByteLen(b)
  {
    if |a| == 0 {
      assert a + b == b;
    } else {
      assert (a + b)[1..] == a[1..] + b;
      ByteLenAppend(a[1..], b);
    }
  }

  /** Every character takes at least one byte, so a string is at least as long in bytes as in characters. */
  lemma {:induction false} ByteLenAtLeastCount(s: seq<char>)
    ensures ByteLen(s) >= |s|
  {
    if |s| > 0 {
      ByteLenAtLeastCount(s[1..]);
    }
  }

  /**
   * `char::is_whitespace`: the Unicode `White_Space` property, which holds
   * for the ASCII blanks and for no digit or identifier character.
   */
  function IsWhitespace(c: char): (r: bool)
    ensures c == ' ' || c == '\t' || c == '\n' || c == '\r' ==> r
    ensures r ==> !IsDigit(c) && !IsIdent(c)
  {
    var u := c as int;
    (0x09 <= u <= 0x0D) || u == 0x20 || u == 0x85 || u == 0xA0 || u == 0x1680
    || (0x2000 <= u <= 0x200A) || u == 0x2028 || u == 0x2029 || u == 0x202F
    || u == 0x205F || u == 0x3000
  }

  /** `char::is_ascii_digit`: one of the ten decimal digits, each one byte long. */
  function IsDigit(c: char): (r: bool)
    ensures r ==> Utf8Len(c) == 1
    ensures c == '0' || c == '9' ==> r
  {
    '0' <= c <= '9'
  }

  /** Identifier characters: the lowercase ASCII letters, each one byte long and never a digit. */
  function IsIdent(c: char): (r: bool)
    ensures r ==> Utf8Len(c) == 1 && !IsDigit(c)
    ensures c == 'a' || c == 'z' ==> r
  {
    'a' <= c <= 'z'
  }

  /** The three character classes that form multi-character tokens. */
  datatype Class = Space | Digit | Letter

  predicate InClass(cls: Class, c: char)
  {
    match cls
    case Space => IsWhitespace(c)
    case Digit => IsDigit(c)
    case Letter => IsIdent(c)
  }

  /** `n` characters of `s`, and no more, belong to `cls` from the start. */
  predicate MaximalRun(s: seq<char>, cls: Class, n: nat)
  {
    n <= |s|
    && (forall i | 0 <= i < n :: InClass(cls, s[i]))
    && (n == |s| || !InClass(cls, s[n]))
  }

  /**
   * `s.find(is_not_X).unwrap_or_else(|| s.len())`, counted in characters:
   * the length of the leading run of `cls` characters.
   */
  function RunLength(s: seq<char>, cls: Class): (n: nat)
    ensures MaximalRun(s, cls, n)
  {
    if |s| == 0 || !InClass(cls, s[0]) then 0 else 1 + RunLength(s[1..], cls)
  }

  /** The maximal run is unique: `RunLength` is the only length with `MaximalRun`. */
  lemma {:induction false} MaximalRunUnique(s: seq<char>, cls: Class, n: nat)
    requires MaximalRun(s, cls, n)
    ensures n == RunLength(s, cls)
  {
    if |s| > 0 && InClass(cls, s[0]) {
      assert n > 0;
      assert MaximalRun(s[1..], cls, n - 1) by {
        forall i | 0 <= i < n - 1
          ensures InClass(cls, s[1..][i])
        {
          assert s[1..][i] == s[i + 1];
        }
      }
      MaximalRunUnique(s[1..], cls, n - 1);
    }
  }

  /** The kind of a one-character token. */
  function Punctuation(c: char): (kind: TokenKind)
    ensures kind == Error <==> c !in "{}()+-<;="
  {
    match c
    case '{' => LeftCurlyBracket
    case '}' => RightCurlyBracket
    case '(' => LeftParenthesis
    case ')' => RightParenthesis
    case '+' => PlusSign
    case '-' => HyphenMinus
    case '<' => LessThanSign
    case ';' => Semicolon
    case '=' => EqualsSign
    case _ => Error
  }

  /** The number of characters the first token of `s` spans. */
  function Span(s: seq<char>): (n: nat)
    requires |s| > 0
    ensures 1 <= n <= |s|
  {
    if IsWhitespace(s[0]) then RunLength(s, Space)
    else if IsDigit(s[0]) then RunLength(s, Digit)
    else if IsIdent(s[0]) then RunLength(s, Letter)
    else 1
  }

  /**
   * `lex`: the first token of a non-empty source. A whitespace, digit or
   * lowercase start yields the maximal run of that class (a lowercase run
   * becomes a keyword if it spells one); any other character is a token
   * by itself.
   */
  function Lex(s: seq<char>): (t: Token)
    requires |s| > 0
    ensures t.len >= 1
    ensures t.len == ByteLen(s[..Span(s)])
    ensures IsWhitespace(s[0]) ==> t.kind == Whitespace && MaximalRun(s, Space, Span(s))
    ensures !IsWhitespace(s[0]) && IsDigit(s[0]) ==> t.kind == Integer && MaximalRun(s, Digit, Span(s))
    ensures !IsWhitespace(s[0]) && IsIdent(s[0]) ==>
      t.kind == FromIdentifier(s[..Span(s)]) && MaximalRun(s, Letter, Span(s))
    ensures !IsWhitespace(s[0]) && !IsDigit(s[0]) && !IsIdent(s[0]) ==>
      Span(s) == 1 && t.kind == Punctuation(s[0]) && t.len == Utf8Len(s[0])
  {
    var n := Span(s);
    ByteLenAtLeastCount(s[..n]);
    if IsWhitespace(s[0]) then Token(Whitespace, ByteLen(s[..n]))
    else if IsDigit(s[0]) then Token(Integer, ByteLen(s[..n]))
    else if IsIdent(s[0]) then Token(FromIdentifier(s[..n]), ByteLen(s[..n]))
    else
      assert s[..1][1..] == [];
      Token(Punctuation(s[0]), Utf8Len(s[0]))
  }

  /** `&s[n..]` for a byte count `n` that ends on a character boundary. */
  function DropBytes(s: seq<char>, n: nat): seq<char>
  {
    if n == 0 || |s| == 0 then s
    else DropBytes(s[1..], if Utf8Len(s[0]) <= n then n - Utf8Len(s[0]) else 0)
  }

  /** Dropping the byte length of a prefix leaves exactly the rest. */
  lemma {:induction false} DropBytesPrefix(a: seq<char>, b: seq<char>)
    ensures DropBytes(a + b, ByteLen(a)) == b
  {
    if |a| == 0 {
      assert a + b == b;
    } else {
      assert (a + b)[1..] == a[1..] + b;
      if ByteLen(a[1..]) == 0 {
        ByteLenAtLeastCount(a[1..]);
        assert a[1..] + b == b;
      }
      DropBytesPrefix(a[1..], b);
    }
  }

  /** The declarative token stream: `lex` the front, continue after its span. */
  function Tokenization(s: seq<char>): seq<Token>
    decreases |s|
  {
    if |s| == 0 then [] else [Lex(s)] + Tokenization(s[Span(s)..])
  }

  function TotalLen(tokens: seq<Token>): nat
  {
    if |tokens| == 0 then 0 else tokens[0].len + TotalLen(tokens[1..])
  }

  lemma {:induction false} TotalLenAppend(a: seq<Token>, b: seq<Token>)
    ensures TotalLen(a + b) == TotalLen(a) + TotalLen(b)
  {
    if |a| == 0 {
      assert a + b == b;
    } else {
      assert (a + b)[1..] == a[1..] + b;
      TotalLenAppend(a[1..], b);
    }
  }

  /** The tokens are non-empty and their lengths add up to the length of the source. */
  lemma {:induction false} TokenizationCovers(s: seq<char>)
    ensures TotalLen(Tokenization(s)) == ByteLen(s)
    ensures forall i | 0 <= i < |Tokenization(s)| :: Tokenization(s)[i].len >= 1
    decreases |s|
  {
    if |s| > 0 {
      var n := Span(s);
      assert s == s[..n] + s[n..];
      ByteLenAppend(s[..n], s[n..]);
      TokenizationCovers(s[n..]);
      TotalLenAppend([Lex(s)], Tokenization(s[n..]));
    }
  }

  /** Slicing the first token's bytes off the source leaves the rest of its characters. */
  lemma DropFirstToken(s: seq<char>)
    requires |s| > 0
    ensures DropBytes(s, Lex(s).len) == s[Span(s)..]
  {
    assert s == s[..Span(s)] + s[Span(s)..];
    DropBytesPrefix(s[..Span(s)], s[Span(s)..]);
  }

  /**
   * `tokenize`: repeatedly lex the front of the source and slice the token's
   * byte length off it, until the source is empty.
   */
  method Tokenize(source: seq<char>) returns (tokens: seq<Token>)
    ensures tokens == Tokenization(source)
    ensures TotalLen(tokens) == ByteLen(source)
  {
    tokens := [];
    var rest := source;
    while |rest| > 0
      invariant tokens + Tokenization(rest) == Tokenization(source)
      decreases |rest|
    {
      var token := Lex(rest);
      DropFirstToken(rest);
      assert tokens + Tokenization(rest) == (tokens + [token]) + Tokenization(rest[Span(rest)..]);
      rest := DropBytes(rest, token.len);
      tokens := tokens + [token];
    }
    assert tokens + [] == tokens;
    TokenizationCovers(source);
  }
}

=== FILE: lib.dfy ===
/**
 * The entry points of the parser crate. `parse_from_tokens` runs the
 * `Program` rule over a fresh parser and hands back its buffer; `parse`
 * replays that buffer into a tree sink. The sink is modelled by the trace of
 * calls it receives; the harness that feeds the lexer's output to the parser
 * is `ParseText`.
 */
module TinyC {
  import opened Kinds
  import opened Events
  import opened Parsing
  import opened Fragments
  import opened Grammar
  import EventSink
  import Lexer

  /** The kinds of the `leaf` calls of a trace, in order. */
  function LeafKinds(calls: seq<Call>): seq<SyntaxKind>
  {
    if |calls| == 0 then []
    else LeafKinds(calls[..|calls| - 1]) + (if calls[|calls| - 1].LeafCall? then [calls[|calls| - 1].kind] else [])
  }

  lemma {:induction false} LeafKindsAppend(a: seq<Call>, b: seq<Call>)
    ensures LeafKinds(a + b) == LeafKinds(a) + LeafKinds(b)
    decreases |b|
  {
    if |b| == 0 {
      assert a + b == a;
    } else {
      assert (a + b)[..|a + b| - 1] == a + b[..|b| - 1];
      LeafKindsAppend(a, b[..|b| - 1]);
    }
  }

  /** Dropping the `start` calls of a trace keeps its leaves. */
  lemma {:induction false} UnstartedLeaves(calls: seq<Call>)
    ensures LeafKinds(Unstarted(calls)) == LeafKinds(calls)
  {
    if |calls| > 0 {
      var last := calls[|calls| - 1];
      UnstartedLeaves(calls[..|calls| - 1]);
      LeafKindsAppend(Unstarted(calls[..|calls| - 1]), if last.StartCall? then [] else [last]);
    }
  }

  /** The `leaf` calls a buffer maps to are its `Leaf` events. */
  lemma {:induction false} PlainLeaves(evs: seq<Event>)
    ensures LeafKinds(Plain(evs)) == Leaves(evs)
  {
    if |evs| > 0 {
      PlainLeaves(evs[..|evs| - 1]);
      LeafKindsAppend(Plain(evs[..|evs| - 1]), PlainCall(evs[|evs| - 1]));
    }
  }

  /**
   * `parse_from_tokens` with `parse::Program`, then `finish`: a fresh parser
   * over `tokens`, one program, and the buffer it leaves. A program that
   * completes is one node whose leaves are all the tokens, in order; the
   * parse only gets stuck at a `}` that no statement consumes.
   */
  method ParseFromTokens(tokens: seq<TokenKind>) returns (r: Outcome, events: seq<Event>)
    ensures WellLinked(events)
    ensures r.Done? ==> Node(events, SyntaxKind.Program) && Leaves(events) == Terminals(tokens)
    ensures r.Fail? ==> r.reason != Stuck || RightCurlyBracket in tokens
  {
    var source := new VecTokenSource(tokens);
    var p := new Parser(source);
    r := ParseProgram(p);
    events := p.events;
    if r.Done? {
      assert events[0..] == events && tokens[0..|tokens|] == tokens;
    }
  }

  /**
   * `parse`: a program over `tokens`, replayed into a tree sink. The sink is
   * the corrected one of `EventSink`, which also opens the forward parents;
   * it receives the replay of the buffer, which is well nested and whose
   * leaves are the tokens; where the original aborts, no call is made.
   */
  method Parse(tokens: seq<TokenKind>) returns (r: Outcome, trace: seq<Call>, events: seq<Event>)
    ensures WellLinked(events)
    ensures r.Done? ==> Node(events, SyntaxKind.Program) && trace == Replay(events)
    ensures r.Done? ==> WellNested(trace) && LeafKinds(trace) == Terminals(tokens)
    ensures r.Fail? ==> trace == []
  {
    r, events := ParseFromTokens(tokens);
    if r.Fail? {
      return r, [], events;
    }
    var buffer := new Event[|events|](i requires 0 <= i < |events| => events[i]);
    assert buffer[..] == events;
    trace := EventSink.Sink(buffer);
    UnstartedLeaves(trace);
    PlainLeaves(events);
  }

  /** The kinds of the tokens the parser sees: every token but whitespace, in order. */
  function Significant(tokens: seq<Lexer.Token>): (kinds: seq<TokenKind>)
    ensures |kinds| <= |tokens| && Whitespace !in kinds
  {
    if |tokens| == 0 then []
    else
      var last := tokens[|tokens| - 1];
      Significant(tokens[..|tokens| - 1]) + (if last.kind == Whitespace then [] else [last.kind])
  }

  /** A token is seen by the parser exactly when it is not whitespace. */
  lemma {:induction false} SignificantKinds(tokens: seq<Lexer.Token>, k: TokenKind)
    ensures k in Significant(tokens) <==> k != Whitespace && exists i | 0 <= i < |tokens| :: tokens[i].kind == k
  {
    if |tokens| > 0 {
      var init := tokens[..|tokens| - 1];
      SignificantKinds(init, k);
      if exists i | 0 <= i < |init| :: init[i].kind == k {
        var i :| 0 <= i < |init| && init[i].kind == k;
        assert tokens[i].kind == k;
      }
      if exists i | 0 <= i < |tokens| :: tokens[i].kind == k {
        var i :| 0 <= i < |tokens| && tokens[i].kind == k;
        if i < |init| {
          assert init[i].kind == k;
        }
      }
    }
  }

  /**
   * The parser's test harness: tokenize `text`, drop the whitespace, run
   * `parse_from_tokens` with `Program` over what is left, and hand back the
   * buffer. A program that completes is one node whose leaves are the
   * non-whitespace tokens of the text, in order.
   */
  method ParseText(text: string) returns (r: Outcome, events: seq<Event>)
    ensures WellLinked(events)
    ensures r.Done? ==> Node(events, SyntaxKind.Program)
    ensures r.Done? ==> Leaves(events) == Terminals(Significant(Lexer.Tokenization(text)))
    ensures r.Fail? ==> r.reason != Stuck || RightCurlyBracket in Significant(Lexer.Tokenization(text))
  {
    var tokens := Lexer.Tokenize(text);
    r, events := ParseFromTokens(Significant(tokens));
  }
}

=== FILE: parser.dfy ===
/**
 * The parser engine: a cursor over a token source and an append-only buffer
 * of events. Markers reserve a slot with `Start`, and later complete it into
 * a node, abandon it, precede a completed node with a new parent, or undo a
 * completion.
 */
module Parsing {
  import opened Kinds
  import opened TokenSets
  import opened Events

  /**
   * The two token sources: the vector source of the tests, the token kinds
   * and a cursor into them, and `EmptyTokenSource`, which has no tokens and
   * whose `bump` does nothing.
   */
  class VecTokenSource {
    const tokens: seq<TokenKind>
    const empty: bool
    var here: nat

    constructor (tokens: seq<TokenKind>)
      ensures this.tokens == tokens && here == 0 && !empty
    {
      this.tokens := tokens;
      empty := false;
      here := 0;
    }

    /** `EmptyTokenSource`: a source without tokens, so every lookahead is `None`. */
    constructor Empty()
      ensures tokens == [] && here == 0 && empty
      ensures forall n: nat :: La(n) == None
    {
      tokens := [];
      empty := true;
      here := 0;
    }

    /** Only a source without tokens is the empty one. */
    predicate Sound()
    {
      empty ==> tokens == []
    }

    /** `la(n)`: `tokens.get(here + n)`, the `n`th token ahead, or `None` past the end. */
    function La(n: nat): (r: Option<TokenKind>)
      reads this
      ensures r.Some? <==> here + n < |tokens|
      ensures r.Some? ==> r.value == tokens[here + n]
    {
      if here + n < |tokens| then Some(tokens[here + n]) else None
    }

    /**
     * `bump`: the vector source moves its cursor one token on, whether or not
     * a token is left; the empty source stays where it is.
     */
    method Bump()
      modifies this
      ensures here == if empty then old(here) else old(here) + 1
    {
      if !empty {
        here := here + 1;
      }
    }
  }

  /** Why a grammar rule gave up: `unwrap` on no token, a failed `bump` assertion, or no progress. */
  datatype Abort = UnexpectedEnd | Mismatch(expected: TokenKind) | Stuck

  /** The outcome of a step that can abort. */
  datatype Outcome = Done | Fail(reason: Abort)
  {
    predicate IsFailure() {
      Fail?
    }

    function PropagateFailure(): Outcome
      requires IsFailure()
    {
      this
    }
  }

  // ---------------------------------------------------------------------
  // Buffer invariants kept by every operation

  /** Every forward offset lands on a `Start` or `Abandoned` slot, and no two name the same slot. */
  ghost predicate WellLinked(evs: seq<Event>)
  {
    LinksValid(evs) && LinksInjective(evs)
  }

  /** Appending an event without a forward offset keeps the links. */
  lemma AppendKeepsLinks(evs: seq<Event>, e: Event)
    requires WellLinked(evs) && LinkOf(e).None?
    ensures WellLinked(evs + [e])
  {
    var evs' := evs + [e];
    forall h | 0 <= h < |evs'|
      ensures LinkValidAt(evs', h)
    {
      if h < |evs| {
        assert LinkValidAt(evs, h);
        assert evs'[h] == evs[h];
      }
    }
    forall h1, h2 | 0 <= h1 < h2 < |evs'|
      ensures DistinctParents(evs', h1, h2)
    {
      if h2 < |evs| {
        DistinctAt(evs, h1, h2);
        assert evs'[h1] == evs[h1] && evs'[h2] == evs[h2];
      }
    }
  }

  /** Overwriting a slot with a `Start` or `Abandoned` without forward offset keeps the links. */
  lemma ReplaceKeepsLinks(evs: seq<Event>, j: nat, e: Event)
    requires WellLinked(evs) && j < |evs|
    requires (e.Start? || e.Abandoned?) && LinkOf(e).None?
    ensures WellLinked(evs[j := e])
  {
    var evs' := evs[j := e];
    forall h | 0 <= h < |evs'|
      ensures LinkValidAt(evs', h)
    {
      if h != j {
        assert LinkValidAt(evs, h);
      }
    }
    forall h1, h2 | 0 <= h1 < h2 < |evs'|
      ensures DistinctParents(evs', h1, h2)
    {
      if h1 != j && h2 != j {
        DistinctAt(evs, h1, h2);
      }
    }
  }

  /** Popping a last slot that no forward offset names keeps the links. */
  lemma PopKeepsLinks(evs: seq<Event>)
    requires WellLinked(evs) && |evs| > 0 && !Targeted(evs, |evs| - 1)
    ensures WellLinked(evs[..|evs| - 1])
  {
    var evs' := evs[..|evs| - 1];
    forall h | 0 <= h < |evs'|
      ensures LinkValidAt(evs', h)
    {
      assert LinkValidAt(evs, h);
      if LinkOf(evs[h]).Some? {
        assert !LinksTo(evs, h, |evs| - 1);
      }
    }
    forall h1, h2 | 0 <= h1 < h2 < |evs'|
      ensures DistinctParents(evs', h1, h2)
    {
      DistinctAt(evs, h1, h2);
    }
  }

  /** A slot that holds a `Finish` is never a forward target. */
  lemma FinishUntargeted(evs: seq<Event>, j: nat)
    requires LinksValid(evs) && j < |evs| && evs[j].Finish?
    ensures !Targeted(evs, j)
  {
    forall h | 0 <= h < j
      ensures !LinksTo(evs, h, j)
    {
      assert LinkValidAt(evs, h);
    }
  }

  /** The slot just appended is not a forward target. */
  lemma LastUntargeted(evs: seq<Event>, e: Event)
    requires LinksValid(evs)
    ensures !Targeted(evs + [e], |evs|)
  {
    forall h | 0 <= h < |evs|
      ensures !LinksTo(evs + [e], h, |evs|)
    {
      assert LinkValidAt(evs, h);
      assert (evs + [e])[h] == evs[h];
    }
  }

  /** Linking a `Start` to a freshly appended slot keeps the links. */
  lemma PrecedeKeepsLinks(evs: seq<Event>, c: nat)
    requires WellLinked(evs) && c < |evs| && evs[c].Start?
    ensures WellLinked((evs + [Abandoned])[c := Start(evs[c].kind, Some(|evs| - c))])
  {
    var evs' := (evs + [Abandoned])[c := Start(evs[c].kind, Some(|evs| - c))];
    forall h | 0 <= h < |evs'|
      ensures LinkValidAt(evs', h)
    {
      if h != c && h < |evs| {
        assert LinkValidAt(evs, h);
        assert evs'[h] == evs[h];
      }
    }
    forall h1, h2 | 0 <= h1 < h2 < |evs'|
      ensures DistinctParents(evs', h1, h2)
    {
      if h1 == c || h2 == c {
        var other := if h1 == c then h2 else h1;
        if other < |evs| {
          assert LinkValidAt(evs, other);
        }
      } else if h2 < |evs| {
        DistinctAt(evs, h1, h2);
      }
    }
  }

  /**
   * Abandoning the marker `precede` returned pops its slot while the preceded
   * `Start` still names it: the buffer is left with an offset past its end,
   * which the replay rejects. Markers from `precede` must be completed.
   */
  lemma PrecedeThenAbandonDangles(evs: seq<Event>, c: nat)
    requires c < |evs| && evs[c].Start?
    ensures Targeted((evs + [Abandoned])[c := Start(evs[c].kind, Some(|evs| - c))], |evs|)
    ensures !LinksValid(((evs + [Abandoned])[c := Start(evs[c].kind, Some(|evs| - c))])[..|evs|])
  {
    var evs' := (evs + [Abandoned])[c := Start(evs[c].kind, Some(|evs| - c))];
    assert LinksTo(evs', c, |evs|);
    assert !LinkValidAt(evs'[..|evs|], c);
  }

  /** The recovery set `err_recover` tests: the given kinds and both curly braces. */
  function RecoverySet(recovery: TokenSet): (r: TokenSet)
    ensures forall k :: r.Contains(k) <==> k == LeftCurlyBracket || k == RightCurlyBracket || recovery.Contains(k)
  {
    recovery.With(LeftCurlyBracket).With(RightCurlyBracket)
  }

  /** The message `expect` records for a missing `kind`: "expected", then the kind's name. */
  function Expected(kind: TokenKind): (e: ParseError)
    ensures |e.message| > 9 && e.message[..9] == "expected "
  {
    ParseError("expected " + Name(kind))
  }

  /** Two `expect` messages are the same exactly when they name the same kind. */
  lemma ExpectedNamesKind(a: TokenKind, b: TokenKind)
    ensures Expected(a) == Expected(b) <==> a == b
  {
    if Expected(a) == Expected(b) {
      assert Name(a) == Expected(a).message[9..];
      assert Name(b) == Expected(b).message[9..];
    }
  }

  // ---------------------------------------------------------------------
  // Markers

  /** A reserved slot of the buffer, not yet completed or abandoned. */
  datatype Marker = Marker(pos: nat)
  {
    /**
     * `Marker::complete`: the reserved slot must still be `Abandoned`; it
     * becomes the node's `Start`, and a `Finish` is appended.
     */
    method Complete(p: Parser, kind: SyntaxKind) returns (cm: CompletedMarker)
      requires p.Valid()
      requires pos < |p.events| && p.events[pos].Abandoned?
      modifies p
      ensures p.Valid()
      ensures p.events == old(p.events)[pos := Start(kind, None)] + [Finish]
      ensures cm == CompletedMarker(pos, old(|p.events|)) && cm.startPos < cm.finishPos
    {
      ReplaceKeepsLinks(p.events, pos, Start(kind, None));
      AppendKeepsLinks(p.events[pos := Start(kind, None)], Finish);
      cm := CompletedMarker(pos, |p.events|);
      p.events := p.events[pos := Start(kind, None)] + [Finish];
    }

    /**
     * `Marker::abandon`: a reserved slot that is still the last event is
     * popped (it must be `Abandoned`); otherwise the buffer is unchanged and
     * the slot stays `Abandoned`, so its children join the enclosing node.
     */
    method Abandon(p: Parser)
      requires p.Valid()
      requires pos < |p.events|
      requires pos == |p.events| - 1 ==> p.events[pos].Abandoned?
      modifies p
      ensures pos == old(|p.events|) - 1 ==> p.events == old(p.events)[..pos]
      ensures pos < old(|p.events|) - 1 ==> p.events == old(p.events)
      ensures !Targeted(old(p.events), pos) ==> p.Valid()
    {
      if pos == |p.events| - 1 {
        if !Targeted(p.events, pos) {
          PopKeepsLinks(p.events);
        }
        p.events := p.events[..pos];
      }
    }
  }

  /** A completed node: the slots of its `Start` and of its `Finish`. */
  datatype CompletedMarker = CompletedMarker(startPos: nat, finishPos: nat)
  {
    /**
     * `CompletedMarker::precede`: reserves a new slot and makes it the
     * forward parent of the completed node, at the strictly positive offset
     * from the node's `Start` to the new slot. Nothing else changes.
     */
    method Precede(p: Parser) returns (m: Marker)
      requires p.Valid()
      requires startPos < |p.events| && p.events[startPos].Start?
      modifies p
      ensures p.Valid()
      ensures m.pos == old(|p.events|) && m.pos > startPos
      ensures p.events ==
        (old(p.events) + [Abandoned])[startPos := Start(old(p.events)[startPos].kind, Some(m.pos - startPos))]
    {
      m := p.Start();
      PrecedeKeepsLinks(old(p.events), startPos);
      p.events := p.events[startPos := Start(p.events[startPos].kind, Some(m.pos - startPos))];
    }

    /**
     * `CompletedMarker::undo`: the node's `Start` (which must not have been
     * preceded) becomes `Abandoned`; its `Finish` is popped when it is the
     * last event and becomes `Abandoned` otherwise. The slot is reserved again.
     */
    method Undo(p: Parser) returns (m: Marker)
      requires p.Valid()
      requires startPos < |p.events| && p.events[startPos].Start? && p.events[startPos].forwardParent.None?
      requires finishPos < |p.events| && p.events[finishPos].Finish?
      modifies p
      ensures p.Valid()
      ensures m == Marker(startPos)
      ensures finishPos == old(|p.events|) - 1 ==> p.events == old(p.events)[startPos := Abandoned][..finishPos]
      ensures finishPos < old(|p.events|) - 1 ==>
        p.events == old(p.events)[startPos := Abandoned][finishPos := Abandoned]
    {
      ReplaceKeepsLinks(p.events, startPos, Abandoned);
      p.events := p.events[startPos := Abandoned];
      if finishPos == |p.events| - 1 {
        FinishUntargeted(p.events, finishPos);
        PopKeepsLinks(p.events);
        p.events := p.events[..finishPos];
      } else {
        ReplaceKeepsLinks(p.events, finishPos, Abandoned);
        p.events := p.events[finishPos := Abandoned];
      }
      m := Marker(startPos);
    }
  }

  // ---------------------------------------------------------------------
  // The parser

  /** `Parser`: the token source it consumes and the events it has emitted. */
  class Parser {
    const source: VecTokenSource
    var events: seq<Event>

    /** The cursor stays within the tokens, and the buffer's forward links are sound. */
    ghost predicate Valid()
      reads this, source
    {
      source.here <= |source.tokens| && source.Sound() && WellLinked(events)
    }

    /** `Parser::new`: an empty buffer over `source`. */
    constructor (source: VecTokenSource)
      ensures this.source == source && events == []
      ensures source.here <= |source.tokens| && source.Sound() ==> Valid()
    {
      this.source := source;
      events := [];
    }

    /** `current`: the token under the cursor, if any. */
    function Current(): (r: Option<TokenKind>)
      reads this, source
      ensures r.Some? <==> source.here < |source.tokens|
      ensures r.Some? ==> r.value == source.tokens[source.here]
    {
      source.La(0)
    }

    /** `la(n)`: the `n`th token ahead; the grammar looks at most three tokens ahead. */
    function La(n: nat): (r: Option<TokenKind>)
      requires n <= 3
      reads this, source
      ensures r.Some? <==> source.here + n < |source.tokens|
      ensures r.Some? ==> r.value == source.tokens[source.here + n]
    {
      source.La(n)
    }

    /** `at(kind)`: the current token is `kind`. */
    function At(kind: TokenKind): (r: bool)
      reads this, source
      ensures r <==> source.here < |source.tokens| && source.tokens[source.here] == kind
    {
      LaAt(0, kind)
    }

    /** `la_at(n, kind)`: the `n`th token ahead is `kind`. */
    function LaAt(n: nat, kind: TokenKind): (r: bool)
      requires n <= 3
      reads this, source
      ensures r <==> source.here + n < |source.tokens| && source.tokens[source.here + n] == kind
    {
      La(n) == Some(kind)
    }

    /** `at_any(kinds)`: there is a current token and it is in `kinds`. */
    function AtAny(kinds: TokenSet): (r: bool)
      reads this, source
      ensures r <==> source.here < |source.tokens| && kinds.Contains(source.tokens[source.here])
    {
      match Current()
      case None => false
      case Some(kind) => kinds.Contains(kind)
    }

    /** `bump_as(kind)`: consume one token and record it as a leaf of kind `kind`. */
    method BumpAs(kind: SyntaxKind)
      requires Valid()
      modifies this, source
      ensures events == old(events) + [Leaf(kind)]
      ensures source.here == if source.empty then old(source.here) else old(source.here) + 1
      ensures WellLinked(events)
      ensures old(source.here) < |source.tokens| ==> Valid()
    {
      source.Bump();
      AppendKeepsLinks(events, Leaf(kind));
      events := events + [Leaf(kind)];
    }

    /** `eat(kind)`: consume the current token as a leaf iff it is `kind`; otherwise change nothing. */
    method Eat(kind: TokenKind) returns (eaten: bool)
      requires Valid()
      modifies this, source
      ensures Valid()
      ensures eaten <==> old(source.here) < |source.tokens| && source.tokens[old(source.here)] == kind
      ensures eaten ==> events == old(events) + [Leaf(Embed(kind))] && source.here == old(source.here) + 1
      ensures !eaten ==> events == old(events) && source.here == old(source.here)
    {
      if At(kind) {
        BumpAs(Embed(kind));
        eaten := true;
      } else {
        eaten := false;
      }
    }

    /** `start`: reserve the next slot with an `Abandoned` placeholder. */
    method Start() returns (m: Marker)
      requires Valid()
      modifies this
      ensures Valid()
      ensures m.pos == old(|events|) && events == old(events) + [Abandoned]
    {
      m := Marker(|events|);
      AppendKeepsLinks(events, Abandoned);
      events := events + [Abandoned];
    }

    /** `bump(kind)`: `eat(kind)`, asserting that it ate; a failed assertion aborts and changes nothing. */
    method Bump(kind: TokenKind) returns (r: Outcome)
      requires Valid()
      modifies this, source
      ensures Valid()
      ensures r.Done? <==> old(source.here) < |source.tokens| && source.tokens[old(source.here)] == kind
      ensures r.Done? ==> events == old(events) + [Leaf(Embed(kind))] && source.here == old(source.here) + 1
      ensures r.Fail? ==> r.reason == Mismatch(kind) && events == old(events) && source.here == old(source.here)
    {
      var eaten := Eat(kind);
      r := if eaten then Done else Fail(Mismatch(kind));
    }

    /** `bump_any`: consume the current token, if there is one, as a leaf of its own kind. */
    method BumpAny()
      requires Valid()
      modifies this, source
      ensures Valid()
      ensures old(Current()).Some? ==>
        events == old(events) + [Leaf(Embed(old(Current()).value))] && source.here == old(source.here) + 1
      ensures old(Current()).None? ==> events == old(events) && source.here == old(source.here)
    {
      match Current()
      case Some(kind) =>
        BumpAs(Embed(kind));
      case None =>
    }

    /** `error(message)`: record an error event. */
    method Error(message: string)
      requires Valid()
      modifies this
      ensures Valid()
      ensures events == old(events) + [Event.Error(ParseError(message))]
    {
      AppendKeepsLinks(events, Event.Error(ParseError(message)));
      events := events + [Event.Error(ParseError(message))];
    }

    /**
     * `expect(kind)`: eat `kind` if it is current; otherwise record the error
     * "expected <kind>" and consume nothing.
     */
    method Expect(kind: TokenKind) returns (found: bool)
      requires Valid()
      modifies this, source
      ensures Valid()
      ensures found <==> old(source.here) < |source.tokens| && source.tokens[old(source.here)] == kind
      ensures found ==> events == old(events) + [Leaf(Embed(kind))] && source.here == old(source.here) + 1
      ensures !found ==> events == old(events) + [Event.Error(Expected(kind))] && source.here == old(source.here)
    {
      found := Eat(kind);
      if !found {
        Error("expected " + Name(kind));
      }
    }

    /**
     * `err_recover(message, recovery)`: record an error inside a new node.
     * If the current token is in `recovery` or is a curly brace, nothing is
     * consumed and the node's slot is left `Abandoned`; otherwise the current
     * token, if any, is consumed into an `ERROR` node.
     */
    method ErrRecover(message: string, recovery: TokenSet)
      requires Valid()
      modifies this, source
      ensures Valid()
      ensures old(AtAny(RecoverySet(recovery))) ==>
        events == old(events) + [Abandoned, Event.Error(ParseError(message))]
        && source.here == old(source.here)
      ensures old(Current()).None? ==>
        events == old(events) + [Event.Start(SyntaxKind.ERROR, None), Event.Error(ParseError(message)), Finish]
        && source.here == old(source.here)
      ensures old(Current()).Some? && !old(AtAny(RecoverySet(recovery))) ==>
        events == old(events) + [Event.Start(SyntaxKind.ERROR, None), Event.Error(ParseError(message)),
                                 Leaf(Embed(old(Current()).value)), Finish]
        && source.here == old(source.here) + 1
    {
      var recovery' := recovery.With(LeftCurlyBracket);
      recovery' := recovery'.With(RightCurlyBracket);
      var m := Start();
      Error(message);
      if AtAny(recovery') {
        m.Abandon(this);
      } else {
        BumpAny();
        var cm := m.Complete(this, SyntaxKind.ERROR);
      }
    }

    /** `err_bump(message)`: `err_recover` with no recovery kinds but the curly braces. */
    method ErrBump(message: string)
      requires Valid()
      modifies this, source
      ensures Valid()
      ensures old(At(LeftCurlyBracket) || At(RightCurlyBracket)) ==>
        events == old(events) + [Abandoned, Event.Error(ParseError(message))]
        && source.here == old(source.here)
      ensures old(Current()).None? ==>
        events == old(events) + [Event.Start(SyntaxKind.ERROR, None), Event.Error(ParseError(message)), Finish]
        && source.here == old(source.here)
      ensures old(Current()).Some? && !old(At(LeftCurlyBracket) || At(RightCurlyBracket)) ==>
        events == old(events) + [Event.Start(SyntaxKind.ERROR, None), Event.Error(ParseError(message)),
                                 Leaf(Embed(old(Current()).value)), Finish]
        && source.here == old(source.here) + 1
    {
      forall k ensures !EMPTY.Contains(k) {
        EmptyContainsNothing(k);
      }
      ErrRecover(message, EMPTY);
    }
  }

  /**
   * The `pop_optimizations` test: `start().abandon()` and
   * `start().complete(ERROR).undo().abandon()` each leave an empty buffer empty.
   */
  method PopOptimizations() returns (lengths: seq<nat>)
    ensures lengths == [0, 0, 0]
  {
    var tokens := new VecTokenSource.Empty();
    var p := new Parser(tokens);
    lengths := [|p.events|];
    var m := p.Start();
    m.Abandon(p);
    lengths := lengths + [|p.events|];
    m := p.Start();
    var cm := m.Complete(p, SyntaxKind.ERROR);
    m := cm.Undo(p);
    m.Abandon(p);
    lengths := lengths + [|p.events|];
  }
}

=== FILE: sink.dfy ===
/**
 * `Event::sink`: the replay pass that drains an event buffer into tree-sink
 * calls, following forward-parent offsets so that a node built before its
 * parent is opened inside that parent.
 */
module EventSink {
  import opened Kinds
  import opened Events

  // ---------------------------------------------------------------------
  // The state of the buffer during the replay

  /**
   * The buffer as the main loop finds it at slot `i`: every slot before `i`
   * drained, and a later slot drained exactly when a forward chain from a slot
   * before `i` reached it.
   */
  ghost predicate Drained(orig: seq<Event>, s: seq<Event>, i: int)
  {
    |s| == |orig| && 0 <= i <= |s|
    && (forall j | 0 <= j < i :: s[j] == Abandoned)
    && (forall j | i <= j < |s| :: s[j] == if Reach(orig, i, j) then Abandoned else orig[j])
  }

  /** The buffer while the forward walk from slot `i` stands at slot `idx`. */
  ghost predicate Walking(orig: seq<Event>, s: seq<Event>, i: int, idx: int)
  {
    |s| == |orig| && 0 <= i <= idx < |s|
    && (forall j | 0 <= j <= i :: s[j] == Abandoned)
    && (forall j | i < j < |s| ::
          s[j] == if Reach(orig, i, j) || (j <= idx && ReachFrom(orig, i, j)) then Abandoned else orig[j])
    && (idx == i || ReachFrom(orig, i, idx))
    && WalkedUpTo(orig, i, idx)
  }

  lemma {:induction false} NothingReachedYet(evs: seq<Event>, j: int)
    ensures !Reach(evs, 0, j)
    decreases j
  {
    if Reach(evs, 0, j) {
      var h :| 0 <= h < j && LinksTo(evs, h, j) && (h < 0 || Reach(evs, 0, h));
      NothingReachedYet(evs, h);
    }
  }

  lemma DrainedInitially(orig: seq<Event>)
    ensures Drained(orig, orig, 0)
  {
    forall j | 0 <= j < |orig|
      ensures !Reach(orig, 0, j)
    {
      NothingReachedYet(orig, j);
    }
  }

  /** A slot reached from before itself is exactly a targeted slot. */
  lemma TargetedIsReachedSelf(evs: seq<Event>, i: int)
    ensures Targeted(evs, i) <==> Reach(evs, i, i)
  {
    if Targeted(evs, i) {
      var h :| 0 <= h < i && LinksTo(evs, h, i);
      assert LinksTo(evs, h, i) && h < i;
    }
  }

  /** Reaching from before `i + 1` is reaching from before `i`, or from `i` itself. */
  lemma ReachNext(evs: seq<Event>, i: int, j: int)
    requires 0 <= i
    ensures Reach(evs, i + 1, j) <==> Reach(evs, i, j) || ReachFrom(evs, i, j)
  {
    if Reach(evs, i + 1, j) {
      ReachSplit(evs, i, j);
    }
    if Reach(evs, i, j) {
      ReachGrows(evs, i, j);
    }
    if ReachFrom(evs, i, j) {
      ReachFromIsReach(evs, i, j);
    }
  }

  /** A slot that was itself drained by a forward chain adds nothing new. */
  lemma DrainedPastTargeted(orig: seq<Event>, s: seq<Event>, i: int)
    requires Drained(orig, s, i) && i < |s|
    requires Reach(orig, i, i)
    ensures Drained(orig, s, i + 1)
  {
    forall j | i + 1 <= j < |s|
      ensures Reach(orig, i + 1, j) <==> Reach(orig, i, j)
    {
      ReachNext(orig, i, j);
      if ReachFrom(orig, i, j) {
        ReachThrough(orig, i, i, j);
      }
    }
  }

  /** A slot without a forward offset adds nothing new. */
  lemma DrainedPastUnlinked(orig: seq<Event>, s: seq<Event>, i: int)
    requires Drained(orig, s, i) && i < |s|
    requires !Reach(orig, i, i) && LinkOf(orig[i]).None?
    ensures Drained(orig, s[i := Abandoned], i + 1)
  {
    forall j | i + 1 <= j < |s|
      ensures Reach(orig, i + 1, j) <==> Reach(orig, i, j)
    {
      ReachNext(orig, i, j);
      NoLinkReachesNothing(orig, i, j);
    }
  }

  lemma WalkBegin(orig: seq<Event>, s: seq<Event>, i: int)
    requires Drained(orig, s, i) && i < |s|
    requires !Reach(orig, i, i)
    ensures Walking(orig, s[i := Abandoned], i, i)
  {
  }

  /** Slots strictly between `idx` and its forward parent are not on the walk from `i`. */
  lemma SkippedByWalk(orig: seq<Event>, i: int, idx: int, j: int)
    requires 0 <= i <= idx < |orig| && WalkedUpTo(orig, i, idx)
    requires LinkOf(orig[idx]).Some? && idx < j < idx + LinkOf(orig[idx]).value
    ensures !ReachFrom(orig, i, j)
  {
    if ReachFrom(orig, i, j) {
      ReachPassesThrough(orig, i, idx, j);
      ReachFromBeyondFirst(orig, idx, j);
    }
  }

  /** The walk from `i` moves on from `idx` to its forward parent `t`. */
  lemma WalkedOneFurther(orig: seq<Event>, i: int, idx: int)
    requires 0 <= i <= idx < |orig| && WalkedUpTo(orig, i, idx)
    requires LinkOf(orig[idx]).Some?
    ensures WalkedUpTo(orig, i, idx + LinkOf(orig[idx]).value)
  {
    var t := idx + LinkOf(orig[idx]).value;
    forall h | 0 <= h < |orig| && i <= h < t && (h == i || ReachFrom(orig, i, h))
      ensures LinkOf(orig[h]).Some? && h + LinkOf(orig[h]).value <= t
    {
      if idx < h {
        SkippedByWalk(orig, i, idx, h);
      }
    }
  }

  /** Draining the forward parent `t` of `idx` marks exactly the slots the walk has now passed. */
  lemma DrainedOneFurther(orig: seq<Event>, s: seq<Event>, i: int, idx: int)
    requires Walking(orig, s, i, idx)
    requires LinkOf(orig[idx]).Some? && idx + LinkOf(orig[idx]).value < |s|
    ensures ReachFrom(orig, i, idx + LinkOf(orig[idx]).value)
    ensures var t := idx + LinkOf(orig[idx]).value;
      forall j | i < j < |s| ::
        s[t := Abandoned][j] == if Reach(orig, i, j) || (j <= t && ReachFrom(orig, i, j)) then Abandoned else orig[j]
  {
    var t := idx + LinkOf(orig[idx]).value;
    assert LinksTo(orig, idx, t);
    assert ReachFrom(orig, i, t);
    forall j | i < j < |s|
      ensures s[t := Abandoned][j] == if Reach(orig, i, j) || (j <= t && ReachFrom(orig, i, j)) then Abandoned else orig[j]
    {
      if idx < j < t {
        SkippedByWalk(orig, i, idx, j);
      }
    }
  }

  /** One step of the forward walk: drain the forward parent of slot `idx`. */
  lemma WalkStep(orig: seq<Event>, s: seq<Event>, i: int, idx: int, t: int)
    requires LinksValid(orig)
    requires Walking(orig, s, i, idx)
    requires LinkOf(orig[idx]).Some? && t == idx + LinkOf(orig[idx]).value
    ensures idx < t < |s|
    ensures s[t] == (if Reach(orig, i, t) then Abandoned else orig[t])
    ensures Walking(orig, s[t := Abandoned], i, t)
  {
    assert LinkValidAt(orig, idx);
    WalkedOneFurther(orig, i, idx);
    DrainedOneFurther(orig, s, i, idx);
  }

  /** The walk ends at a slot with no further parent, or at one already drained. */
  lemma WalkEnd(orig: seq<Event>, s: seq<Event>, i: int, idx: int)
    requires Walking(orig, s, i, idx)
    requires LinkOf(orig[idx]).None? || (idx != i && Reach(orig, i, idx))
    ensures Drained(orig, s, i + 1)
  {
    forall j | i + 1 <= j < |s|
      ensures s[j] == if Reach(orig, i + 1, j) then Abandoned else orig[j]
    {
      ReachNext(orig, i, j);
      if j > idx && ReachFrom(orig, i, j) {
        ReachPassesThrough(orig, i, idx, j);
        if LinkOf(orig[idx]).None? {
          NoLinkReachesNothing(orig, idx, j);
        } else {
          ReachThrough(orig, i, idx, j);
        }
      }
    }
  }

  /**
   * With injective links, the walk from an untargeted slot never meets a slot
   * that an earlier walk drained.
   */
  lemma WalkInjective(orig: seq<Event>, i: int, idx: int)
    requires LinksInjective(orig)
    requires 0 <= i <= idx < |orig| && LinkOf(orig[idx]).Some?
    requires !Reach(orig, i, i) && (idx == i || !Reach(orig, i, idx))
    ensures !Reach(orig, i, idx + LinkOf(orig[idx]).value)
  {
    var t := idx + LinkOf(orig[idx]).value;
    forall h | 0 <= h < t && LinksTo(orig, h, t)
      ensures h == idx
    {
      assert LinksTo(orig, idx, t);
      if h < idx {
        DistinctAt(orig, h, idx);
      } else if idx < h {
        DistinctAt(orig, idx, h);
      }
    }
  }

  lemma ChainStep(orig: seq<Event>, t: nat)
    requires LinksValid(orig) && t < |orig|
    requires orig[t].Start? || orig[t].Abandoned?
    ensures ChainKinds(orig, t) == StartKind(orig[t]) + ChainRest(orig, t)
  {
    assert LinkValidAt(orig, t);
    if orig[t].Abandoned? {
      assert ChainRest(orig, t) == [];
    }
  }

  // ---------------------------------------------------------------------
  // The replay loop's invariant, one slot at a time

  /** Appending the `start` calls of a chain adds one open per kind and nothing else. */
  lemma {:induction false} AppendOpens(trace: seq<Call>, kinds: seq<SyntaxKind>)
    ensures Opens(trace + OpenReversed(kinds)) == Opens(trace) + |kinds|
    ensures Closes(trace + OpenReversed(kinds)) == Closes(trace)
    ensures Unstarted(trace + OpenReversed(kinds)) == Unstarted(trace)
    ensures NonNegativePrefixes(trace) ==> NonNegativePrefixes(trace + OpenReversed(kinds))
  {
    if |kinds| > 0 {
      var c := StartCall(kinds[0]);
      AppendOpens(trace, kinds[1..]);
      assert trace + OpenReversed(kinds) == (trace + OpenReversed(kinds[1..])) + [c];
      CallCountsAppend(trace + OpenReversed(kinds[1..]), c);
      if NonNegativePrefixes(trace) {
        AppendKeepsPrefixes(trace + OpenReversed(kinds[1..]), c);
      }
    } else {
      assert trace + OpenReversed(kinds) == trace;
    }
  }

  /**
   * The replay has drained the slots before `i` into `trace`: the buffer is
   * `Drained`, the non-`start` calls are those of the slots before `i`, every
   * `Start` no longer in the buffer has been opened, a balanced buffer has
   * kept the calls from closing more than they opened, and with injective
   * links the calls are the declarative replay of the slots before `i`.
   */
  ghost predicate Replaying(orig: seq<Event>, s: seq<Event>, i: int, trace: seq<Call>)
  {
    LinksValid(orig) && Drained(orig, s, i)
    && Unstarted(trace) == Plain(orig[..i])
    && Closes(trace) == FinishCount(orig[..i])
    && Opens(trace) + StartCount(s) == StartCount(orig)
    && (Dyck(orig) ==> NonNegativePrefixes(trace))
    && (LinksInjective(orig) ==> trace == ReplayUpTo(orig, i))
  }

  lemma ReplayingInitially(orig: seq<Event>)
    requires LinksValid(orig)
    ensures Replaying(orig, orig, 0, [])
  {
    DrainedInitially(orig);
    var none: seq<Call> := [];
    assert none[..0] == none;
  }

  lemma ReplayingDone(orig: seq<Event>, s: seq<Event>, trace: seq<Call>)
    requires Replaying(orig, s, |orig|, trace)
    ensures forall j | 0 <= j < |s| :: s[j] == Abandoned
    ensures Unstarted(trace) == Plain(orig)
    ensures Opens(trace) == StartCount(orig)
    ensures Dyck(orig) ==> WellNested(trace)
    ensures LinksInjective(orig) ==> trace == Replay(orig)
  {
    assert orig[..|orig|] == orig;
    AllAbandonedNoStarts(s);
  }

  /** A slot the replay finds already drained contributes nothing. */
  lemma ReplayingPastAbandoned(orig: seq<Event>, s: seq<Event>, i: int, trace: seq<Call>)
    requires Replaying(orig, s, i, trace) && i < |s| && s[i] == Abandoned
    ensures Replaying(orig, s, i + 1, trace)
  {
    EventCountsStep(orig, i);
    TargetedIsReachedSelf(orig, i);
    if Reach(orig, i, i) {
      var h :| 0 <= h < i && LinksTo(orig, h, i);
      assert LinkValidAt(orig, h);
      DrainedPastTargeted(orig, s, i);
    } else {
      assert s[i := Abandoned] == s;
      DrainedPastUnlinked(orig, s, i);
    }
  }

  /** The counts after a `Finish`, `Leaf` or `Error` slot. */
  lemma PlainCounts(orig: seq<Event>, s: seq<Event>, i: int, trace: seq<Call>, call: Call)
    requires |s| == |orig| && 0 <= i < |s| && s[i] == orig[i]
    requires (s[i].Finish? || s[i].Leaf? || s[i].Error?) && [call] == PlainCall(s[i])
    requires Unstarted(trace) == Plain(orig[..i])
    requires Closes(trace) == FinishCount(orig[..i])
    requires Opens(trace) + StartCount(s) == StartCount(orig)
    ensures Unstarted(trace + [call]) == Plain(orig[..i + 1])
    ensures Closes(trace + [call]) == FinishCount(orig[..i + 1])
    ensures Opens(trace + [call]) + StartCount(s[i := Abandoned]) == StartCount(orig)
  {
    EventCountsStep(orig, i);
    StartCountAbandon(s, i);
    CallCountsAppend(trace, call);
  }

  /** A `Finish` of a balanced buffer closes only what the calls have opened. */
  lemma PlainNesting(orig: seq<Event>, s: seq<Event>, i: int, trace: seq<Call>, call: Call)
    requires Drained(orig, s, i + 1) && i < |s|
    requires Dyck(orig) && NonNegativePrefixes(trace)
    requires Closes(trace + [call]) == FinishCount(orig[..i + 1])
    requires Opens(trace + [call]) + StartCount(s) == StartCount(orig)
    ensures NonNegativePrefixes(trace + [call])
  {
    RemainingStarts(orig, s, i + 1, |orig|);
    assert s[..|orig|] == s && orig[..|orig|] == orig;
    assert DepthAt(orig, i + 1) >= 0;
    AppendKeepsPrefixes(trace, call);
  }

  /** With injective links, a `Finish`, `Leaf` or `Error` slot replays as its one call. */
  lemma PlainReplay(orig: seq<Event>, i: int, trace: seq<Call>, call: Call)
    requires LinksValid(orig) && 0 <= i < |orig|
    requires (orig[i].Finish? || orig[i].Leaf? || orig[i].Error?) && [call] == PlainCall(orig[i])
    requires trace == ReplayUpTo(orig, i)
    ensures trace + [call] == ReplayUpTo(orig, i + 1)
  {
  }

  /** A `Finish`, `Leaf` or `Error` slot contributes its one call. */
  lemma ReplayingPastPlain(orig: seq<Event>, s: seq<Event>, i: int, trace: seq<Call>, call: Call)
    requires Replaying(orig, s, i, trace) && i < |s|
    requires (s[i].Finish? || s[i].Leaf? || s[i].Error?) && [call] == PlainCall(s[i])
    ensures Replaying(orig, s[i := Abandoned], i + 1, trace + [call])
  {
    assert s[i] == orig[i];
    DrainedPastUnlinked(orig, s, i);
    PlainCounts(orig, s, i, trace, call);
    if Dyck(orig) {
      PlainNesting(orig, s[i := Abandoned], i, trace, call);
    }
    if LinksInjective(orig) {
      PlainReplay(orig, i, trace, call);
    }
  }

  /** With injective links, an untargeted `Start` replays as its whole chain, outermost first. */
  lemma StartReplay(orig: seq<Event>, i: int, trace: seq<Call>, forwardParents: seq<SyntaxKind>)
    requires LinksValid(orig) && 0 <= i < |orig| && orig[i].Start? && !Reach(orig, i, i)
    requires forwardParents == ChainKinds(orig, i)
    requires trace == ReplayUpTo(orig, i)
    ensures trace + OpenReversed(forwardParents) == ReplayUpTo(orig, i + 1)
  {
    TargetedIsReachedSelf(orig, i);
  }

  /** A `Start` slot not yet drained opens the chain the forward walk collected. */
  lemma ReplayingPastStart(orig: seq<Event>, s: seq<Event>, s': seq<Event>, i: int, trace: seq<Call>,
                           forwardParents: seq<SyntaxKind>)
    requires Replaying(orig, s, i, trace) && i < |s| && s[i].Start?
    requires Drained(orig, s', i + 1)
    requires |forwardParents| + StartCount(s') == StartCount(s)
    requires LinksInjective(orig) ==> forwardParents == ChainKinds(orig, i)
    ensures Replaying(orig, s', i + 1, trace + OpenReversed(forwardParents))
  {
    assert s[i] == orig[i] && !Reach(orig, i, i);
    EventCountsStep(orig, i);
    AppendOpens(trace, forwardParents);
    if LinksInjective(orig) {
      StartReplay(orig, i, trace, forwardParents);
    }
  }

  // ---------------------------------------------------------------------
  // The replay

  /** The kind a drained slot adds to the collected chain: its own, if it is a `Start`. */
  function StartKind(e: Event): seq<SyntaxKind>
  {
    if e.Start? then [e.kind] else []
  }

  /**
   * The forward walk from the `Start` at slot `i` (of buffer `before`) stands
   * at `idx`, with `fp` the offset still to follow and `forwardParents` the
   * kinds collected so far.
   */
  ghost predicate WalkState(orig: seq<Event>, before: seq<Event>, s: seq<Event>, i: int, idx: int,
                            fp: Option<Offset>, forwardParents: seq<SyntaxKind>, kind: SyntaxKind)
  {
    LinksValid(orig) && Walking(orig, s, i, idx)
    && fp == (if idx == i then LinkOf(orig[i]) else if Reach(orig, i, idx) then None else LinkOf(orig[idx]))
    && |forwardParents| + StartCount(s) == StartCount(before)
    && |forwardParents| >= 1 && forwardParents[0] == kind
    && (LinksInjective(orig) ==>
          (idx == i || !Reach(orig, i, idx)) && forwardParents + ChainRest(orig, idx) == ChainKinds(orig, i))
  }

  /** The chain collected so far, extended by the slot the walk steps onto. */
  lemma ChainAdvance(orig: seq<Event>, idx: int, forwardParents: seq<SyntaxKind>, chain: seq<SyntaxKind>,
                     t: int, extended: seq<SyntaxKind>)
    requires LinksValid(orig) && 0 <= idx < |orig| && LinkOf(orig[idx]).Some?
    requires t == idx + LinkOf(orig[idx]).value && t < |orig|
    requires forwardParents + ChainRest(orig, idx) == chain
    requires extended == forwardParents + StartKind(orig[t])
    ensures extended + ChainRest(orig, t) == chain
  {
    assert LinkValidAt(orig, idx);
    ChainStep(orig, t);
    assert ChainRest(orig, idx) == ChainKinds(orig, t);
    AppendAssociative(forwardParents, StartKind(orig[t]), ChainRest(orig, t));
  }

  lemma AppendAssociative<T>(a: seq<T>, b: seq<T>, c: seq<T>)
    ensures (a + b) + c == a + (b + c)
  {
  }

  /** With injective links, one turn of the walk keeps it off drained slots and on the chain. */
  lemma WalkAdvanceInjective(orig: seq<Event>, s: seq<Event>, i: int, idx: int,
                             forwardParents: seq<SyntaxKind>, t: int, extended: seq<SyntaxKind>)
    requires LinksValid(orig) && LinksInjective(orig) && Walking(orig, s, i, idx)
    requires LinkOf(orig[idx]).Some? && !Reach(orig, i, i) && (idx == i || !Reach(orig, i, idx))
    requires forwardParents + ChainRest(orig, idx) == ChainKinds(orig, i)
    requires t == idx + LinkOf(orig[idx]).value && t < |s| && extended == forwardParents + StartKind(s[t])
    ensures s[t] == orig[t] && !Reach(orig, i, t)
    ensures extended + ChainRest(orig, t) == ChainKinds(orig, i)
  {
    assert LinkValidAt(orig, idx);
    WalkLandsUndrained(orig, s, i, idx, t);
    ChainAdvance(orig, idx, forwardParents, ChainKinds(orig, i), t, extended);
  }

  /** With injective links, the slot one turn of the walk lands on was not drained before. */
  lemma WalkLandsUndrained(orig: seq<Event>, s: seq<Event>, i: int, idx: int, t: int)
    requires LinksInjective(orig) && 0 <= i <= idx < t < |s| == |orig|
    requires LinkOf(orig[idx]).Some? && !Reach(orig, i, i) && (idx == i || !Reach(orig, i, idx))
    requires t == idx + LinkOf(orig[idx]).value
    requires s[t] == if Reach(orig, i, t) || (t <= idx && ReachFrom(orig, i, t)) then Abandoned else orig[t]
    ensures s[t] == orig[t] && !Reach(orig, i, t)
  {
    WalkInjective(orig, i, idx);
  }

  /** Each turn of the forward walk lands inside the buffer, on a `Start` or a drained slot. */
  lemma WalkAdvance(orig: seq<Event>, before: seq<Event>, s: seq<Event>, i: int, idx: int,
                    fp: Option<Offset>, forwardParents: seq<SyntaxKind>, kind: SyntaxKind)
    requires WalkState(orig, before, s, i, idx, fp, forwardParents, kind) && fp.Some?
    ensures idx + fp.value < |s|
    ensures s[idx + fp.value].Start? || s[idx + fp.value].Abandoned?
  {
    assert fp == LinkOf(orig[idx]) && LinkValidAt(orig, idx);
  }

  /** The walk begins at the `Start` in slot `i`, with its own kind collected. */
  lemma WalkStart(orig: seq<Event>, before: seq<Event>, i: int, kind: SyntaxKind, fp: Option<Offset>)
    requires LinksValid(orig) && Drained(orig, before, i) && i < |before|
    requires before[i] == Start(kind, fp)
    ensures !Reach(orig, i, i)
    ensures WalkState(orig, before, before[i := Abandoned], i, i, fp, [kind], kind)
  {
    StartCountAbandon(before, i);
    WalkBegin(orig, before, i);
    if LinksInjective(orig) {
      assert LinkValidAt(orig, i);
      ChainStep(orig, i);
    }
  }

  /** The walk stops where no offset is left to follow: the buffer is drained past slot `i`. */
  lemma WalkFinish(orig: seq<Event>, before: seq<Event>, s: seq<Event>, i: int, idx: int,
                   fp: Option<Offset>, forwardParents: seq<SyntaxKind>, kind: SyntaxKind)
    requires WalkState(orig, before, s, i, idx, fp, forwardParents, kind) && fp.None?
    ensures Drained(orig, s, i + 1)
    ensures LinksInjective(orig) ==> forwardParents == ChainKinds(orig, i)
  {
    WalkEnd(orig, s, i, idx);
  }

  /** One turn of the forward walk keeps `WalkState`. */
  lemma WalkAdvanced(orig: seq<Event>, before: seq<Event>, s0: seq<Event>, i: int, idx0: int,
                     fp0: Option<Offset>, collected: seq<SyntaxKind>, kind: SyntaxKind,
                     s: seq<Event>, idx: int, fp: Option<Offset>, forwardParents: seq<SyntaxKind>)
    requires WalkState(orig, before, s0, i, idx0, fp0, collected, kind) && fp0.Some?
    requires !Reach(orig, i, i)
    requires idx == idx0 + fp0.value && 0 <= idx < |s0|
    requires s == s0[idx := Abandoned] && fp == LinkOf(s0[idx]) && forwardParents == collected + StartKind(s0[idx])
    ensures WalkState(orig, before, s, i, idx, fp, forwardParents, kind)
  {
    assert fp0 == LinkOf(orig[idx0]);
    WalkAdvancedPlain(orig, before, s0, i, idx0, collected, kind, s, idx, fp, forwardParents);
    if LinksInjective(orig) {
      WalkAdvanceInjective(orig, s0, i, idx0, collected, idx, forwardParents);
    }
  }

  /** The part of one turn of the walk that holds whether or not the links are injective. */
  lemma WalkAdvancedPlain(orig: seq<Event>, before: seq<Event>, s0: seq<Event>, i: int, idx0: int,
                          collected: seq<SyntaxKind>, kind: SyntaxKind,
                          s: seq<Event>, idx: int, fp: Option<Offset>, forwardParents: seq<SyntaxKind>)
    requires LinksValid(orig) && Walking(orig, s0, i, idx0) && LinkOf(orig[idx0]).Some?
    requires |collected| + StartCount(s0) == StartCount(before) && |collected| >= 1 && collected[0] == kind
    requires idx == idx0 + LinkOf(orig[idx0]).value && 0 <= idx < |s0|
    requires s == s0[idx := Abandoned] && fp == LinkOf(s0[idx]) && forwardParents == collected + StartKind(s0[idx])
    ensures Walking(orig, s, i, idx) && idx != i
    ensures fp == (if Reach(orig, i, idx) then None else LinkOf(orig[idx]))
    ensures |forwardParents| + StartCount(s) == StartCount(before)
    ensures |forwardParents| >= 1 && forwardParents[0] == kind
  {
    WalkStep(orig, s0, i, idx0, idx);
    StartCountAbandon(s0, idx);
  }

  /**
   * The forward walk of `Event::sink` from the `Start` at slot `i`: drain
   * each forward parent in turn, collecting the kinds on the chain, innermost
   * first, until a parent without a forward offset or one already drained.
   */
  method ForwardWalk(events: array<Event>, i: nat, kind: SyntaxKind, forwardParent: Option<Offset>,
                     ghost orig: seq<Event>)
    returns (forwardParents: seq<SyntaxKind>)
    requires LinksValid(orig) && Drained(orig, events[..], i) && i < events.Length
    requires events[i] == Start(kind, forwardParent)
    modifies events
    ensures Drained(orig, events[..], i + 1)
    ensures |forwardParents| + StartCount(events[..]) == StartCount(old(events[..]))
    ensures |forwardParents| >= 1 && forwardParents[0] == kind
    ensures LinksInjective(orig) ==> forwardParents == ChainKinds(orig, i)
  {
    ghost var before := events[..];
    WalkStart(orig, before, i, kind, forwardParent);
    events[i] := Abandoned;
    assert events[..] == before[i := Abandoned];
    forwardParents := [kind];
    var idx := i;
    var fp := forwardParent;
    ghost var s := events[..];
    while fp.Some?
      invariant events[..] == s
      invariant WalkState(orig, before, s, i, idx, fp, forwardParents, kind)
      decreases events.Length - idx
    {
      ghost var s0, idx0, fp0, collected := s, idx, fp, forwardParents;
      WalkAdvance(orig, before, s, i, idx, fp, forwardParents, kind);
      idx := idx + fp.value;
      var target := events[idx];
      events[idx] := Abandoned;
      s := s[idx := Abandoned];
      match target {
        case Start(parentKind, parentForward) =>
          forwardParents := forwardParents + [parentKind];
          fp := parentForward;
        case Abandoned =>
          fp := None;
        case _ =>
          assert false;
      }
      WalkAdvanced(orig, before, s0, i, idx0, fp0, collected, kind, s, idx, fp, forwardParents);
    }
    WalkFinish(orig, before, s, i, idx, fp, forwardParents, kind);
  }

  /** `for kind in forward_parents.drain(..).rev()`: open the chain, outermost first. */
  method StartAll(trace: seq<Call>, forwardParents: seq<SyntaxKind>) returns (trace': seq<Call>)
    ensures trace' == trace + OpenReversed(forwardParents)
  {
    trace' := trace;
    var n := |forwardParents|;
    while n > 0
      invariant 0 <= n <= |forwardParents|
      invariant trace' == trace + OpenReversed(forwardParents[n..])
    {
      n := n - 1;
      assert forwardParents[n..][1..] == forwardParents[n + 1..];
      trace' := trace' + [StartCall(forwardParents[n])];
    }
    assert forwardParents[0..] == forwardParents;
  }

  /**
   * `Event::sink`, with the kinds of forward parents collected on the walk
   * (the corrected replay; `EventSinkAsWritten` records the original). Each
   * slot is drained to `Abandoned`; `Finish`, `Leaf` and `Error` events become
   * one call each, in order; each `Start` becomes exactly one `start` call; a
   * balanced buffer yields well-nested calls; and with injective forward links
   * the calls are exactly `Replay` of the buffer.
   */
  method Sink(events: array<Event>) returns (trace: seq<Call>)
    requires LinksValid(events[..])
    modifies events
    ensures forall j | 0 <= j < events.Length :: events[j] == Abandoned
    ensures Unstarted(trace) == Plain(old(events[..]))
    ensures Opens(trace) == StartCount(old(events[..]))
    ensures Dyck(old(events[..])) ==> WellNested(trace)
    ensures LinksInjective(old(events[..])) ==> trace == Replay(old(events[..]))
  {
    ghost var orig := events[..];
    trace := [];
    ReplayingInitially(orig);
    for i := 0 to events.Length
      invariant Replaying(orig, events[..], i, trace)
    {
      ghost var before := events[..];
      var event := events[i];
      match event {
        case Abandoned =>
          ReplayingPastAbandoned(orig, before, i, trace);
        case Start(kind, forwardParent) =>
          var forwardParents := ForwardWalk(events, i, kind, forwardParent, orig);
          ReplayingPastStart(orig, before, events[..], i, trace, forwardParents);
          trace := StartAll(trace, forwardParents);
        case _ =>
          events[i] := Abandoned;
          var call := match event
            case Leaf(kind) => LeafCall(kind)
            case Error(error) => ErrorCall(error)
            case _ => FinishCall;
          assert events[..] == before[i := Abandoned];
          ReplayingPastPlain(orig, before, i, trace, call);
          trace := trace + [call];
      }
    }
    ReplayingDone(orig, events[..], trace);
  }
}

=== FILE: sink_as_written.dfy ===
/**
 * `Event::sink` as the repository writes it, next to the corrected replay of
 * `EventSink`. The forward walk of the original drains every forward parent
 * but keeps only the `forward_parent` field of each one, so only the kind of
 * the node the walk started from is ever pushed: the forward parents are never
 * opened, while their `Finish` events still are replayed. The buffer that the
 * documentation of `Event` gives for `a<b` shows it.
 */
module EventSinkAsWritten {
  import opened Kinds
  import opened Events
  import EventSink

  /**
   * The calls the original loop emits for slot `i`: an untargeted `Start`
   * opens its own kind only; a targeted one was drained by an earlier walk.
   * So at most one call, and a `start` only of the slot's own kind.
   */
  ghost function EmitAsWritten(evs: seq<Event>, i: nat): (calls: seq<Call>)
    requires LinksValid(evs) && i < |evs|
    ensures |calls| <= 1
    ensures |calls| == 1 && calls[0].StartCall? ==> evs[i].Start? && calls[0].kind == evs[i].kind
  {
    match evs[i]
    case Start(kind, _) => if Targeted(evs, i) then [] else [StartCall(kind)]
    case _ => PlainCall(evs[i])
  }

  /** The calls of the original loop for the first `n` slots: at most one per slot. */
  ghost function ReplayAsWrittenUpTo(evs: seq<Event>, n: nat): (calls: seq<Call>)
    requires LinksValid(evs) && n <= |evs|
    ensures |calls| <= n
  {
    if n == 0 then [] else ReplayAsWrittenUpTo(evs, n - 1) + EmitAsWritten(evs, n - 1)
  }

  /**
   * The tree-sink calls the original `Event::sink` makes for a buffer: at
   * most one per slot, so a preceded node can never have its chain opened.
   */
  ghost function ReplayAsWritten(evs: seq<Event>): (calls: seq<Call>)
    requires LinksValid(evs)
    ensures |calls| <= |evs|
  {
    ReplayAsWrittenUpTo(evs, |evs|)
  }

  lemma {:induction false} UnstartedStep(a: seq<Call>, b: seq<Call>)
    requires |b| <= 1
    ensures Unstarted(a + b) == Unstarted(a) + Unstarted(b)
  {
    if |b| == 0 {
      assert a + b == a;
    } else {
      assert (a + b)[..|a + b| - 1] == a;
      assert b[..0] == [];
    }
  }

  /** The calls of the original loop other than `start` are the buffer's plain calls, in order. */
  lemma {:induction false} ReplayAsWrittenPlain(evs: seq<Event>, n: nat)
    requires LinksValid(evs) && n <= |evs|
    ensures Unstarted(ReplayAsWrittenUpTo(evs, n)) == Plain(evs[..n])
  {
    if n > 0 {
      var i := n - 1;
      var prefix := ReplayAsWrittenUpTo(evs, i);
      var e := EmitAsWritten(evs, i);
      assert ReplayAsWrittenUpTo(evs, n) == prefix + e;
      ReplayAsWrittenPlain(evs, i);
      EmitAsWrittenPlain(evs, i);
      UnstartedJoin(prefix, e, Plain(evs[..i]), PlainCall(evs[i]));
      EventCountsStep(evs, i);
    }
  }

  lemma UnstartedJoin(a: seq<Call>, b: seq<Call>, pa: seq<Call>, pb: seq<Call>)
    requires |b| <= 1 && Unstarted(a) == pa && Unstarted(b) == pb
    ensures Unstarted(a + b) == pa + pb
  {
    UnstartedStep(a, b);
  }

  /** The `start`-free calls of one slot under the original loop are its plain call. */
  lemma EmitAsWrittenPlain(evs: seq<Event>, i: nat)
    requires LinksValid(evs) && i < |evs|
    ensures Unstarted(EmitAsWritten(evs, i)) == PlainCall(evs[i])
  {
    var e := EmitAsWritten(evs, i);
    if |e| == 1 {
      assert e[..0] == [];
    }
  }

  /**
   * Without forward parents the original loop makes exactly the calls of the
   * declarative replay: the two differ only where a node was preceded.
   */
  lemma {:induction false} ReplayAsWrittenUnlinked(evs: seq<Event>, n: nat)
    requires LinksValid(evs) && n <= |evs|
    requires forall h | 0 <= h < |evs| :: LinkOf(evs[h]).None?
    ensures ReplayAsWrittenUpTo(evs, n) == ReplayUpTo(evs, n)
  {
    if n > 0 {
      var i := n - 1;
      ReplayAsWrittenUnlinked(evs, i);
      EmitUnlinked(evs, i);
      calc {
        ReplayAsWrittenUpTo(evs, n);
        ReplayAsWrittenUpTo(evs, i) + EmitAsWritten(evs, i);
        ReplayUpTo(evs, i) + Emit(evs, i);
        ReplayUpTo(evs, n);
      }
    }
  }

  lemma EmitUnlinked(evs: seq<Event>, i: nat)
    requires LinksValid(evs) && i < |evs| && LinkOf(evs[i]).None?
    ensures EmitAsWritten(evs, i) == Emit(evs, i)
  {
    if evs[i].Start? {
      assert ChainKinds(evs, i) == [evs[i].kind];
      assert OpenReversed([evs[i].kind]) == [StartCall(evs[i].kind)];
    }
  }

  // ---------------------------------------------------------------------
  // The documented example: the events for `a<b`

  /** The event buffer the documentation of `Event` gives for `a<b`. */
  function ComparisonBuffer(): (evs: seq<Event>)
    ensures |evs| == 9
  {
    [ Start(TermIdentifier, Some(3)),
      Leaf(Terminal(Identifier)),
      Finish,
      Start(ExpressionComparison, None),
      Leaf(Terminal(LessThanSign)),
      Start(TermIdentifier, None),
      Leaf(Terminal(Identifier)),
      Finish,
      Finish ]
  }

  /**
   * The tree the documentation says the buffer stands for, as tree-sink
   * calls: a well-nested forest, the comparison around both terms.
   */
  function ComparisonTree(): (calls: seq<Call>)
    ensures WellNested(calls)
  {
    var calls := [
      StartCall(ExpressionComparison),
      StartCall(TermIdentifier),
      LeafCall(Terminal(Identifier)),
      FinishCall,
      LeafCall(Terminal(LessThanSign)),
      StartCall(TermIdentifier),
      LeafCall(Terminal(Identifier)),
      FinishCall,
      FinishCall ];
    NestingTable(calls, [0, 1, 2, 2, 1, 1, 2, 2, 1, 0]);
    assert calls[..|calls|] == calls;
    calls
  }

  /** Only slot 3 is a forward parent, of slot 0. */
  lemma ComparisonTargets(j: nat)
    requires j < 9
    ensures Targeted(ComparisonBuffer(), j) <==> j == 3
  {
    var evs := ComparisonBuffer();
    if j == 3 {
      assert LinksTo(evs, 0, 3);
    }
    forall h | 0 <= h < j
      ensures LinksTo(evs, h, j) ==> h == 0 && j == 3
    {
      if h != 0 {
        assert LinkOf(evs[h]).None?;
      }
    }
  }

  lemma ComparisonBufferWellFormed()
    ensures LinksValid(ComparisonBuffer()) && LinksInjective(ComparisonBuffer())
    ensures Dyck(ComparisonBuffer())
  {
    var evs := ComparisonBuffer();
    forall h | 0 <= h < |evs|
      ensures LinkValidAt(evs, h)
    {
      if h != 0 {
        assert LinkOf(evs[h]).None?;
      }
    }
    forall h1, h2 | 0 <= h1 < h2 < |evs|
      ensures DistinctParents(evs, h1, h2)
    {
      assert LinkOf(evs[h2]).None?;
    }
    var depths := [0, 1, 1, 0, 1, 1, 2, 2, 1, 0];
    forall k | 0 <= k <= |evs|
      ensures Depth(evs[..k]) == depths[k]
    {
      PrefixDepth(evs, depths, k);
    }
  }

  /** The depth of every prefix of the buffer, one slot at a time. */
  lemma {:induction false} PrefixDepth(evs: seq<Event>, depths: seq<int>, k: nat)
    requires |evs| + 1 == |depths| && k <= |evs|
    requires depths[0] == 0
    requires forall n | 0 < n <= |evs| ::
      depths[n] == depths[n - 1] + (if evs[n - 1].Start? then 1 else 0) - (if evs[n - 1].Finish? then 1 else 0)
    ensures Depth(evs[..k]) == depths[k]
  {
    if k > 0 {
      PrefixDepth(evs, depths, k - 1);
      EventCountsStep(evs, k - 1);
    }
  }

  /**
   * The corrected replay builds the documented tree: the comparison is opened
   * around the term it was preceded to, and the calls are well nested.
   */
  lemma ComparisonReplay()
    ensures LinksValid(ComparisonBuffer())
    ensures Replay(ComparisonBuffer()) == ComparisonTree()
    ensures WellNested(ComparisonTree())
  {
    ComparisonReplayCalls();
  }

  lemma ComparisonChains()
    ensures LinksValid(ComparisonBuffer())
    ensures ChainKinds(ComparisonBuffer(), 0) == [TermIdentifier, ExpressionComparison]
    ensures ChainKinds(ComparisonBuffer(), 5) == [TermIdentifier]
  {
    var evs := ComparisonBuffer();
    ComparisonBufferWellFormed();
    assert ChainKinds(evs, 3) == [ExpressionComparison];
  }

  lemma ComparisonReplayCalls()
    ensures LinksValid(ComparisonBuffer())
    ensures Replay(ComparisonBuffer()) == ComparisonTree()
  {
    var evs := ComparisonBuffer();
    var tree := ComparisonTree();
    assert |tree| == 9;
    ComparisonChains();
    ComparisonTargets(0);
    ComparisonTargets(3);
    ComparisonTargets(5);
    assert ReplayUpTo(evs, 1) == tree[..2];
    assert ReplayUpTo(evs, 4) == tree[..4];
    assert ReplayUpTo(evs, 6) == tree[..6];
    assert ReplayUpTo(evs, 8) == tree[..8];
    assert ReplayUpTo(evs, 9) == tree[..9];
    assert tree[..9] == tree;
  }

  /** A table of per-prefix nestings, checked one call at a time, is the nesting of every prefix. */
  lemma NestingTable(calls: seq<Call>, nestings: seq<int>)
    requires |calls| + 1 == |nestings|
    requires nestings[0] == 0
    requires forall n | 0 < n <= |calls| ::
      nestings[n] == nestings[n - 1] + (if calls[n - 1].StartCall? then 1 else 0) - (if calls[n - 1].FinishCall? then 1 else 0)
    ensures forall k | 0 <= k <= |calls| :: Nesting(calls[..k]) == nestings[k]
  {
    forall k | 0 <= k <= |calls|
      ensures Nesting(calls[..k]) == nestings[k]
    {
      PrefixNesting(calls, nestings, k);
    }
  }

  lemma {:induction false} PrefixNesting(calls: seq<Call>, nestings: seq<int>, k: nat)
    requires |calls| + 1 == |nestings| && k <= |calls|
    requires nestings[0] == 0
    requires forall n | 0 < n <= |calls| ::
      nestings[n] == nestings[n - 1] + (if calls[n - 1].StartCall? then 1 else 0) - (if calls[n - 1].FinishCall? then 1 else 0)
    ensures Nesting(calls[..k]) == nestings[k]
  {
    if k > 0 {
      PrefixNesting(calls, nestings, k - 1);
      assert calls[..k][..k - 1] == calls[..k - 1];
    }
  }

  /** The calls the original replay makes for the `a<b` buffer. */
  function ComparisonCallsAsWritten(): seq<Call>
  {
    [ StartCall(TermIdentifier), LeafCall(Terminal(Identifier)), FinishCall,
      LeafCall(Terminal(LessThanSign)),
      StartCall(TermIdentifier), LeafCall(Terminal(Identifier)), FinishCall,
      FinishCall ]
  }

  lemma ComparisonReplayAsWrittenCalls()
    ensures LinksValid(ComparisonBuffer())
    ensures ReplayAsWritten(ComparisonBuffer()) == ComparisonCallsAsWritten()
  {
    ComparisonBufferWellFormed();
    var evs := ComparisonBuffer();
    var calls := ComparisonCallsAsWritten();
    ComparisonTargets(0);
    ComparisonTargets(3);
    ComparisonTargets(5);
    assert ReplayAsWrittenUpTo(evs, 1) == calls[..1];
    assert ReplayAsWrittenUpTo(evs, 4) == calls[..3];
    assert ReplayAsWrittenUpTo(evs, 6) == calls[..5];
    assert ReplayAsWrittenUpTo(evs, 9) == calls;
  }

  /**
   * The original replay of the same buffer never opens the comparison, yet
   * replays its `Finish`: it closes one node more than it opens.
   */
  lemma ComparisonReplayAsWritten()
    ensures LinksValid(ComparisonBuffer())
    ensures ReplayAsWritten(ComparisonBuffer()) == ComparisonCallsAsWritten()
    ensures Nesting(ReplayAsWritten(ComparisonBuffer())) == -1
    ensures !WellNested(ReplayAsWritten(ComparisonBuffer()))
    ensures ReplayAsWritten(ComparisonBuffer()) != Replay(ComparisonBuffer())
  {
    ComparisonReplayAsWrittenCalls();
    ComparisonReplay();
    assert ComparisonCallsAsWritten()[0] != ComparisonTree()[0];
    ComparisonNestingAsWritten();
  }

  lemma ComparisonNestingAsWritten()
    ensures Nesting(ComparisonCallsAsWritten()) == -1
  {
    var calls := ComparisonCallsAsWritten();
    var nestings := [0, 1, 1, 0, 0, 1, 1, 0, -1];
    PrefixNesting(calls, nestings, |calls|);
    assert calls[..|calls|] == calls;
  }

  /** The corrected `Event::sink` on the `a<b` buffer makes exactly the documented calls. */
  method SinkComparisonBuffer() returns (trace: seq<Call>)
    ensures trace == ComparisonTree()
    ensures WellNested(trace)
  {
    var buffer := ComparisonBuffer();
    var events := new Event[|buffer|](i requires 0 <= i < |buffer| => buffer[i]);
    assert events[..] == buffer;
    ComparisonBufferWellFormed();
    ComparisonReplay();
    trace := EventSink.Sink(events);
  }
}

=== FILE: token_set.dfy ===
/**
 * `TokenSet`: a set of terminal kinds packed into a 128-bit word, one bit per
 * kind ordinal. Used by the parser for recovery-membership tests.
 */
module TokenSets {
  import opened Kinds

  datatype TokenSet = TokenSet(bits: bv128)
  {
    /**
     * `set & kind`: whether `kind`'s bit is set. The source computes it as
     * `set & TokenSet::new(kind) != EMPTY`; `ContainsIsSingletonTest` shows the two agree.
     */
    predicate Contains(kind: TokenKind)
    {
      HasBit(bits, Shift(kind))
    }

    /** `set & other`: a kind is in the result iff it is in both. */
    function Intersect(other: TokenSet): (r: TokenSet)
      ensures forall k :: r.Contains(k) <==> Contains(k) && other.Contains(k)
    {
      forall k ensures TokenSet(bits & other.bits).Contains(k) <==> Contains(k) && other.Contains(k) {
        AndContains(this, other, k);
      }
      TokenSet(bits & other.bits)
    }

    /** `set | other`: a kind is in the result iff it is in either. */
    function Union(other: TokenSet): (r: TokenSet)
      ensures forall k :: r.Contains(k) <==> Contains(k) || other.Contains(k)
    {
      forall k ensures TokenSet(bits | other.bits).Contains(k) <==> Contains(k) || other.Contains(k) {
        OrContains(this, other, k);
      }
      TokenSet(bits | other.bits)
    }

    /** `set | kind`, the value `set |= kind` stores: adds `kind` and keeps every member. */
    function With(kind: TokenKind): (r: TokenSet)
      ensures forall k :: r.Contains(k) <==> k == kind || Contains(k)
    {
      Union(Singleton(kind))
    }
  }

  /** `TokenSet::EMPTY`. */
  const EMPTY: TokenSet := TokenSet(0)

  /** The shift amount `kind as u16`; every ordinal is below 128, so it fits the 128-bit word. */
  function Shift(kind: TokenKind): bv7
  {
    Ordinal(kind) as bv7
  }

  /** Whether bit `n` of `x` is set. */
  predicate HasBit(x: bv128, n: bv7)
  {
    x & (1 << n) != 0
  }

  lemma AndContains(a: TokenSet, b: TokenSet, k: TokenKind)
    ensures TokenSet(a.bits & b.bits).Contains(k) <==> a.Contains(k) && b.Contains(k)
  {
    AndBit(a, b, Shift(k));
  }

  lemma OrContains(a: TokenSet, b: TokenSet, k: TokenKind)
    ensures TokenSet(a.bits | b.bits).Contains(k) <==> a.Contains(k) || b.Contains(k)
  {
    OrBit(a, b, Shift(k));
  }

  lemma AndBit(a: TokenSet, b: TokenSet, n: bv7)
    ensures HasBit(a.bits & b.bits, n) <==> HasBit(a.bits, n) && HasBit(b.bits, n)
  {
    AndWordBit(a.bits, b.bits, n);
  }

  lemma AndWordBit(x: bv128, y: bv128, n: bv7)
    ensures HasBit(x & y, n) <==> HasBit(x, n) && HasBit(y, n)
  {
  }

  lemma OrBit(a: TokenSet, b: TokenSet, n: bv7)
    ensures HasBit(a.bits | b.bits, n) <==> HasBit(a.bits, n) || HasBit(b.bits, n)
  {
    OrWordBit(a.bits, b.bits, n);
  }

  lemma OrWordBit(x: bv128, y: bv128, n: bv7)
    ensures HasBit(x | y, n) <==> HasBit(x, n) || HasBit(y, n)
  {
    OrDistributes(x, y, 1 << n);
    OrNonZero(x & (1 << n), y & (1 << n));
  }

  lemma OrDistributes(x: bv128, y: bv128, b: bv128)
    ensures (x | y) & b == (x & b) | (y & b)
  {
  }

  lemma OrNonZero(p: bv128, q: bv128)
    ensures p | q != 0 <==> p != 0 || q != 0
  {
  }

  lemma ShiftBit(m: bv7, n: bv7)
    ensures HasBit(1 << m, n) <==> n == m
  {
  }

  /** Distinct kinds have distinct shift amounts. */
  lemma ShiftInjective(a: TokenKind, b: TokenKind)
    ensures Shift(a) == Shift(b) ==> a == b
  {
    OrdinalInjective(a, b);
  }

  /** `EMPTY` contains no kind. */
  lemma EmptyContainsNothing(kind: TokenKind)
    ensures !EMPTY.Contains(kind)
  {
  }

  /** `TokenSet::new(kind)`: `1u128 << (kind as u16)` contains exactly `kind`. */
  function Singleton(kind: TokenKind): (s: TokenSet)
    ensures forall k :: s.Contains(k) <==> k == kind
  {
    forall k ensures HasBit(1 << Shift(kind), Shift(k)) <==> k == kind {
      ShiftBit(Shift(kind), Shift(k));
      ShiftInjective(k, kind);
    }
    TokenSet(1 << Shift(kind))
  }

  /** Membership is the source's test `set & TokenSet::new(kind) != EMPTY`. */
  lemma ContainsIsSingletonTest(s: TokenSet, kind: TokenKind)
    ensures s.Contains(kind) <==> s.Intersect(Singleton(kind)) != EMPTY
  {
  }

  /** `TokenSet::from_iter`: the set of exactly the kinds iterated. */
  method FromIter(kinds: seq<TokenKind>) returns (set_: TokenSet)
    ensures forall k :: set_.Contains(k) <==> k in kinds
  {
    set_ := EMPTY;
    for i := 0 to |kinds|
      invariant forall k :: set_.Contains(k) <==> k in kinds[..i]
    {
      set_ := set_.With(kinds[i]);
      assert kinds[..i + 1] == kinds[..i] + [kinds[i]];
    }
    assert kinds[..|kinds|] == kinds;
  }
}
